=== FILE: README.md ===
# Symbolic braid engine — a Dafny model

This project models the core of a tick-driven symbolic anchor engine and proves properties of the model.

**The symbolic state.** It is a record of:
- a clock;
- the set of discovered anchors;
- integer resilience and pair-counter maps;
- append-only logs: cycles, discoveries, memory depth and the symbol chain.

**The simulation tick.** A tick runs ten trials. Each trial:
- reinforces the anchor whose predicate held;
- discovers and logs it;
- counts its co-occurrence with every other discovered anchor;
- records a cycle when a pair counter reaches the threshold.

After the trials:
- every anchor not hit this tick decays, and is evicted below the decay threshold;
- a memory-depth sample is appended;
- the clock advances.

**Around the tick.**
- Environment observation reinforces anchors from an outcome oracle.
- The filter façade validates prompts and scores outputs by running ticks.
- The self-loop promotes and demotes anchors by resilience.
- Two controllers exist:
  - the stability controller scores recent history;
  - the drift controller compares digests of successive self-statements.
- Anchor derivation mutates and fuses anchor records.
- Two reporting functions rank discoveries and classify clusters.

**How the model is built.**
- The state and the anchors are immutable datatypes. Every operation is a pure function.
- Everything the source draws at random becomes an explicit input:
  - the per-trial anchor choice and predicate outcome;
  - the memory-decay draw;
  - `random.sample`/`random.choice` positions;
  - the seeded `randint` streams.
- SHA-256 (FIPS 180-4) and MD5 (RFC 1321) are opaque functions. They return 64 and 32 lower-case hex characters.
- Python iterates a dict in insertion order and a set in hash order. Except for the weakest-anchor choice, the model replaces both by ascending code-point order (`Strings.Sorted`, `Strings.Least`).
- The weakest-anchor choice takes the dict's insertion order as an explicit input (`SelfLoop.KeyOrder`), so its tie-break is the source's.

Modules follow the repository's files:

| module | file |
|---|---|
| `SymbolicState`, `Simulation`, `SimulationProperties`, `TickProperties` | symbolic_braid_simulation.py |
| `TruthAnchors`, `Observation` | truth_anchors.py |
| `Equilibrium` (with `Numbers`) | braid_equilibrium.py |
| `Mutation` | symbolic_mutation.py |
| `Fusion` | braid_self_directed_fusion.py |
| `Controller` (with `Mirror`) | symbolic_controller.py |
| `Tracker` | anchor_tracker.py |
| `Capability` | capability_mapper.py |
| `Filter` | symbolic_filter_wrapper.py |
| `SelfLoop` | symbolic_self_loop_enhanced.py |

`Wrappers`, `Strings` and `Anchors` hold the shared vocabulary:
- `Option` and `Result`, with a `Result` failure standing for a raised exception;
- string order and substrings;
- the anchor record and the digest types.

## Model

| member | source | states |
|---|---|---|
| SymbolicState.Fresh | symbolic_braid_simulation.py:10-21 | A new state has time 0 and every collection empty, so the key invariant holds |
| SymbolicState.FromDict | symbolic_braid_simulation.py:38-52 | The discovered set holds exactly the listed names; each missing key falls back to the fresh state's value |
| SymbolicState.DictRoundTrip | symbolic_braid_simulation.py:23-52 | `from_dict(to_dict(s))` reproduces every field of `s`; the discovered set goes through a list and comes back as the same set |
| SymbolicState.FromEmptyDictIsFresh | symbolic_braid_simulation.py:10-21 | Reading back an empty dictionary gives the fresh state: time 0 and every collection empty |
| SymbolicState.ToDict | symbolic_braid_simulation.py:23-36 | The snapshot lists each discovered anchor exactly once and nothing else |
| SymbolicState.FreshKeysMatch | symbolic_braid_simulation.py:10-21 | A fresh state has resilience keys equal to the discovered set |
| Simulation.SimulateStep | symbolic_braid_simulation.py:68-69 | `n` ticks advance `time` by exactly `n` and append exactly `n` memory-depth samples, keeping the earlier ones |
| Simulation.Tick | symbolic_braid_simulation.py:112-118 | One tick advances the clock by one and appends one memory-depth sample |
| Simulation.Reinforce | symbolic_braid_simulation.py:88-103 | A failed trial changes nothing. A success raises its anchor's resilience by one (from 0 when absent) and discovers it; clock, depth and chain are untouched |
| Simulation.Decay | symbolic_braid_simulation.py:105-110 | Exactly the evicted anchors leave both the resilience map and the discovered set; clock and depth are untouched |
| Simulation.Reached | symbolic_braid_simulation.py:98-103 | The cycles one success records name exactly the pairs, of the anchor with a partner, whose counter was one short of the threshold |
| Simulation.CountPairsValues | symbolic_braid_simulation.py:98-101 | Over distinct partners, a success adds exactly 1 to each of its pair counters and leaves every other counter alone |
| Simulation.CountPairsCycles | symbolic_braid_simulation.py:101-103 | The cycle records appended are exactly those for counters that become equal to the threshold |
| SimulationProperties.ReinforceCounters | symbolic_braid_simulation.py:98-101 | A success of `a` increments the counter of `a` with every other discovered anchor, and no other counter |
| SimulationProperties.ReinforceCycles | symbolic_braid_simulation.py:101-103 | A success appends one cycle record, stamped with the tick's time, per partner whose counter reaches the threshold, and no other record |
| SimulationProperties.ReinforceLog | symbolic_braid_simulation.py:94-96 | A trial logs its anchor exactly when it discovers it, stamped with the tick's time and `anchor_tiers.get(anchor, 8)` |
| SimulationProperties.TrialsLogAnchors | symbolic_braid_simulation.py:94-96 | The trials log each newly discovered anchor exactly once: the logged names are the hits not discovered before, without duplicates |
| SimulationProperties.TrialsCyclesConsistent | symbolic_braid_simulation.py:98-103 | The trials keep the cycle log consistent with the counters: each recorded pair has reached the threshold and is recorded once |
| SimulationProperties.TrialsCurvature | symbolic_braid_simulation.py:92 | The trials keep phase curvature non-negative and never raise it. A newly hit anchor starts at 0 |
| SimulationProperties.ReinforceCurvature | symbolic_braid_simulation.py:92 | A success sets its anchor's curvature to `max(0, c - 0.5)` (missing = 0) and raises no curvature |
| SimulationProperties.TrialsCurvatureOfHits | symbolic_braid_simulation.py:92 | An anchor with curvature `c` that the trials hit ends at most at `max(0, c - 0.5)` |
| TickProperties.TickKeysMatch | symbolic_braid_simulation.py:88-110 | If the resilience keys equal the discovered set before a tick, they do after it |
| TickProperties.TickHitAnchor | symbolic_braid_simulation.py:88-110 | An anchor hit `k >= 1` times gains exactly `k` resilience, is discovered, and is not decayed |
| TickProperties.TickUnhitAnchor | symbolic_braid_simulation.py:105-110 | An unhit anchor loses `decay_rate`; it leaves both the resilience map and the discovered set iff the result is below `decay_threshold` |
| TickProperties.TickUntouchedAnchor | symbolic_braid_simulation.py:105-110 | An anchor neither present nor hit gets no resilience entry |
| TickProperties.TickDiscovered | symbolic_braid_simulation.py:95-109 | After a tick, the discovered set is the old set plus the hits, minus the evicted anchors |
| TickProperties.TickResiliencePositive | symbolic_braid_simulation.py:91-110 | With `decay_threshold >= 1`, a tick keeps every resilience value at least 1 |
| TickProperties.TickSymbolChain | symbolic_braid_simulation.py:108 | A tick appends exactly one `(anchor, anchor)` link per evicted anchor, and nothing else |
| TickProperties.TickDiscoveryLog | symbolic_braid_simulation.py:76-96 | New log entries are the newly discovered anchors, once each. Each has the tick's time, the table tier (default 8) and no expression |
| TickProperties.TickCycles | symbolic_braid_simulation.py:98-103 | Counters only grow and cycle records are only appended, stamped with the tick's time. The cycle log stays consistent, so no pair is recorded twice |
| TickProperties.TickMemoryDepth | symbolic_braid_simulation.py:112-117 | The new depth is previous + successes if there were any, else `max(0, previous - d)` with `d` in 0..2 |
| TickProperties.TickDepthNonNegative | symbolic_braid_simulation.py:112-117 | Memory depths stay non-negative |
| TickProperties.TickCurvature | symbolic_braid_simulation.py:92 | Phase curvature stays non-negative and never increases |
| TickProperties.StepKeysMatch | symbolic_braid_simulation.py:68-119 | `simulate_step` preserves resilience keys = discovered set |
| TickProperties.StepCycles | symbolic_braid_simulation.py:98-103 | `simulate_step` only grows counters and keeps the cycle log consistent |
| TickProperties.StepDepthNonNegative | symbolic_braid_simulation.py:112-117 | `simulate_step` keeps memory depths non-negative |
| TickProperties.StepCurvature | symbolic_braid_simulation.py:92 | `simulate_step` keeps curvature non-negative and non-increasing |
| TickProperties.FreshInvariants | symbolic_braid_simulation.py:10-21 | All four invariants hold on a fresh state |
| TruthAnchors.ScaffoldNamesDistinct | truth_anchors.py:48-53 | The 27 scaffold keys are distinct, so the tier table maps each key to its own weight |
| TruthAnchors.TierTableLookup | truth_anchors.py:48-53 | A dict built from zipped distinct keys and weights maps the `i`-th key to the `i`-th weight, and leaves other keys alone |
| TruthAnchors.AnchorTiersLookup | truth_anchors.py:48-53 | `anchor_tiers` has exactly the scaffold keys, each mapped to its weight |
| TruthAnchors.AnchorTierValues | truth_anchors.py:48-53 | Every tier is in 1..8, tiers never decrease in key order, and the last 11 keys get 8 |
| Observation.ObserveEnvironment | truth_anchors.py:89 | Observation advances `time` by exactly 1 |
| Observation.ObserveAnchor | truth_anchors.py:75-88 | One predicate's pass changes only its own anchor. The anchor gains as much resilience as `aligned` count, never less than 0, and is discovered once it gains |
| Observation.ObserveAligned | truth_anchors.py:82-86 | `aligned[a]` equals the resilience `a` gained, which is its credit over the scaffold. Anchors absent from `aligned` are untouched |
| Observation.ObserveDiscovered | truth_anchors.py:83-84 | The call discovers exactly the aligned anchors, so it keeps resilience keys = discovered set |
| Observation.ObserveLog | truth_anchors.py:83-89 | One tier-less entry is logged per success, even for anchors already discovered. Entries carry the time before the call. Nothing else changes but the clock |
| Observation.RaiseStopsAnchor | truth_anchors.py:75-88 | An exception abandons that predicate's later streams and keeps the credits made before it |
| Observation.OnlyLeadingItemsMatter | truth_anchors.py:77-81 | A stream is evaluated only when it is a list at least as long as the arity, and only its first `arity` items are passed |
| Observation.GainOfDistinctScaffold | truth_anchors.py:75-88 | With distinct keys, an anchor's gain is its own predicate's credit: an exception in one predicate does not stop the next |
| Equilibrium.UpdateMetrics | braid_equilibrium.py:13-27 | The anchor and fusion counts are always appended. With two or more reflections, a coherence sample (1.0 iff the last two statements agree) and a shift sample in [0, 1] are appended; otherwise those series are unchanged |
| Equilibrium.UpdateMetricsAppends | braid_equilibrium.py:13-27 | The earlier samples are kept, and coherence and shift samples are appended iff the mirror log has two or more entries. So those series never outgrow the counts |
| Equilibrium.CoherenceSampleMeaning | braid_equilibrium.py:18-20 | The coherence sample is 1.0 iff the last two self-statements agree (missing = ""), else 0.0 |
| Equilibrium.SetShiftRange | braid_equilibrium.py:23-26 | The shift is in [0, 1]. It is 0 for equal non-empty sets and 1 for disjoint sets, including two empty sets |
| Equilibrium.StabilityIndex | braid_equilibrium.py:29-45 | Fewer than three anchor-count samples give exactly 0.5. Otherwise the index fails iff a needed series is empty (`statistics.mean` raises). When it succeeds it lies in [0, 1] and is a multiple of 0.001 |
| Equilibrium.StabilityIndexValue | braid_equilibrium.py:33-45 | With enough history the index is the weighted score of the recent means and growth, clamped to [0, 1] and rounded |
| Equilibrium.Clamp | braid_equilibrium.py:45 | `max(0.0, min(1.0, x))` lies in [0, 1], is `x` inside it and the nearer bound outside |
| Equilibrium.StabilityRisesWithCoherence | braid_equilibrium.py:33-45 | With the other inputs equal, a higher recent mean coherence never lowers the index |
| Equilibrium.StabilityFallsWithShift | braid_equilibrium.py:33-45 | With the other inputs equal, a higher recent mean shift never raises the index |
| Equilibrium.StabilityFallsWithGrowth | braid_equilibrium.py:35-45 | With the other inputs equal, a larger anchor growth in either direction never raises the index |
| Equilibrium.StabilityPerfect | braid_equilibrium.py:33-45 | Perfect coherence, no shift and no growth give exactly 1.0 |
| Equilibrium.Rate | braid_equilibrium.py:49-50 | The rate is at least 1, and otherwise the whole part of the exact product `scale * (1 - stability)`; below 2 it is 1 |
| Equilibrium.RatesRange | braid_equilibrium.py:49-50 | Fusion rate is in 1..5 and interval in 1..10 for stability in [0, 1]. Both are non-increasing in stability; 0.5 gives 2 and 5 |
| Equilibrium.RecommendAdjustments | braid_equilibrium.py:47-55 | The recommendation fails exactly when the stability index does. Otherwise it carries that index and the two rates computed from it, the fusion rate in 1..5 and the interval in 1..10 |
| Equilibrium.RecommendNeutral | braid_equilibrium.py:30-31 | Short histories recommend 0.5, 2 and 5 |
| Numbers.Round3 | braid_equilibrium.py:45 | `round(x, 3)` is a multiple of 0.001 within 0.0005 of `x` |
| Numbers.Trunc | braid_equilibrium.py:49-50 | `int(x)` rounds toward zero: it is within 1 of `x`, on `x`'s side of zero |
| Numbers.Round3Monotone | braid_equilibrium.py:45 | `round(x, 3)` is monotone |
| Numbers.Round3UnitRange | braid_equilibrium.py:45 | `round(x, 3)` keeps [0, 1] within [0, 1] |
| Numbers.Round3Fixed | braid_equilibrium.py:45 | 0, 0.5 and 1 are fixed points of `round(x, 3)` |
| Numbers.MeanBounds | braid_equilibrium.py:33-34 | The mean of a non-empty list lies within any bounds of its items |
| Mutation.MutateExpression | symbolic_mutation.py:11-16 | With a "+", every "+" becomes "-"; else with a "*", every "*" becomes "/"; else " + ε" is appended. In the first two cases the length is kept, no "+" (resp. "*") remains, and nothing else changes |
| Mutation.MutateTwice | symbolic_mutation.py:11-16 | Mutating twice an expression with neither "+" nor "*" gives `e + " - ε"` |
| Mutation.Perturb | symbolic_mutation.py:18-20 | The fingerprint keeps its length. Every component ends in [0, 255], within 5 of its input when the input was in range |
| Mutation.MutateAnchor | symbolic_mutation.py:7-26 | Fails (KeyError) iff the parent has no tier. Otherwise: name + "_mut", tier + 1, a 12-char prefix of the SHA-256 of name + expression as id, other keys unchanged. The expression is the rewritten one, and each fingerprint component is in [0, 255], within 5 of the parent's when that was in range |
| Mutation.MutantParent | symbolic_mutation.py:22-25 | Dropping "_mut" from the mutant's name gives the parent's name; its tier is above the parent's |
| Mutation.ApplyStabilityPressure | symbolic_mutation.py:28-32 | `None` iff stability < 0.95 or there are no anchors; otherwise the mutation of the drawn anchor |
| Mutation.PressureMutatesAnAnchor | symbolic_mutation.py:29-31 | At stability >= 0.95 with anchors, the result is the mutation of one of them |
| Fusion.Fuse | braid_self_directed_fusion.py:16-27 | A fused record has a 12-char id prefixing the MD5 of name + expression, 4 fingerprint components in [10, 255], the given tier and no other keys |
| Fusion.FusedTierAboveParents | braid_self_directed_fusion.py:14 | The fused tier exceeds both parents' tiers (missing = 1), so it is at least 2 |
| Fusion.FusedExpressionParts | braid_self_directed_fusion.py:13 | Both parent expressions and the connective can be read back from the fused expression |
| Fusion.FusedExpressionInjective | braid_self_directed_fusion.py:13 | Equal fused expressions with equal-length first parts come from equal parents' expressions |
| Fusion.FusedNameParts | braid_self_directed_fusion.py:12 | The fused name is `n1 + "_" + n2 + suffix`, each part readable back |
| Fusion.FuseAnchors | braid_self_directed_fusion.py:10-28 | `fuse_anchors` gives name `n1_n2_fusion` and expression `(e1) <=> (e2)`, with a tier one above the larger parent tier (missing = 1) |
| Fusion.FuseAnchorsShape | braid_self_directed_fusion.py:10-28 | `fuse_anchors` gives `n1_n2_fusion`, `(e1) <=> (e2)`, a tier above both parents, 4 components in [10, 255] depending on the expression alone, and a 12-char id |
| Fusion.FusePicks | braid_self_directed_fusion.py:32-39 | Each cycle fuses the anchors at the drawn positions, in order |
| Fusion.ReflectAndMutate | braid_self_directed_fusion.py:30-40 | Fails (ValueError) iff cycles > 0 with fewer than 2 anchors. Otherwise appends exactly `cycles` fusions and keeps the earlier ones |
| Fusion.ReflectFusesDistinctAnchors | braid_self_directed_fusion.py:33-39 | Every appended fusion fuses the anchors at two distinct positions |
| Controller.ObserveIdentity | symbolic_controller.py:17-32 | Fewer than 2 entries: `None`, no state change. Otherwise stores the current digest and returns the drift rounded; the first drift is 1.0, later drifts compare with the stored digest |
| Controller.HammingZero | symbolic_controller.py:26 | The differing-position count is at most the length, and 0 iff two equal-length strings are equal |
| Controller.DigestDriftRange | symbolic_controller.py:26 | Drift between digests lies in [0, 1] and is 0 iff the digests are equal |
| Controller.ObservedDriftRange | symbolic_controller.py:25-32 | Recorded and returned drift lie in [0, 1] |
| Controller.ObserveUnchangedStatement | symbolic_controller.py:25-32 | The first observation returns 1.0; observing again an unchanged self-statement gives drift 0 |
| Controller.EvaluateDrift | symbolic_controller.py:34-39 | True iff a drift is known and below the curiosity threshold; only then is the flag raised |
| Controller.DetectionSticky | symbolic_controller.py:36-39 | Once raised, the drift flag stays raised |
| Controller.ShouldFork | symbolic_controller.py:41-43 | Forks iff a drift is known and above the divergence trigger. With curiosity <= divergence, a fork excludes a curiosity trigger |
| Controller.CuriosityExcludesFork | symbolic_controller.py:36-43 | With curiosity <= divergence, curiosity and forking never coincide, and neither fires before a drift is known |
| Controller.InitialThresholdsOrdered | symbolic_controller.py:10-11 | With the defaults 0.9 and 0.98, no recorded drift triggers both |
| Controller.GenerateDriveSignal | symbolic_controller.py:45-65 | The drift is evaluated first. `None` unless curiosity fires with 2 or more anchors; KeyError iff a drawn anchor lacks a tier |
| Controller.DriveFusionShape | symbolic_controller.py:50-64 | The drive fusion has name `a1_a2_drivefusion`, expression `(e1) <drive> (e2)`, max tier + 1, 4 components in [10, 255] and a 12-char id |
| Controller.AnnotateMirror | symbolic_controller.py:67-73 | An empty log is unchanged. Otherwise only the last entry changes, gaining the drift and the stamp |
| Controller.AnnotateOnlyLatest | symbolic_controller.py:69-73 | Other entries, and the last entry's statement, strongest set and step, are unchanged |
| Tracker.Recent | anchor_tracker.py:5 | Only the last `min(50, len(log))` entries are used |
| Tracker.Score | anchor_tracker.py:6-8 | The score is at least tier/2 (missing = 0) and at most the expression's length (missing = "") plus tier/2 |
| Tracker.ScoreCountsDistinctCharacters | anchor_tracker.py:8 | Only the set of characters counts: equal tiers and equal character sets give equal scores, and repeating a character changes nothing |
| Strings.CharSetCard | anchor_tracker.py:8 | A string has at most as many distinct characters as its length |
| Tracker.RankingIsStableSort | anchor_tracker.py:4-10 | The ranking is ordered by non-increasing score, ties in log order. It has as many items as the window, each the scored entry at its own position |
| Tracker.TrackEmergence | anchor_tracker.py:4-10 | The output has `min(50, len(log))` pairs, ordered by non-increasing score |
| Tracker.TrackEmergenceSorted | anchor_tracker.py:10 | The output has `min(50, len(log))` pairs, non-increasing by score, and equal scores keep log order |
| Tracker.TrackEmergencePermutation | anchor_tracker.py:4-10 | The output is a permutation of the window entries' (anchor, score) pairs |
| Tracker.SortOrdered | anchor_tracker.py:10 | Insertion sort of items at distinct positions yields a stable non-increasing order |
| Tracker.TickEntriesScoreHalfTier | anchor_tracker.py:6-8 | Entries written by a tick have no expression, so they score half their tier |
| Capability.MapClusterToCapability | capability_mapper.py:3-14 | Each of the five labels is given iff its test holds and no earlier test does: recursive, all arithmetic, conditional, connective, then the fallback |
| Capability.LabelsDistinct | capability_mapper.py:5-14 | The five labels are distinct |
| Capability.ClassificationIgnoresOrder | capability_mapper.py:4-12 | Only which expressions occur matters, not their order or repetition |
| Capability.EmptyClusterIsArithmetic | capability_mapper.py:7-8 | An empty cluster maps to arithmetic simplification, since `all([])` holds |
| Capability.RecursiveDominates | capability_mapper.py:5-6 | One "^"/"ε" expression makes the cluster recursive reasoning, whatever else it holds |
| Capability.ConditionalBeforeConnective | capability_mapper.py:9-12 | A cluster neither recursive nor all-arithmetic that holds an "if" is a logic proof, whatever connectives it holds |
| Capability.ConditionalInsideWord | capability_mapper.py:11 | "if" is a substring test: any text holding "diff" holds "if" |
| Capability.DiffIsLogicProof | capability_mapper.py:9-12 | A lone expression holding "diff" and none of "^", "ε", "+", "-" is a logic proof |
| Capability.AppendedEpsilonIsRecursive | capability_mapper.py:5-6 | A cluster holding the `mutate_anchor` mutant of a tiered anchor with neither "+" nor "*" is recursive reasoning |
| Strings.ContainsAt | capability_mapper.py:11 | `sub in s` holds iff `sub` occurs at some position of `s` |
| Filter.ValidatePrompt | symbolic_filter_wrapper.py:33-41 | Exactly one tick with an empty tier table and default parameters. True iff the discovered set did not shrink; the prompt is not read |
| Filter.ValidateCountsDiscoveries | symbolic_filter_wrapper.py:37-41 | With keys = discovered, valid iff the tick discovers at least as many new anchors as it evicts |
| Filter.RejectionMeansEviction | symbolic_filter_wrapper.py:37-41 | A rejection implies some eviction, and so a longer symbol chain |
| Filter.FilterLogsDefaultTier | symbolic_filter_wrapper.py:38 | Every discovery logged by a filter tick has tier 8 |
| Filter.ScoreOutput | symbolic_filter_wrapper.py:43-52 | Exactly one tick. The score is 0.0 without resilience entries, and otherwise lies between the least and the greatest resilience after the tick |
| Filter.Values | symbolic_filter_wrapper.py:49 | `list(values())` has one item per key: the `i`-th item is the value of the `i`-th key in ascending order |
| Filter.MeanResilience | symbolic_filter_wrapper.py:49-52 | The mean is 0.0 for an empty map, otherwise between the least and the greatest value |
| Filter.MinValue | symbolic_filter_wrapper.py:49-51 | The least value is attained by some key and bounds every value from below |
| Filter.MaxValue | symbolic_filter_wrapper.py:49-51 | The greatest value is attained by some key and bounds every value from above |
| Filter.MeanWithin | symbolic_filter_wrapper.py:49-51 | The mean resilience lies within any bounds of the values |
| Filter.ScoreZeroOnlyWhenEmpty | symbolic_filter_wrapper.py:47-52 | From positive resilience, the score is 0.0 iff no entries remain, else at least 1.0 |
| Filter.Reset | symbolic_filter_wrapper.py:54-56 | Reset yields a fresh state: time 0, nothing discovered or logged, keys = discovered |
| Filter.ValidateHandler | symbolic_filter_wrapper.py:68-73 | Missing or empty prompt: an error, no tick, state unchanged. Otherwise the validation result after one tick |
| Filter.ScoreHandler | symbolic_filter_wrapper.py:75-80 | Missing or empty output: an error, no tick, state unchanged. Otherwise the score after one tick |
| Filter.ResetHandler | symbolic_filter_wrapper.py:82-85 | The reset endpoint leaves a fresh state and reports completion |
| SelfLoop.FirstMinimal | symbolic_self_loop_enhanced.py:19 | `min` over the keys in insertion order returns a key of least value that no earlier key ties |
| SelfLoop.WeakestAnchor | symbolic_self_loop_enhanced.py:14-19 | `None` iff no resilience entries. Otherwise an anchor of least resilience, the first such in insertion order |
| SelfLoop.FirstMinimalIsLeast | symbolic_self_loop_enhanced.py:19 | The key `min` returns has a value at most every key's value |
| SelfLoop.WeakestIsFirstInserted | symbolic_self_loop_enhanced.py:19 | Every anchor inserted before the weakest one has strictly greater resilience |
| SelfLoop.TieGoesToFirstInserted | symbolic_self_loop_enhanced.py:19 | Two anchors tied at 1 give whichever was inserted first |
| SelfLoop.GenerateQuestion | symbolic_self_loop_enhanced.py:21-33 | Without a weakest anchor, the drawn seed question |
| SelfLoop.QuestionEmbedsName | symbolic_self_loop_enhanced.py:23-25 | With a named weak anchor, the question is the fixed frame around its name with "_" read as " ", leaving no "_" |
| SelfLoop.Evolve | symbolic_self_loop_enhanced.py:45-53 | Evolution never changes resilience, time, counters, cycles or logs |
| SelfLoop.EvolvePromotes | symbolic_self_loop_enhanced.py:48-50 | Every anchor above 8 carries a marker. Existing markers are kept; new ones read "promoted" and go only to such anchors |
| SelfLoop.EvolveDemotes | symbolic_self_loop_enhanced.py:51-53 | An anchor stays discovered iff it was and its resilience is not at most 1 |
| SelfLoop.EvolveIdempotent | symbolic_self_loop_enhanced.py:45-53 | Evolving twice equals evolving once |
| SelfLoop.EvolveCanBreakKeysMatch | symbolic_self_loop_enhanced.py:51-53 | Demotion keeps the resilience entry, so resilience keys = discovered set can break |
| SelfLoop.EvolveKeepsKeysMatch | symbolic_self_loop_enhanced.py:51-53 | With no resilience at or below 1, resilience keys = discovered set is kept |

## Left out

- Predicate bodies (truth_anchors.py:7-44) are an opaque outcome oracle. Their numpy floating-point identities are not modelled; a raised exception is an outcome of its own.
- Each source of randomness is an explicit input instead of a generator:
  - `random.choice`, `random.sample`, `np.random.uniform`, `getrandbits` and `randint`;
  - global reseeding becomes a function from seed and position to a bounded draw.
- Determinism and the immutability of parents hold by construction: every operation is a pure function of its inputs.
- SHA-256 and MD5 internals are not modelled. They are arbitrary functions with the digest lengths and the hex alphabet.
- Floating point is modelled as exact reals:
  - `round(x, 3)` is round-half-even on exact thousandths;
  - `statistics.mean` and `np.mean` are exact means;
  - `scale * (1 - stability)` in the rates is an exact product.
- Equilibrium.Rate: at stability 0.8 the source computes `10 * (1 - 0.8)` in doubles as 1.9999999999999996, so `int()` gives 1; the model's exact product is 2.0 and gives 2. The model does not follow IEEE rounding here.
- Equilibrium.RecommendAdjustments: inherits that difference, so at stability index 0.8 the model recommends a reflection interval of 2 where the source recommends 1.
- The model replaces Python's dict insertion order and set hash order by ascending code-point order. So these orders can differ from the source's:
  - the order of cycle records within a trial (set order of `discovered`);
  - the order of symbol-chain links within a tick (dict order of `symbolic_resilience`);
  - the order of the list in `to_dict` (set order).
  The set of records, links and names is the same either way.
- SelfLoop.WeakestAnchor: the insertion order of the resilience dict is an input constrained only to list each key once. It is not derived from the history of hits and evictions that built the dict.
- Pair counter keys are two-element sets rather than sorted tuples. Both are canonical for an unordered pair.
- Pickle and JSON persistence is not modelled: `save_state`, `load_state`, `_load_or_initialize_state`, `_save_state` and the `__main__` block of braid_self_directed_fusion.py. The snapshot record stands for the dictionary.
- The language-model clients and the self-loop driver are not modelled:
  - `complete`, `loop_once`, `run` and `log_state`;
  - symbolic_self_loop.py, symbolic_mistral_agent.py, symbolic_gpt_agent.py and language_fusion.py.
- The FastAPI/uvicorn wiring, the process-wide filter object, and the CLI and batch drivers are left out. The three handlers are modelled as functions of the state.
- semantic_cluster.py (TF-IDF and KMeans) is not part of this model.
- Wall-clock time is a parameter:
  - `annotate_mirror` takes the stamp as an argument;
  - the controller's tick time and its unused memory trace are not modelled.

## Behaviour worth noting

- `reflect_and_mutate` with fewer than two anchors and `cycles > 0` raises `ValueError` from `random.sample` rather than stopping early. Modelled as a `Failure`.
- The identity shift of two empty `strongest` sets is 1.0, not 0. The overlap is 0 and the union is raised to 1, so the value is a full shift, unlike a Jaccard distance, which is 0 for two empty sets. `Equilibrium.SetShiftRange` states this case.
- A missing or empty prompt or output at the HTTP handlers returns an error body, not a negative result.
- The recommended rates use `int()`, which truncates toward zero, not rounding.
- The mutation replaces every "+" (or every "*"), not only the first.
- The drive fusion of the drift controller reads both parents' tiers strictly and raises `KeyError` on a missing tier, whereas `fuse_anchors` reads a missing tier as 1.

=== FILE: anchors.dfy ===
/**
 * Anchors as the derivation code builds them, and the opaque digests used to
 * name and fingerprint them.
 */
module Anchors {
  import opened Wrappers

  /** Lower-case hexadecimal characters, as `hexdigest()` produces. */
  predicate IsHex(s: string) {
    forall i :: 0 <= i < |s| ==> s[i] in "0123456789abcdef"
  }

  /** A SHA-256 (FIPS 180-4) hex digest: 64 hex characters. */
  type Sha256Hex = s: string | |s| == 64 && IsHex(s) witness seq(64, _ => '0')

  /** An MD5 (RFC 1321) hex digest: 32 hex characters. */
  type Md5Hex = s: string | |s| == 32 && IsHex(s) witness seq(32, _ => '0')

  /**
   * The hash functions, left opaque: the model only uses that they are
   * functions of their input and the length and alphabet of their digests.
   */
  datatype Hashes = Hashes(sha256: string -> Sha256Hex, md5: string -> Md5Hex)

  /** Identifiers are the first 12 characters of a hex digest. */
  const IdLength := 12

  /**
   * An anchor record. `tier` may be absent (`a.get('tier', 1)` reads it so);
   * `extras` holds every other key of the Python dict, carried over by mutation.
   */
  datatype Anchor = Anchor(
    id: string,
    name: string,
    expression: string,
    tier: Option<int>,
    fingerprint: seq<int>,
    extras: map<string, string>)
}

=== FILE: capability.dfy ===
/**
 * `map_cluster_to_capability` of capability_mapper.py: a cluster of anchors
 * classified by substring tests on their expressions, in a fixed priority.
 */
module Capability {
  import opened Strings
  import opened Anchors
  import Mutation

  /** The five capabilities a cluster can map to. */
  datatype Capability =
    | RecursiveReasoning
    | ArithmeticSimplification
    | LogicProof
    | LogicalConsistency
    | SymbolicReflection
  {
    /** The label the repository returns. */
    function Label(): string {
      match this
      case RecursiveReasoning => "recursive_reasoning"
      case ArithmeticSimplification => "arithmetic_simplification"
      case LogicProof => "logic_proof"
      case LogicalConsistency => "logical_consistency"
      case SymbolicReflection => "symbolic_reflection"
    }
  }

  /** Some expression holds "^" or "ε". */
  predicate AnyRecursive(cluster: seq<Anchor>) {
    exists a :: a in cluster && ('^' in a.expression || 'ε' in a.expression)
  }

  /** Every expression holds "+" or "-" (true of an empty cluster, as `all([])` is). */
  predicate AllArithmetic(cluster: seq<Anchor>) {
    forall a :: a in cluster ==> '+' in a.expression || '-' in a.expression
  }

  /** Some expression holds the substring "if". */
  predicate AnyConditional(cluster: seq<Anchor>) {
    exists a :: a in cluster && Contains(a.expression, "if")
  }

  /** Some expression holds "¬" or "∧". */
  predicate AnyConnective(cluster: seq<Anchor>) {
    exists a :: a in cluster && ('¬' in a.expression || '∧' in a.expression)
  }

  /** `map_cluster_to_capability(cluster)`: the first test that matches, in priority order. */
  function MapClusterToCapability(cluster: seq<Anchor>): (r: Capability)
    ensures r == RecursiveReasoning <==> AnyRecursive(cluster)
    ensures r == ArithmeticSimplification <==> !AnyRecursive(cluster) && AllArithmetic(cluster)
    ensures r == LogicProof <==> !AnyRecursive(cluster) && !AllArithmetic(cluster) && AnyConditional(cluster)
    ensures r == LogicalConsistency <==>
      !AnyRecursive(cluster) && !AllArithmetic(cluster) && !AnyConditional(cluster) && AnyConnective(cluster)
    ensures r == SymbolicReflection <==>
      !AnyRecursive(cluster) && !AllArithmetic(cluster) && !AnyConditional(cluster) && !AnyConnective(cluster)
  {
    if AnyRecursive(cluster) then RecursiveReasoning
    else if AllArithmetic(cluster) then ArithmeticSimplification
    else if AnyConditional(cluster) then LogicProof
    else if AnyConnective(cluster) then LogicalConsistency
    else SymbolicReflection
  }

  // ------------------------------------------------------------------ properties

  /** The five labels are distinct, so the label determines the capability. */
  lemma LabelsDistinct(c: Capability, d: Capability)
    ensures c.Label() == d.Label() <==> c == d
  {
    if c != d {
      assert c.Label()[0] != d.Label()[0] || |c.Label()| != |d.Label()|;
    }
  }

  /**
   * The classification depends only on which expressions occur, not on their
   * order or multiplicity: clusters with the same members classify alike.
   */
  lemma ClassificationIgnoresOrder(c1: seq<Anchor>, c2: seq<Anchor>)
    requires forall a :: a in c1 <==> a in c2
    ensures MapClusterToCapability(c1) == MapClusterToCapability(c2)
  {
  }

  /** An empty cluster is arithmetic simplification, since no test finds a witness but `all` holds vacuously. */
  lemma EmptyClusterIsArithmetic()
    ensures MapClusterToCapability([]) == ArithmeticSimplification
  {
  }

  /** One recursive expression decides the whole cluster, whatever else it holds. */
  lemma RecursiveDominates(cluster: seq<Anchor>, a: Anchor)
    requires '^' in a.expression || 'ε' in a.expression
    ensures MapClusterToCapability(cluster + [a]) == RecursiveReasoning
    ensures MapClusterToCapability([a] + cluster) == RecursiveReasoning
  {
    assert a in cluster + [a] && a in [a] + cluster;
  }

  /**
   * The conditional test comes before the connective test: a cluster that is
   * neither recursive nor all-arithmetic and holds an "if" is a logic proof,
   * whether or not it also holds "¬" or "∧".
   */
  lemma ConditionalBeforeConnective(cluster: seq<Anchor>)
    requires !AnyRecursive(cluster) && !AllArithmetic(cluster) && AnyConditional(cluster)
    ensures MapClusterToCapability(cluster) == LogicProof
  {
  }

  /** "if" is a substring test, so it matches inside a longer word such as "diff". */
  lemma {:induction false} ConditionalInsideWord(p: string, q: string)
    ensures Contains(p + "diff" + q, "if")
  {
    var s := p + "diff" + q;
    assert s[|p| + 1..|p| + 3] == "if";
    assert OccursAt(s, "if", |p| + 1);
    ContainsAt(s, "if");
  }

  /**
   * An expression with "diff" in it and no "^", "ε", "+" or "-" makes its
   * cluster a logic proof, even next to a "¬" or "∧".
   */
  lemma DiffIsLogicProof(a: Anchor, p: string, q: string)
    requires a.expression == p + "diff" + q
    requires '^' !in a.expression && 'ε' !in a.expression && '+' !in a.expression && '-' !in a.expression
    ensures MapClusterToCapability([a]) == LogicProof
  {
    ConditionalInsideWord(p, q);
    assert !AllArithmetic([a]);
    assert AnyConditional([a]);
  }

  /**
   * A mutant of an anchor whose expression has neither "+" nor "*" ends in
   * " + ε", so a cluster holding it is recursive reasoning.
   */
  lemma AppendedEpsilonIsRecursive(cluster: seq<Anchor>, parent: Anchor, seed: int, draws: Mutation.OffsetStream, h: Hashes)
    requires parent.tier.Some?
    requires '+' !in parent.expression && '*' !in parent.expression
    ensures MapClusterToCapability(cluster + [Mutation.MutateAnchor(parent, seed, draws, h).value]) == RecursiveReasoning
  {
    var m := Mutation.MutateAnchor(parent, seed, draws, h).value;
    var e := parent.expression;
    assert m.expression[|e|..] == " + ε";
    assert m.expression[|e| + 3] == 'ε';
    RecursiveDominates(cluster, m);
  }
}

=== FILE: controller.dfy ===
/**
 * The drift controller of symbolic_controller.py: symbolic drift as the
 * normalised Hamming distance between the SHA-256 digests of successive
 * self-statements, the curiosity and forking thresholds on it, the "drive"
 * fusion it can trigger, and the annotation of the latest reflection.
 */
module Controller {
  import opened Wrappers
  import opened Anchors
  import opened Numbers
  import opened Mirror
  import opened Fusion

  /**
   * The controller's state. `lastHash` is the digest of the last observed
   * self-statement; `driftDetected` is `recursive_drift_detected`. The memory
   * trace (never used) and the wall-clock tick time are not modelled.
   */
  datatype Controller = Controller(
    lastDrift: Option<real>,
    curiosity: real,
    divergence: real,
    lastHash: Option<Sha256Hex>,
    driftDetected: bool)

  /** `SymbolicController()`: no drift yet, thresholds 0.9 and 0.98. */
  const Initial := Controller(None, 0.9, 0.98, None, false)

  /** The number of positions at which two strings differ, over the shorter one's length (`zip`). */
  function Hamming(a: string, b: string): nat
    decreases |a|
  {
    if a == [] || b == [] then 0
    else (if a[0] != b[0] then 1 else 0) + Hamming(a[1..], b[1..])
  }

  /** The drift between two digests: the share of their 64 positions that differ. */
  function DigestDrift(current: Sha256Hex, previous: Sha256Hex): real {
    Hamming(current, previous) as real / 64.0
  }

  /**
   * `observe_identity(mirror_log)`: the updated controller and the returned
   * drift. With fewer than two reflections nothing happens and `None` is
   * returned; the first observation has drift 1.0; later ones compare the
   * current digest with the stored one.
   */
  function ObserveIdentity(c: Controller, mirror: seq<MirrorEntry>, h: Hashes): (r: (Controller, Option<real>))
    ensures |mirror| < 2 ==> r == (c, None)
    ensures |mirror| >= 2 ==>
      && r.0.lastHash == Some(h.sha256(Statement(mirror[|mirror| - 1])))
      && r.0.lastDrift.Some? && r.1 == Some(Round3(r.0.lastDrift.value))
      && (c.lastHash.None? ==> r.0.lastDrift == Some(1.0))
      && (c.lastHash.Some? ==> r.0.lastDrift == Some(DigestDrift(r.0.lastHash.value, c.lastHash.value)))
      && r.0.curiosity == c.curiosity && r.0.divergence == c.divergence && r.0.driftDetected == c.driftDetected
  {
    if |mirror| < 2 then (c, None)
    else
      var current := h.sha256(Statement(mirror[|mirror| - 1]));
      var drift := if c.lastHash.Some? then DigestDrift(current, c.lastHash.value) else 1.0;
      (c.(lastDrift := Some(drift), lastHash := Some(current)), Some(Round3(drift)))
  }

  /**
   * `evaluate_drift(...)`: true iff a drift is known and below the curiosity
   * threshold, in which case the detection flag is raised.
   */
  function EvaluateDrift(c: Controller): (r: (Controller, bool))
    ensures r.1 <==> c.lastDrift.Some? && c.lastDrift.value < c.curiosity
    ensures r.0 == c.(driftDetected := c.driftDetected || r.1)
  {
    if c.lastDrift.Some? && c.lastDrift.value < c.curiosity then (c.(driftDetected := true), true)
    else (c, false)
  }

  /**
   * `should_fork()`: true exactly when a drift is known and above the
   * divergence trigger; with the curiosity threshold not above the divergence
   * trigger, a fork and a curiosity trigger never coincide.
   */
  function ShouldFork(c: Controller): (r: bool)
    ensures r <==> c.lastDrift.Some? && c.lastDrift.value > c.divergence
    ensures r && c.curiosity <= c.divergence ==> !EvaluateDrift(c).1
  {
    c.lastDrift.Some? && c.lastDrift.value > c.divergence
  }

  /**
   * `generate_drive_signal(anchors, mirror_log)`: the updated controller and
   * the drive fusion, if any. `pick` is the draw of `random.sample(anchors, 2)`.
   * The drift is evaluated first (raising the flag whatever follows); with
   * curiosity triggered and two anchors or more, the two drawn anchors are
   * fused with the `<drive>` connective. Reading a missing tier raises
   * `KeyError`.
   */
  function GenerateDriveSignal(c: Controller, anchors: seq<Anchor>, pick: (nat, nat), h: Hashes,
                               draw: FingerprintDraw): (r: (Controller, Result<Option<Anchor>>))
    requires |anchors| > 1 ==> pick.0 < |anchors| && pick.1 < |anchors| && pick.0 != pick.1
    ensures r.0 == EvaluateDrift(c).0
    ensures r.1 == Success(None) <==> !EvaluateDrift(c).1 || |anchors| <= 1
    ensures r.1.Failure? <==>
      EvaluateDrift(c).1 && |anchors| > 1 && (anchors[pick.0].tier.None? || anchors[pick.1].tier.None?)
  {
    var (c', curious) := EvaluateDrift(c);
    if curious && |anchors| > 1 then
      var a1, a2 := anchors[pick.0], anchors[pick.1];
      if a1.tier.None? || a2.tier.None? then (c', Failure("KeyError: 'tier'"))
      else
        var tier := (if a1.tier.value >= a2.tier.value then a1.tier.value else a2.tier.value) + 1;
        (c', Success(Some(Fuse(a1, a2, "_drivefusion", "<drive>", tier, h, draw))))
    else (c', Success(None))
  }

  /**
   * `annotate_mirror(mirror_log, drift)`: the latest reflection gets the
   * drift and a time stamp (a parameter here); an empty log is left alone.
   */
  function AnnotateMirror(mirror: seq<MirrorEntry>, drift: Option<real>, stamp: string): (r: seq<MirrorEntry>)
    ensures |r| == |mirror|
    ensures mirror != [] ==> r[..|r| - 1] == mirror[..|mirror| - 1]
    ensures mirror != [] ==> r[|r| - 1] == mirror[|mirror| - 1].(annotation := Some(Annotation(drift, stamp)))
  {
    if mirror == [] then []
    else mirror[..|mirror| - 1] + [mirror[|mirror| - 1].(annotation := Some(Annotation(drift, stamp)))]
  }

  // ------------------------------------------------------------------ properties

  /** Two strings differ nowhere exactly when they are equal (for equal lengths), and at most at every position. */
  lemma {:induction false} HammingZero(a: string, b: string)
    ensures Hamming(a, b) <= |a| && Hamming(a, b) <= |b|
    ensures |a| == |b| ==> (Hamming(a, b) == 0 <==> a == b)
    decreases |a|
  {
    if a != [] && b != [] {
      HammingZero(a[1..], b[1..]);
      if |a| == |b| && Hamming(a, b) == 0 {
        assert a == [a[0]] + a[1..] && b == [b[0]] + b[1..];
      }
    }
  }

  /** The drift between two digests lies in [0, 1] and is 0 exactly when the digests are equal. */
  lemma DigestDriftRange(current: Sha256Hex, previous: Sha256Hex)
    ensures 0.0 <= DigestDrift(current, previous) <= 1.0
    ensures DigestDrift(current, previous) == 0.0 <==> current == previous
  {
    HammingZero(current, previous);
  }

  /**
   * Every observation yields a drift in [0, 1], and the value returned is in
   * [0, 1] too.
   */
  lemma ObservedDriftRange(c: Controller, mirror: seq<MirrorEntry>, h: Hashes)
    requires |mirror| >= 2
    ensures var r := ObserveIdentity(c, mirror, h);
      && 0.0 <= r.0.lastDrift.value <= 1.0 && 0.0 <= r.1.value <= 1.0
  {
    var r := ObserveIdentity(c, mirror, h);
    if c.lastHash.Some? {
      DigestDriftRange(r.0.lastHash.value, c.lastHash.value);
    }
    Round3UnitRange(r.0.lastDrift.value);
  }

  /**
   * Observing twice a log whose latest self-statement has not changed gives
   * drift 0 the second time; the first observation from the initial state
   * gives 1.0.
   */
  lemma ObserveUnchangedStatement(mirror: seq<MirrorEntry>, later: seq<MirrorEntry>, h: Hashes)
    requires |mirror| >= 2 && |later| >= 2
    requires Statement(later[|later| - 1]) == Statement(mirror[|mirror| - 1])
    ensures var first := ObserveIdentity(Initial, mirror, h);
      && first.1 == Some(1.0)
      && ObserveIdentity(first.0, later, h).1 == Some(0.0)
      && ObserveIdentity(first.0, later, h).0.lastDrift == Some(0.0)
  {
    var first := ObserveIdentity(Initial, mirror, h);
    var digest := h.sha256(Statement(mirror[|mirror| - 1]));
    DigestDriftRange(digest, digest);
    Round3Fixed();
  }

  /**
   * Once raised, the detection flag stays raised through any evaluation and
   * any drive signal.
   */
  lemma DetectionSticky(c: Controller, anchors: seq<Anchor>, pick: (nat, nat), h: Hashes, draw: FingerprintDraw)
    requires |anchors| > 1 ==> pick.0 < |anchors| && pick.1 < |anchors| && pick.0 != pick.1
    requires c.driftDetected
    ensures EvaluateDrift(c).0.driftDetected
    ensures GenerateDriveSignal(c, anchors, pick, h, draw).0.driftDetected
  {
  }

  /**
   * With the curiosity threshold not above the divergence trigger (as with
   * the defaults 0.9 and 0.98), curiosity and forking are never both
   * signalled; neither is while no drift is known.
   */
  lemma CuriosityExcludesFork(c: Controller)
    requires c.curiosity <= c.divergence
    ensures !(EvaluateDrift(c).1 && ShouldFork(c))
    ensures c.lastDrift.None? ==> !EvaluateDrift(c).1 && !ShouldFork(c)
  {
  }

  /** The initial thresholds are ordered, so the exclusion holds for every drift the controller records. */
  lemma InitialThresholdsOrdered(drift: real)
    ensures var c := Initial.(lastDrift := Some(drift));
      !(EvaluateDrift(c).1 && ShouldFork(c))
  {
    CuriosityExcludesFork(Initial.(lastDrift := Some(drift)));
  }

  /**
   * A drive fusion is the `<drive>` fusion of the two drawn anchors: name
   * `n1_n2_drivefusion`, expression `(e1) <drive> (e2)`, a tier one above
   * the larger parent tier, a 4-component fingerprint in [10, 255] and a
   * 12-character id.
   */
  lemma DriveFusionShape(c: Controller, anchors: seq<Anchor>, pick: (nat, nat), h: Hashes, draw: FingerprintDraw)
    requires |anchors| > 1 ==> pick.0 < |anchors| && pick.1 < |anchors| && pick.0 != pick.1
    requires GenerateDriveSignal(c, anchors, pick, h, draw).1.Success?
    requires GenerateDriveSignal(c, anchors, pick, h, draw).1.value.Some?
    ensures var f := GenerateDriveSignal(c, anchors, pick, h, draw).1.value.value;
      var a1, a2 := anchors[pick.0], anchors[pick.1];
      && a1.tier.Some? && a2.tier.Some?
      && f.name == FusedName(a1.name, a2.name, "_drivefusion")
      && f.expression == FusedExpression(a1.expression, "<drive>", a2.expression)
      && f.tier.Some? && f.tier.value > a1.tier.value && f.tier.value > a2.tier.value
      && (f.tier.value == a1.tier.value + 1 || f.tier.value == a2.tier.value + 1)
      && |f.fingerprint| == 4 && (forall i :: 0 <= i < 4 ==> 10 <= f.fingerprint[i] <= 255)
      && |f.id| == IdLength
  {
  }

  /** Annotating leaves every other reflection and every other field of the latest one as it was. */
  lemma AnnotateOnlyLatest(mirror: seq<MirrorEntry>, drift: Option<real>, stamp: string)
    ensures var r := AnnotateMirror(mirror, drift, stamp);
      && (forall i :: 0 <= i < |mirror| - 1 ==> r[i] == mirror[i])
      && (mirror != [] ==>
            && r[|r| - 1].step == mirror[|mirror| - 1].step
            && Statement(r[|r| - 1]) == Statement(mirror[|mirror| - 1])
            && StrongestSet(r[|r| - 1]) == StrongestSet(mirror[|mirror| - 1])
            && r[|r| - 1].annotation == Some(Annotation(drift, stamp)))
  {
    var r := AnnotateMirror(mirror, drift, stamp);
    if mirror != [] {
      forall i | 0 <= i < |mirror| - 1 ensures r[i] == mirror[i] {
        assert r[i] == r[..|r| - 1][i];
      }
    }
  }
}

=== FILE: equilibrium.dfy ===
/**
 * The stability controller of braid_equilibrium.py: append-only metric
 * series, a clamped weighted stability score over the most recent samples,
 * and the integer rates recommended from it.
 */
module Equilibrium {
  import opened Wrappers
  import opened Numbers
  import opened Anchors
  import opened Mirror

  /** The four metric series of `self.history`. */
  datatype History = History(anchorCount: seq<int>, fusedCount: seq<int>, coherence: seq<real>, shift: seq<real>)

  /** `BraidEquilibrium()`: every series empty. */
  const Initial := History([], [], [], [])

  /** The coherence sample of two reflections: 1.0 when their statements agree (a missing one reads as ""), else 0.0. */
  function CoherenceSample(last: MirrorEntry, prev: MirrorEntry): real {
    if Statement(last) == Statement(prev) then 1.0 else 0.0
  }

  /** One minus the overlap of two sets over their union, the union's size raised to at least 1. */
  function SetShift(a: set<string>, b: set<string>): real {
    var union := |a + b|;
    1.0 - |a * b| as real / (if union > 1 then union else 1) as real
  }

  /** The identity-shift sample of two reflections, from their strongest sets. */
  function ShiftSample(last: MirrorEntry, prev: MirrorEntry): real {
    SetShift(StrongestSet(last), StrongestSet(prev))
  }

  /**
   * `update_metrics(anchors, fusions, mirror_log)`: the anchor and fusion
   * counts are always appended; a coherence and a shift sample of the last
   * two reflections are appended when there are two or more, the coherence
   * sample recording whether their statements agree and the shift lying in
   * [0, 1]; nothing else changes.
   */
  function UpdateMetrics(h: History, anchors: seq<Anchor>, fusions: int, mirror: seq<MirrorEntry>): (r: History)
    ensures r.anchorCount == h.anchorCount + [|anchors|] && r.fusedCount == h.fusedCount + [fusions]
    ensures |mirror| >= 2 ==>
      var last, prev := mirror[|mirror| - 1], mirror[|mirror| - 2];
      && r.coherence == h.coherence + [CoherenceSample(last, prev)]
      && r.shift == h.shift + [ShiftSample(last, prev)]
      && (r.coherence[|h.coherence|] == 1.0 <==> Statement(last) == Statement(prev))
      && 0.0 <= r.shift[|h.shift|] <= 1.0
    ensures |mirror| < 2 ==> r.coherence == h.coherence && r.shift == h.shift
  {
    var h' := h.(anchorCount := h.anchorCount + [|anchors|], fusedCount := h.fusedCount + [fusions]);
    if |mirror| >= 2 then
      var last, prev := mirror[|mirror| - 1], mirror[|mirror| - 2];
      SetShiftRange(StrongestSet(last), StrongestSet(prev));
      h'.(coherence := h.coherence + [CoherenceSample(last, prev)], shift := h.shift + [ShiftSample(last, prev)])
    else h'
  }

  /** The weighted score before clamping and rounding. */
  function Score(coherence: real, shift: real, growth: real): real {
    0.6 * coherence + 0.3 * (1.0 - shift) + 0.1 * (1.0 - Abs(growth) / 10.0)
  }

  /**
   * `calculate_stability_index()`: 0.5 with fewer than three anchor-count
   * samples; otherwise the clamped score over the last three samples, rounded
   * to three places. `statistics.mean` raises on an empty series, so with
   * three samples or more the index fails exactly when the coherence or shift
   * series is empty, and otherwise lies in [0, 1].
   */
  function StabilityIndex(h: History): (r: Result<real>)
    ensures |h.anchorCount| < 3 ==> r == Success(0.5)
    ensures r.Failure? <==> |h.anchorCount| >= 3 && (h.coherence == [] || h.shift == [])
    ensures r.Success? ==> 0.0 <= r.value <= 1.0
    ensures r.Success? ==> (r.value * 1000.0).Floor as real == r.value * 1000.0
  {
    if |h.anchorCount| < 3 then
      Round3Fixed();
      Success(0.5)
    else if h.shift == [] || h.coherence == [] then Failure("mean requires at least one data point")
    else
      var clamped := Clamp(Score(Mean(LastThree(h.coherence)), Mean(LastThree(h.shift)), Growth(h)));
      Round3UnitRange(clamped);
      Success(Round3(clamped))
  }

  /** The mean growth per sample over the last three anchor counts. */
  function Growth(h: History): real
    requires |h.anchorCount| >= 3
  {
    var n := |h.anchorCount|;
    (h.anchorCount[n - 1] - h.anchorCount[n - 3]) as real / 3.0
  }

  /** `max(0.0, min(1.0, x))`: in [0, 1], and `x` itself when it already is. */
  function Clamp(x: real): (r: real)
    ensures 0.0 <= r <= 1.0
    ensures 0.0 <= x <= 1.0 ==> r == x
    ensures x < 0.0 ==> r == 0.0
    ensures x > 1.0 ==> r == 1.0
  {
    if x < 0.0 then 0.0 else if x > 1.0 then 1.0 else x
  }

  /**
   * `max(1, int(scale * (1 - stability)))`: at least 1, and otherwise the
   * whole part of `scale * (1 - stability)`.
   */
  function Rate(scale: real, stability: real): (r: int)
    ensures r >= 1
    ensures scale * (1.0 - stability) >= 1.0 ==> r as real <= scale * (1.0 - stability) < r as real + 1.0
    ensures scale * (1.0 - stability) < 2.0 ==> r == 1
  {
    var v := Trunc(scale * (1.0 - stability));
    if v > 1 then v else 1
  }

  /** The recommendation of `recommend_adjustments()`. */
  datatype Adjustments = Adjustments(stabilityIndex: real, fusionRate: int, reflectionInterval: int)

  /** `recommend_adjustments()`: the stability index and the two rates derived from it. */
  function RecommendAdjustments(h: History): (r: Result<Adjustments>)
    ensures r.Success? <==> StabilityIndex(h).Success?
    ensures r.Success? ==>
      && r.value.stabilityIndex == StabilityIndex(h).value
      && r.value.fusionRate == Rate(5.0, r.value.stabilityIndex)
      && r.value.reflectionInterval == Rate(10.0, r.value.stabilityIndex)
      && 1 <= r.value.fusionRate <= 5 && 1 <= r.value.reflectionInterval <= 10
  {
    match StabilityIndex(h)
    case Failure(e) => Failure(e)
    case Success(s) =>
      RatesRange(s, s);
      Success(Adjustments(s, Rate(5.0, s), Rate(10.0, s)))
  }

  // ------------------------------------------------------------------ properties

  /**
   * The series stay in step: the coherence and shift series are appended
   * together and never outgrow the anchor-count series, which grows with the
   * fused-count series.
   */
  predicate SeriesAligned(h: History) {
    |h.coherence| == |h.shift| <= |h.anchorCount| == |h.fusedCount|
  }

  /**
   * `update_metrics` always appends the anchor count and the fusion count,
   * appends a coherence and a shift sample exactly when the mirror log has
   * two entries or more, and keeps the series in step.
   */
  lemma UpdateMetricsAppends(h: History, anchors: seq<Anchor>, fusions: int, mirror: seq<MirrorEntry>)
    ensures var r := UpdateMetrics(h, anchors, fusions, mirror);
      && (|mirror| >= 2 ==> |r.coherence| == |h.coherence| + 1 && |r.shift| == |h.shift| + 1)
      && (|mirror| < 2 ==> r.coherence == h.coherence && r.shift == h.shift)
      && r.coherence[..|h.coherence|] == h.coherence && r.shift[..|h.shift|] == h.shift
      && (SeriesAligned(h) ==> SeriesAligned(r))
  {
  }

  /** The coherence sample is 1.0 exactly when the two statements agree, and 0.0 otherwise. */
  lemma CoherenceSampleMeaning(last: MirrorEntry, prev: MirrorEntry)
    ensures CoherenceSample(last, prev) == 1.0 <==> Statement(last) == Statement(prev)
    ensures CoherenceSample(last, prev) == 0.0 <==> Statement(last) != Statement(prev)
  {
  }

  /**
   * The shift lies in [0, 1]; it is 0 when the two sets are equal and
   * non-empty, and 1 when they are disjoint, which includes two empty sets
   * (the union's size is raised to 1, the overlap stays 0).
   */
  lemma SetShiftRange(a: set<string>, b: set<string>)
    ensures 0.0 <= SetShift(a, b) <= 1.0
    ensures a == b != {} ==> SetShift(a, b) == 0.0
    ensures a * b == {} ==> SetShift(a, b) == 1.0
  {
    var union := |a + b|;
    var d := (if union > 1 then union else 1) as real;
    SubsetCard(a * b, a + b);
    RatioInUnit(|a * b| as real, d);
    if a == b && a != {} {
      assert a * b == a + b;
      assert |a * b| as real / d == 1.0;
    }
  }

  lemma RatioInUnit(x: real, d: real)
    requires 0.0 <= x <= d && d > 0.0
    ensures 0.0 <= x / d <= 1.0
  {
  }

  lemma SubsetCard<T>(x: set<T>, y: set<T>)
    requires x <= y
    ensures |x| <= |y|
  {
    assert y == x + (y - x);
  }

  /**
   * A perfect recent history (coherent, unshifted, no anchor growth) gives
   * stability 1.0.
   */
  lemma StabilityPerfect(h: History)
    requires |h.anchorCount| >= 3 && h.coherence != [] && h.shift != []
    requires forall i :: 0 <= i < |LastThree(h.coherence)| ==> LastThree(h.coherence)[i] == 1.0
    requires forall i :: 0 <= i < |LastThree(h.shift)| ==> LastThree(h.shift)[i] == 0.0
    requires h.anchorCount[|h.anchorCount| - 1] == h.anchorCount[|h.anchorCount| - 3]
    ensures StabilityIndex(h) == Success(1.0)
  {
    MeanBounds(LastThree(h.coherence), 1.0, 1.0);
    MeanBounds(LastThree(h.shift), 0.0, 0.0);
    Round3Fixed();
  }

  /**
   * For a stability in [0, 1] the fusion rate lies in 1..5 and the
   * reflection interval in 1..10; both only fall as stability rises, and the
   * neutral 0.5 gives 2 and 5.
   */
  lemma RatesRange(s: real, t: real)
    ensures 0.0 <= s <= 1.0 ==> 1 <= Rate(5.0, s) <= 5 && 1 <= Rate(10.0, s) <= 10
    ensures s <= t ==> Rate(5.0, t) <= Rate(5.0, s) && Rate(10.0, t) <= Rate(10.0, s)
    ensures Rate(5.0, 0.5) == 2 && Rate(10.0, 0.5) == 5
  {
    if s <= t {
      TruncMonotone(5.0 * (1.0 - t), 5.0 * (1.0 - s));
      TruncMonotone(10.0 * (1.0 - t), 10.0 * (1.0 - s));
    }
    assert (2.5).Floor == 2;
    assert (5.0).Floor == 5;
  }

  /** Recommendations from a history with fewer than three samples are 0.5, 2 and 5. */
  lemma RecommendNeutral(h: History)
    requires |h.anchorCount| < 3
    ensures RecommendAdjustments(h) == Success(Adjustments(0.5, 2, 5))
  {
    RatesRange(0.5, 0.5);
  }

  /** Clamping and rounding never reverse the order of two scores. */
  lemma ClampRoundMonotone(x: real, y: real)
    requires x <= y
    ensures Round3(Clamp(x)) <= Round3(Clamp(y))
  {
    Round3Monotone(Clamp(x), Clamp(y));
  }

  /** With three samples or more and both series non-empty, the index is the rounded clamped score. */
  lemma StabilityIndexValue(h: History)
    requires |h.anchorCount| >= 3 && h.coherence != [] && h.shift != []
    ensures StabilityIndex(h) == Success(Round3(Clamp(Score(Mean(LastThree(h.coherence)), Mean(LastThree(h.shift)), Growth(h)))))
  {
  }

  /** The weighted score rises with coherence and falls with shift and with the size of the growth. */
  lemma ScoreMonotone(c1: real, c2: real, s1: real, s2: real, g1: real, g2: real)
    requires c1 <= c2 && s2 <= s1 && Abs(g2) <= Abs(g1)
    ensures Score(c1, s1, g1) <= Score(c2, s2, g2)
  {
  }

  /** With everything else equal, more recent coherence never lowers the stability index. */
  lemma StabilityRisesWithCoherence(h1: History, h2: History)
    requires |h1.anchorCount| >= 3 && h1.shift != [] && h1.coherence != [] && h2.coherence != []
    requires h2.anchorCount == h1.anchorCount && h2.shift == h1.shift
    requires Mean(LastThree(h1.coherence)) <= Mean(LastThree(h2.coherence))
    ensures StabilityIndex(h1).Success? && StabilityIndex(h2).Success?
    ensures StabilityIndex(h1).value <= StabilityIndex(h2).value
  {
    var shift := Mean(LastThree(h1.shift));
    var c1, c2 := Mean(LastThree(h1.coherence)), Mean(LastThree(h2.coherence));
    StabilityIndexValue(h1);
    StabilityIndexValue(h2);
    ScoreMonotone(c1, c2, shift, shift, Growth(h1), Growth(h2));
    ClampRoundMonotone(Score(c1, shift, Growth(h1)), Score(c2, shift, Growth(h2)));
  }

  /** With everything else equal, more recent identity shift never raises the stability index. */
  lemma StabilityFallsWithShift(h1: History, h2: History)
    requires |h1.anchorCount| >= 3 && h1.coherence != [] && h1.shift != [] && h2.shift != []
    requires h2.anchorCount == h1.anchorCount && h2.coherence == h1.coherence
    requires Mean(LastThree(h1.shift)) <= Mean(LastThree(h2.shift))
    ensures StabilityIndex(h1).Success? && StabilityIndex(h2).Success?
    ensures StabilityIndex(h2).value <= StabilityIndex(h1).value
  {
    var coherence := Mean(LastThree(h1.coherence));
    var s1, s2 := Mean(LastThree(h1.shift)), Mean(LastThree(h2.shift));
    StabilityIndexValue(h1);
    StabilityIndexValue(h2);
    ScoreMonotone(coherence, coherence, s2, s1, Growth(h2), Growth(h1));
    ClampRoundMonotone(Score(coherence, s2, Growth(h2)), Score(coherence, s1, Growth(h1)));
  }

  /** With everything else equal, faster anchor growth (either way) never raises the stability index. */
  lemma StabilityFallsWithGrowth(h1: History, h2: History)
    requires |h1.anchorCount| >= 3 && |h2.anchorCount| >= 3 && h1.coherence != [] && h1.shift != []
    requires h2.coherence == h1.coherence && h2.shift == h1.shift
    requires Abs(Growth(h1)) <= Abs(Growth(h2))
    ensures StabilityIndex(h1).Success? && StabilityIndex(h2).Success?
    ensures StabilityIndex(h2).value <= StabilityIndex(h1).value
  {
    var coherence, shift := Mean(LastThree(h1.coherence)), Mean(LastThree(h1.shift));
    StabilityIndexValue(h1);
    StabilityIndexValue(h2);
    ScoreMonotone(coherence, coherence, shift, shift, Growth(h2), Growth(h1));
    ClampRoundMonotone(Score(coherence, shift, Growth(h2)), Score(coherence, shift, Growth(h1)));
  }
}

=== FILE: filter.dfy ===
/**
 * The filter façade of symbolic_filter_wrapper.py: prompt validation and
 * output scoring each run one simulation tick (with an empty tier table and
 * the default parameters) on the filter's state, and reset replaces the
 * state. The HTTP handlers' guards against a missing or empty text are
 * modelled; persistence and the server are not.
 */
module Filter {
  import opened Wrappers
  import opened Strings
  import opened SymbolicState
  import opened Simulation
  import opened TickProperties
  import opened Numbers

  /** The tier table the filter passes to the tick: empty, so every anchor has the default tier. */
  const NoTiers: map<string, int> := map[]

  /**
   * `validate_prompt(prompt)`: one tick, then whether the discovered set did
   * not shrink. The prompt is not read.
   */
  function ValidatePrompt(s: State, prompt: string, d: TickDraw): (r: (State, bool))
    requires WellFormed(d)
    ensures r.0 == Tick(s, NoTiers, d, Defaults)
    ensures r.1 <==> |r.0.discovered| >= |s.discovered|
  {
    var next := Tick(s, NoTiers, d, Defaults);
    (next, |next.discovered| >= |s.discovered|)
  }

  /** `x` is one of the map's values. */
  predicate IsValueOf(m: map<string, int>, x: real) {
    exists k :: k in m && m[k] as real == x
  }

  /**
   * `list(resilience.values())`: one item per key, each a value of the map.
   * Keys are visited in ascending order here; the mean does not depend on it.
   */
  function Values(m: map<string, int>): (r: seq<real>)
    ensures |r| == |m|
    ensures forall i :: 0 <= i < |r| ==> IsValueOf(m, r[i])
    ensures |Sorted(m.Keys)| == |r|
    ensures forall i :: 0 <= i < |r| ==> Sorted(m.Keys)[i] in m && r[i] == m[Sorted(m.Keys)[i]] as real
    decreases |m|
  {
    if m == map[] then []
    else
      var k := Least(m.Keys);
      var rest := m - {k};
      assert rest.Keys == m.Keys - {k};
      assert Sorted(m.Keys) == [k] + Sorted(rest.Keys);
      var tail := Values(rest);
      assert forall i :: 0 <= i < |tail| ==> IsValueOf(m, tail[i]) by {
        forall i | 0 <= i < |tail| ensures IsValueOf(m, tail[i]) {
          var j :| j in rest && rest[j] as real == tail[i];
          assert j in m && m[j] as real == tail[i];
        }
      }
      [m[k] as real] + tail
  }

  /** The smallest value of a non-empty map: some key has it and no key has less. */
  function MinValue(m: map<string, int>): (r: int)
    requires m != map[]
    ensures exists k :: k in m && m[k] == r
    ensures forall k :: k in m ==> r <= m[k]
    decreases |m|
  {
    var k := Least(m.Keys);
    var rest := m - {k};
    assert rest.Keys == m.Keys - {k};
    if rest == map[] then
      assert forall j :: j in m && j != k ==> j in rest;
      m[k]
    else
      var r := MinValue(rest);
      var j :| j in rest && rest[j] == r;
      assert j in m && m[j] == r;
      assert forall x :: x in m && x != k ==> x in rest && rest[x] == m[x];
      if m[k] <= r then m[k] else r
  }

  /** The largest value of a non-empty map: some key has it and no key has more. */
  function MaxValue(m: map<string, int>): (r: int)
    requires m != map[]
    ensures exists k :: k in m && m[k] == r
    ensures forall k :: k in m ==> m[k] <= r
    decreases |m|
  {
    var k := Least(m.Keys);
    var rest := m - {k};
    assert rest.Keys == m.Keys - {k};
    if rest == map[] then
      assert forall j :: j in m && j != k ==> j in rest;
      m[k]
    else
      var r := MaxValue(rest);
      var j :| j in rest && rest[j] == r;
      assert j in m && m[j] == r;
      assert forall x :: x in m && x != k ==> x in rest && rest[x] == m[x];
      if m[k] >= r then m[k] else r
  }

  /**
   * `np.mean(list(resilience.values()))`, or 0.0 for an empty map. This is
   * the list mean of `Numbers`, taken over the map's values.
   */
  function MeanResilience(m: map<string, int>): (r: real)
    ensures m == map[] ==> r == 0.0
    ensures m != map[] ==> MinValue(m) as real <= r <= MaxValue(m) as real
  {
    if m == map[] then 0.0
    else
      var vs := Values(m);
      ValuesWithin(m, MinValue(m), MaxValue(m));
      MeanBounds(vs, MinValue(m) as real, MaxValue(m) as real);
      Mean(vs)
  }

  /** `score_output(output)`: one tick, then the mean resilience. The output is not read. */
  function ScoreOutput(s: State, output: string, d: TickDraw): (r: (State, real))
    requires WellFormed(d)
    ensures r.0 == Tick(s, NoTiers, d, Defaults)
    ensures r.0.resilience == map[] ==> r.1 == 0.0
    ensures r.0.resilience != map[] ==> MinValue(r.0.resilience) as real <= r.1 <= MaxValue(r.0.resilience) as real
  {
    var next := Tick(s, NoTiers, d, Defaults);
    (next, MeanResilience(next.resilience))
  }

  /** `reset()`: a fresh state. */
  function Reset(s: State): (r: State)
    ensures KeysMatch(r) && r.time == 0 && r.discovered == {} && r.discoveryLog == []
  {
    Fresh()
  }

  /** A handler's response body. */
  datatype Response = Error(message: string) | Valid(valid: bool) | Scored(score: real) | Status(status: string)

  /** `if not text`: the text is missing or empty. */
  predicate Missing(text: Option<string>) {
    text.None? || text.value == ""
  }

  /** The `/validate` handler. */
  function ValidateHandler(s: State, prompt: Option<string>, d: TickDraw): (r: (State, Response))
    requires WellFormed(d)
    ensures r.1.Error? <==> Missing(prompt)
    ensures Missing(prompt) ==> r == (s, Error("Missing prompt"))
    ensures !Missing(prompt) ==> r.1 == Valid(ValidatePrompt(s, prompt.value, d).1) && r.0.time == s.time + 1
  {
    if Missing(prompt) then (s, Error("Missing prompt"))
    else
      var (next, valid) := ValidatePrompt(s, prompt.value, d);
      (next, Valid(valid))
  }

  /** The `/score` handler. */
  function ScoreHandler(s: State, output: Option<string>, d: TickDraw): (r: (State, Response))
    requires WellFormed(d)
    ensures r.1.Error? <==> Missing(output)
    ensures Missing(output) ==> r == (s, Error("Missing output"))
    ensures !Missing(output) ==> r.1 == Scored(ScoreOutput(s, output.value, d).1) && r.0.time == s.time + 1
  {
    if Missing(output) then (s, Error("Missing output"))
    else
      var (next, score) := ScoreOutput(s, output.value, d);
      (next, Scored(score))
  }

  /** The `/reset` handler. */
  function ResetHandler(s: State): (r: (State, Response))
    ensures r.0 == Fresh() && r.1 == Status("reset complete")
  {
    (Reset(s), Status("reset complete"))
  }

  // ------------------------------------------------------------------ properties

  /** Removing from the union of `known` and `found` some of `known`'s elements that are not in `found`. */
  lemma UnionLessCard(known: set<string>, found: set<string>, gone: set<string>)
    requires gone <= known && gone * found == {}
    ensures |(known + found) - gone| == |known| + |found - known| - |gone|
  {
    var grown := known + found;
    assert grown == known + (found - known);
    assert |grown| == |known| + |found - known|;
    assert grown == (grown - gone) + gone;
  }

  /**
   * With the resilience keys equal to the discovered set, a prompt is valid
   * exactly when the tick discovers at least as many new anchors as it
   * evicts.
   */
  lemma ValidateCountsDiscoveries(s: State, prompt: string, d: TickDraw)
    requires WellFormed(d)
    requires KeysMatch(s)
    ensures ValidatePrompt(s, prompt, d).1 <==> |Hits(d.trials) - s.discovered| >= |EvictedBy(s, d, Defaults)|
  {
    var hits, gone := Hits(d.trials), EvictedBy(s, d, Defaults);
    TickDiscovered(s, NoTiers, d, Defaults);
    UnionLessCard(s.discovered, hits, gone);
  }

  /** A prompt is rejected only when the tick evicted some anchor, and so lengthened the symbol chain. */
  lemma RejectionMeansEviction(s: State, prompt: string, d: TickDraw)
    requires WellFormed(d)
    ensures !ValidatePrompt(s, prompt, d).1 ==> EvictedBy(s, d, Defaults) != {}
    ensures !ValidatePrompt(s, prompt, d).1 ==> |ValidatePrompt(s, prompt, d).0.symbolChain| > |s.symbolChain|
  {
    TickDiscovered(s, NoTiers, d, Defaults);
    TickSymbolChain(s, NoTiers, d, Defaults);
    if EvictedBy(s, d, Defaults) == {} {
      var after := ValidatePrompt(s, prompt, d).0.discovered;
      assert after == s.discovered + (after - s.discovered);
    }
  }

  /** Every discovery a filter tick logs has tier 8, as the filter passes no tier table. */
  lemma FilterLogsDefaultTier(s: State, prompt: string, d: TickDraw)
    requires WellFormed(d)
    ensures var r := ValidatePrompt(s, prompt, d).0;
      forall k :: |s.discoveryLog| <= k < |r.discoveryLog| ==> r.discoveryLog[k].tier == Some(8)
  {
    var r := ValidatePrompt(s, prompt, d).0;
    TickDiscoveryLog(s, NoTiers, d, Defaults);
    forall k | |s.discoveryLog| <= k < |r.discoveryLog| ensures r.discoveryLog[k].tier == Some(8) {
      assert r.discoveryLog[k] in r.discoveryLog[|s.discoveryLog|..];
    }
  }

  /** Every item of the value list lies within bounds of the map's values. */
  lemma ValuesWithin(m: map<string, int>, lo: int, hi: int)
    requires forall k :: k in m ==> lo <= m[k] <= hi
    ensures forall i :: 0 <= i < |Values(m)| ==> lo as real <= Values(m)[i] <= hi as real
  {
    var vs := Values(m);
    forall i | 0 <= i < |vs| ensures lo as real <= vs[i] <= hi as real {
      assert IsValueOf(m, vs[i]);
    }
  }

  /** The mean of a non-empty map lies within any bounds of its values. */
  lemma MeanWithin(m: map<string, int>, lo: int, hi: int)
    requires m != map[]
    requires forall k :: k in m ==> lo <= m[k] <= hi
    ensures lo as real <= MeanResilience(m) <= hi as real
  {
    ValuesWithin(m, lo, hi);
    MeanBounds(Values(m), lo as real, hi as real);
  }

  /**
   * From a state whose resilience values are all at least 1 (a fresh state
   * qualifies), the score is 0.0 exactly when no anchor has resilience after
   * the tick, and at least 1.0 otherwise; the state after the tick still has
   * positive values.
   */
  lemma ScoreZeroOnlyWhenEmpty(s: State, output: string, d: TickDraw)
    requires WellFormed(d)
    requires ResiliencePositive(s)
    ensures var r := ScoreOutput(s, output, d);
      && ResiliencePositive(r.0)
      && (r.1 == 0.0 <==> r.0.resilience == map[])
      && (r.0.resilience != map[] ==> r.1 >= 1.0)
  {
    var r := ScoreOutput(s, output, d);
    TickResiliencePositive(s, NoTiers, d, Defaults);
  }
}

=== FILE: fusion.dfy ===
/**
 * Anchor fusion of braid_self_directed_fusion.py (and the drive fusion of
 * symbolic_controller.py, which builds its anchor the same way with another
 * connective): the fused name, expression, tier, seeded fingerprint and id,
 * and `reflect_and_mutate`, which appends one fusion of two distinct anchors
 * per cycle.
 */
module Fusion {
  import opened Wrappers
  import opened Anchors

  /** Four draws of `random.randint(10, 255)`. */
  type Fingerprint4 = fp: seq<int> | |fp| == 4 && forall i :: 0 <= i < 4 ==> 10 <= fp[i] <= 255
    witness [10, 10, 10, 10]

  /**
   * The generator reseeded with `int(digest, 16)`: the four draws it makes.
   * The seed is a function of the digest, so the draws are too.
   */
  type FingerprintDraw = Sha256Hex -> Fingerprint4

  /** `f"{n1}_{n2}{suffix}"`. */
  function FusedName(n1: string, n2: string, suffix: string): string {
    n1 + "_" + n2 + suffix
  }

  /** `f"({e1}) {connective} ({e2})"`. */
  function FusedExpression(e1: string, connective: string, e2: string): string {
    "(" + e1 + ") " + connective + " (" + e2 + ")"
  }

  /**
   * The fused record: name and expression from the parents, the given tier,
   * fingerprint drawn from the SHA-256 digest of the expression, and id the
   * first 12 characters of the MD5 digest of name and expression.
   */
  function Fuse(a1: Anchor, a2: Anchor, suffix: string, connective: string, tier: int,
                h: Hashes, draw: FingerprintDraw): (r: Anchor)
    ensures |r.id| == IdLength && r.id <= h.md5(r.name + r.expression)
    ensures |r.fingerprint| == 4 && forall i :: 0 <= i < 4 ==> 10 <= r.fingerprint[i] <= 255
    ensures r.tier == Some(tier) && r.extras == map[]
  {
    var name := FusedName(a1.name, a2.name, suffix);
    var expression := FusedExpression(a1.expression, connective, a2.expression);
    Anchor(h.md5(name + expression)[..IdLength], name, expression, Some(tier), draw(h.sha256(expression)), map[])
  }

  /** `max(a1.get('tier', 1), a2.get('tier', 1)) + 1`. */
  function FusedTier(a1: Anchor, a2: Anchor): int {
    var t1, t2 := a1.tier.GetOr(1), a2.tier.GetOr(1);
    (if t1 >= t2 then t1 else t2) + 1
  }

  /**
   * `fuse_anchors(a1, a2)`: the `<=>` fusion named `n1_n2_fusion`, one tier
   * above the larger parent tier (a missing tier reading as 1).
   */
  function FuseAnchors(a1: Anchor, a2: Anchor, h: Hashes, draw: FingerprintDraw): (r: Anchor)
    ensures r.name == a1.name + "_" + a2.name + "_fusion"
    ensures r.expression == "(" + a1.expression + ") <=> (" + a2.expression + ")"
    ensures r.tier.Some? && r.tier.value > a1.tier.GetOr(1) && r.tier.value > a2.tier.GetOr(1)
    ensures r.tier.value == a1.tier.GetOr(1) + 1 || r.tier.value == a2.tier.GetOr(1) + 1
  {
    FusedTierAboveParents(a1, a2);
    Fuse(a1, a2, "_fusion", "<=>", FusedTier(a1, a2), h, draw)
  }

  /** Each draw is two distinct positions of a population of `n`, as `random.sample(anchors, 2)` draws them. */
  predicate ValidPicks(picks: seq<(nat, nat)>, n: nat) {
    forall k :: 0 <= k < |picks| ==> picks[k].0 < n && picks[k].1 < n && picks[k].0 != picks[k].1
  }

  /** The fusions of the drawn pairs, in order. */
  function FusePicks(anchors: seq<Anchor>, picks: seq<(nat, nat)>, h: Hashes, draw: FingerprintDraw): (r: seq<Anchor>)
    requires ValidPicks(picks, |anchors|)
    ensures |r| == |picks|
    ensures forall k :: 0 <= k < |picks| ==> r[k] == FuseAnchors(anchors[picks[k].0], anchors[picks[k].1], h, draw)
  {
    seq(|picks|, k requires 0 <= k < |picks| => FuseAnchors(anchors[picks[k].0], anchors[picks[k].1], h, draw))
  }

  /**
   * `reflect_and_mutate(cycles)` on an engine with `generated` so far: the
   * new `generated` list. Each cycle samples two distinct anchors (`picks`
   * holds the draws); sampling two from fewer than two anchors raises
   * `ValueError`.
   */
  function ReflectAndMutate(anchors: seq<Anchor>, generated: seq<Anchor>, cycles: int, picks: seq<(nat, nat)>,
                            h: Hashes, draw: FingerprintDraw): (r: Result<seq<Anchor>>)
    requires |anchors| >= 2 ==> |picks| >= cycles && ValidPicks(picks, |anchors|)
    ensures r.Failure? <==> cycles > 0 && |anchors| < 2
    ensures r.Success? ==> |generated| <= |r.value| && r.value[..|generated|] == generated
    ensures r.Success? ==> |r.value| == |generated| + (if cycles > 0 then cycles else 0)
  {
    if cycles <= 0 then Success(generated)
    else if |anchors| < 2 then Failure("ValueError: sample larger than population")
    else Success(generated + FusePicks(anchors, picks[..cycles], h, draw))
  }

  // ------------------------------------------------------------------ properties

  /**
   * The fused tier is above both parents' tiers (a missing tier read as 1),
   * so it is at least 2 when neither parent has a tier below 1.
   */
  lemma FusedTierAboveParents(a1: Anchor, a2: Anchor)
    ensures FusedTier(a1, a2) > a1.tier.GetOr(1) && FusedTier(a1, a2) > a2.tier.GetOr(1)
    ensures a1.tier.GetOr(1) >= 1 && a2.tier.GetOr(1) >= 1 ==> FusedTier(a1, a2) >= 2
  {
  }

  /** The fused expression is the parents' expressions in brackets around the connective: both can be read back. */
  lemma FusedExpressionParts(e1: string, connective: string, e2: string)
    ensures var e := FusedExpression(e1, connective, e2);
      && |e| == |e1| + |connective| + |e2| + 6
      && e[1..|e1| + 1] == e1
      && e[|e1| + 1..|e1| + |connective| + 5] == ") " + connective + " ("
      && e[|e| - |e2| - 1..|e| - 1] == e2
  {
    var e := FusedExpression(e1, connective, e2);
    var mid := ") " + connective + " (";
    assert e == "(" + e1 + mid + e2 + ")";
    assert e[1..|e1| + 1] == e1 by {
      forall i | 0 <= i < |e1| ensures e[1 + i] == e1[i] {
      }
    }
    assert e[|e1| + 1..|e1| + |connective| + 5] == mid by {
      forall i | 0 <= i < |mid| ensures e[|e1| + 1 + i] == mid[i] {
      }
    }
    assert e[|e| - |e2| - 1..|e| - 1] == e2 by {
      forall i | 0 <= i < |e2| ensures e[|e| - |e2| - 1 + i] == e2[i] {
      }
    }
  }

  /** Parents whose first expressions have the same length give the same fused expression only if both expressions agree. */
  lemma FusedExpressionInjective(e1: string, e2: string, f1: string, f2: string, connective: string)
    requires |e1| == |f1|
    requires FusedExpression(e1, connective, e2) == FusedExpression(f1, connective, f2)
    ensures e1 == f1 && e2 == f2
  {
    FusedExpressionParts(e1, connective, e2);
    FusedExpressionParts(f1, connective, f2);
  }

  /** The fused name is the parents' names joined by "_" with the suffix: both can be read back. */
  lemma FusedNameParts(n1: string, n2: string, suffix: string)
    ensures var n := FusedName(n1, n2, suffix);
      && |n| == |n1| + |n2| + |suffix| + 1
      && n[..|n1|] == n1 && n[|n1|] == '_' && n[|n1| + 1..|n1| + 1 + |n2|] == n2 && n[|n| - |suffix|..] == suffix
  {
    var n := FusedName(n1, n2, suffix);
    assert n == n1 + "_" + n2 + suffix;
  }

  /**
   * `fuse_anchors` yields `n1_n2_fusion` and `(e1) <=> (e2)`, a tier above
   * both parents, a 4-component fingerprint in [10, 255] that depends on the
   * expression alone, and a 12-character id.
   */
  lemma FuseAnchorsShape(a1: Anchor, a2: Anchor, b1: Anchor, b2: Anchor, h: Hashes, draw: FingerprintDraw)
    ensures var f := FuseAnchors(a1, a2, h, draw);
      && f.name == FusedName(a1.name, a2.name, "_fusion")
      && f.expression == FusedExpression(a1.expression, "<=>", a2.expression)
      && f.tier.Some? && f.tier.value > a1.tier.GetOr(1) && f.tier.value > a2.tier.GetOr(1)
      && |f.fingerprint| == 4 && (forall i :: 0 <= i < 4 ==> 10 <= f.fingerprint[i] <= 255)
      && |f.id| == IdLength
    ensures FuseAnchors(a1, a2, h, draw).expression == FuseAnchors(b1, b2, h, draw).expression
            ==> FuseAnchors(a1, a2, h, draw).fingerprint == FuseAnchors(b1, b2, h, draw).fingerprint
  {
    FusedTierAboveParents(a1, a2);
  }

  /** `f` fuses the anchors at two distinct positions of `anchors`. */
  predicate FusesTwoOf(f: Anchor, anchors: seq<Anchor>, h: Hashes, draw: FingerprintDraw) {
    exists i, j :: 0 <= i < |anchors| && 0 <= j < |anchors| && i != j && f == FuseAnchors(anchors[i], anchors[j], h, draw)
  }

  /**
   * Each fusion that `reflect_and_mutate` appends fuses the anchors at two
   * distinct positions, and `generated` only grows.
   */
  lemma ReflectFusesDistinctAnchors(anchors: seq<Anchor>, generated: seq<Anchor>, cycles: int, picks: seq<(nat, nat)>,
                                    h: Hashes, draw: FingerprintDraw)
    requires |anchors| >= 2 ==> |picks| >= cycles && ValidPicks(picks, |anchors|)
    requires ReflectAndMutate(anchors, generated, cycles, picks, h, draw).Success?
    ensures var r := ReflectAndMutate(anchors, generated, cycles, picks, h, draw).value;
      forall k :: |generated| <= k < |r| ==> FusesTwoOf(r[k], anchors, h, draw)
  {
    var r := ReflectAndMutate(anchors, generated, cycles, picks, h, draw).value;
    forall k | |generated| <= k < |r|
      ensures FusesTwoOf(r[k], anchors, h, draw)
    {
      var p := picks[k - |generated|];
      assert p == picks[..cycles][k - |generated|];
      assert r[k] == FuseAnchors(anchors[p.0], anchors[p.1], h, draw);
    }
  }
}

=== FILE: mirror.dfy ===
/** Entries of the mirror log, the periodic self-reflection records. */
module Mirror {
  import opened Wrappers

  /** What `annotate_mirror` attaches: the drift it is given and a time stamp. */
  datatype Annotation = Annotation(recursiveDrift: Option<real>, controllerStamp: string)

  /**
   * One reflection. Keys the core reads are `self_statement` and `strongest`,
   * both possibly absent; `annotation` is absent until `annotate_mirror` runs.
   */
  datatype MirrorEntry = MirrorEntry(
    step: int,
    selfStatement: Option<string>,
    strongest: Option<seq<string>>,
    annotation: Option<Annotation>)

  /** `entry.get("self_statement", "")`. */
  function Statement(e: MirrorEntry): string {
    e.selfStatement.GetOr("")
  }

  /** `set(entry.get("strongest", []))`. */
  function StrongestSet(e: MirrorEntry): set<string> {
    var xs := e.strongest.GetOr([]);
    set i | 0 <= i < |xs| :: xs[i]
  }
}

=== FILE: mutation.dfy ===
/**
 * Anchor mutation of symbolic_mutation.py: rewrite the expression, jitter the
 * fingerprint with seeded draws, derive name, id and tier; and the stability
 * pressure that mutates a random anchor once the braid is stable enough.
 */
module Mutation {
  import opened Wrappers
  import opened Anchors
  import Strings

  /** A draw of `random.randint(-5, 5)`. */
  type Offset = x: int | -5 <= x <= 5

  /**
   * The generator after `random.seed(seed)`: the `i`-th draw. Reseeding
   * before any draw makes the draws a function of the seed and the position.
   */
  type OffsetStream = (int, nat) -> Offset

  /**
   * The expression rewrite. With a "+", every "+" becomes "-" and nothing
   * else changes; else with a "*", every "*" becomes "/" and nothing else
   * changes; else " + ε" is appended. In the first two cases the length is
   * kept and no "+" (resp. "*") remains.
   */
  function MutateExpression(e: string): (r: string)
    ensures '+' in e ==>
      && |r| == |e| && '+' !in r
      && forall i :: 0 <= i < |e| ==> (e[i] == '+' ==> r[i] == '-') && (e[i] != '+' ==> r[i] == e[i])
    ensures '+' !in e && '*' in e ==>
      && |r| == |e| && '*' !in r && '+' !in r
      && forall i :: 0 <= i < |e| ==> (e[i] == '*' ==> r[i] == '/') && (e[i] != '*' ==> r[i] == e[i])
    ensures '+' !in e && '*' !in e ==> |r| == |e| + 4 && r[..|e|] == e && r[|e|..] == " + ε"
  {
    if '+' in e then
      var r := Strings.Replace(e, '+', '-');
      assert forall i :: 0 <= i < |r| ==> r[i] != '+';
      r
    else if '*' in e then
      var r := Strings.Replace(e, '*', '/');
      assert forall i :: 0 <= i < |r| ==> r[i] != '*' && r[i] != '+';
      r
    else e + " + ε"
  }

  /** `max(0, min(255, v))`. */
  function Clamp(v: int): int {
    if v < 0 then 0 else if v > 255 then 255 else v
  }

  /** One component moved by a draw and clamped to a byte. */
  function Jitter(v: int, offset: Offset): (r: int)
    ensures 0 <= r <= 255
    ensures 0 <= v <= 255 ==> -5 <= r - v <= 5
  {
    Clamp(v + offset)
  }

  /** Each component moved by its seeded draw and clamped to a byte. */
  function Perturb(fingerprint: seq<int>, seed: int, draws: OffsetStream): (r: seq<int>)
    ensures |r| == |fingerprint|
    ensures forall i :: 0 <= i < |r| ==> 0 <= r[i] <= 255
    ensures forall i :: 0 <= i < |r| && 0 <= fingerprint[i] <= 255 ==> -5 <= r[i] - fingerprint[i] <= 5
  {
    var r := seq(|fingerprint|, i requires 0 <= i < |fingerprint| => Jitter(fingerprint[i], draws(seed, i)));
    assert forall i :: 0 <= i < |r| ==> r[i] == Jitter(fingerprint[i], draws(seed, i));
    r
  }

  /**
   * `mutate_anchor(anchor, step_seed)`. Reading the parent's tier raises
   * `KeyError` when it has none.
   */
  function MutateAnchor(a: Anchor, seed: int, draws: OffsetStream, h: Hashes): (r: Result<Anchor>)
    ensures r.Success? <==> a.tier.Some?
    ensures r.Success? ==>
      && r.value.name == a.name + "_mut"
      && r.value.tier == Some(a.tier.value + 1)
      && |r.value.id| == IdLength && r.value.id <= h.sha256(r.value.name + r.value.expression)
      && r.value.extras == a.extras
      && r.value.expression == MutateExpression(a.expression)
      && r.value.fingerprint == Perturb(a.fingerprint, seed, draws)
      && |r.value.fingerprint| == |a.fingerprint|
      && (forall i :: 0 <= i < |a.fingerprint| ==> 0 <= r.value.fingerprint[i] <= 255)
      && (forall i :: 0 <= i < |a.fingerprint| && 0 <= a.fingerprint[i] <= 255 ==>
            -5 <= r.value.fingerprint[i] - a.fingerprint[i] <= 5)
  {
    if a.tier.None? then Failure("KeyError: 'tier'")
    else
      var name := a.name + "_mut";
      var expression := MutateExpression(a.expression);
      Success(Anchor(h.sha256(name + expression)[..IdLength], name, expression, Some(a.tier.value + 1),
                     Perturb(a.fingerprint, seed, draws), a.extras))
  }

  /** The threshold at which stability pressure sets in. */
  const PressureThreshold := 0.95

  /**
   * `apply_stability_pressure(anchors, stability_index, step)`: `None` below
   * the threshold or with no anchors; otherwise the mutation of the anchor at
   * the drawn position `pick` (the draw of `random.choice`).
   */
  function ApplyStabilityPressure(anchors: seq<Anchor>, stability: real, step: int, pick: nat,
                                  draws: OffsetStream, h: Hashes): (r: Option<Result<Anchor>>)
    requires anchors != [] ==> pick < |anchors|
    ensures r.None? <==> stability < PressureThreshold || anchors == []
    ensures r.Some? ==> r.value == MutateAnchor(anchors[pick], step, draws, h)
  {
    if stability >= PressureThreshold && |anchors| >= 1 then Some(MutateAnchor(anchors[pick], step, draws, h))
    else None
  }

  // ------------------------------------------------------------------ properties

  /**
   * Mutating twice an expression with neither "+" nor "*": the first pass
   * appends " + ε", the second turns that "+" into "-".
   */
  lemma MutateTwice(e: string)
    requires '+' !in e && '*' !in e
    ensures MutateExpression(MutateExpression(e)) == e + " - ε"
  {
    var once := e + " + ε";
    assert once[|e| + 1] == '+';
    var twice := Strings.Replace(once, '+', '-');
    assert |twice| == |e + " - ε"|;
    forall i | 0 <= i < |twice| ensures twice[i] == (e + " - ε")[i] {
      if i < |e| {
        assert once[i] == e[i];
      }
    }
  }

  /**
   * A mutant's name and tier lead back to its parent: dropping the "_mut"
   * suffix gives the parent's name, and the tier is one above the parent's.
   */
  lemma MutantParent(a: Anchor, seed: int, draws: OffsetStream, h: Hashes)
    requires a.tier.Some?
    ensures var m := MutateAnchor(a, seed, draws, h).value;
      && m.name[..|m.name| - 4] == a.name && m.name[|m.name| - 4..] == "_mut"
      && m.tier.Some? && m.tier.value > a.tier.value
  {
  }

  /** Stability pressure needs a stability of at least 0.95 and some anchor; then it mutates one of them. */
  lemma PressureMutatesAnAnchor(anchors: seq<Anchor>, stability: real, step: int, pick: nat, draws: OffsetStream, h: Hashes)
    requires anchors != [] ==> pick < |anchors|
    requires stability >= PressureThreshold && anchors != []
    ensures var r := ApplyStabilityPressure(anchors, stability, step, pick, draws, h);
      r.Some? && exists i :: 0 <= i < |anchors| && r.value == MutateAnchor(anchors[i], step, draws, h)
  {
    assert ApplyStabilityPressure(anchors, stability, step, pick, draws, h).value == MutateAnchor(anchors[pick], step, draws, h);
  }
}

=== FILE: numbers.dfy ===
/**
 * The numeric primitives the controllers use, over exact reals: Python's
 * `round(x, 3)` (round half to even on thousandths), `int(x)` (truncation
 * toward zero), `abs`, and the arithmetic mean.
 */
module Numbers {

  function Abs(x: real): (r: real)
    ensures r >= 0.0 && (r == x || r == -x)
  {
    if x < 0.0 then -x else x
  }

  /** `int(x)`: drops the fractional part, rounding toward zero. */
  function Trunc(x: real): (r: int)
    ensures x >= 0.0 ==> r as real <= x < r as real + 1.0
    ensures x < 0.0 ==> r as real - 1.0 < x <= r as real
  {
    if x >= 0.0 then x.Floor else -((-x).Floor)
  }

  /** Truncation never reverses the order of its arguments. */
  lemma TruncMonotone(x: real, y: real)
    requires x <= y
    ensures Trunc(x) <= Trunc(y)
  {
  }

  /** The nearest integer to `y`, a tie going to the even neighbour. */
  function RoundHalfEven(y: real): (n: int)
    ensures -0.5 <= n as real - y <= 0.5
  {
    var f := y.Floor;
    var frac := y - f as real;
    if frac > 0.5 then f + 1
    else if frac < 0.5 then f
    else if f % 2 == 0 then f
    else f + 1
  }

  /** `round(x, 3)`: a multiple of a thousandth within half a thousandth of `x`. */
  function Round3(x: real): (r: real)
    ensures -0.0005 <= r - x <= 0.0005
    ensures (r * 1000.0).Floor as real == r * 1000.0
  {
    RoundHalfEven(x * 1000.0) as real / 1000.0
  }

  /** Rounding to the nearest integer never reverses the order of its arguments. */
  lemma RoundHalfEvenMonotone(x: real, y: real)
    requires x <= y
    ensures RoundHalfEven(x) <= RoundHalfEven(y)
  {
    var fx, fy := x.Floor, y.Floor;
    if fx == fy {
      assert x - fx as real <= y - fy as real;
    } else {
      assert fx < fy;
    }
  }

  /** Rounding an integer returns it. */
  lemma RoundHalfEvenOfInteger(n: int)
    ensures RoundHalfEven(n as real) == n
  {
    assert (n as real).Floor == n;
  }

  /** `round(x, 3)` keeps the order of its arguments. */
  lemma Round3Monotone(x: real, y: real)
    requires x <= y
    ensures Round3(x) <= Round3(y)
  {
    RoundHalfEvenMonotone(x * 1000.0, y * 1000.0);
  }

  /** 0, 0.5 and 1 are multiples of a thousandth, so rounding keeps them. */
  lemma Round3Fixed()
    ensures Round3(0.0) == 0.0 && Round3(1.0) == 1.0 && Round3(0.5) == 0.5
  {
    RoundHalfEvenOfInteger(0);
    RoundHalfEvenOfInteger(1000);
    RoundHalfEvenOfInteger(500);
  }

  /** Rounding keeps a value in [0, 1] within [0, 1]. */
  lemma Round3UnitRange(x: real)
    requires 0.0 <= x <= 1.0
    ensures 0.0 <= Round3(x) <= 1.0
  {
    Round3Fixed();
    Round3Monotone(0.0, x);
    Round3Monotone(x, 1.0);
  }

  function Sum(xs: seq<real>): real
    decreases |xs|
  {
    if xs == [] then 0.0 else xs[0] + Sum(xs[1..])
  }

  /** `statistics.mean`: defined on non-empty lists only (it raises otherwise). */
  function Mean(xs: seq<real>): real
    requires xs != []
  {
    Sum(xs) / |xs| as real
  }

  /** A list whose every element is `c` sums to `|xs| * c`. */
  lemma {:induction false} SumConstant(xs: seq<real>, c: real)
    requires forall i :: 0 <= i < |xs| ==> xs[i] == c
    ensures Sum(xs) == |xs| as real * c
    decreases |xs|
  {
    if xs != [] {
      SumConstant(xs[1..], c);
    }
  }

  /** The sum lies between `|xs|` times the smallest and the largest bound of its elements. */
  lemma {:induction false} SumBounds(xs: seq<real>, lo: real, hi: real)
    requires forall i :: 0 <= i < |xs| ==> lo <= xs[i] <= hi
    ensures |xs| as real * lo <= Sum(xs) <= |xs| as real * hi
    decreases |xs|
  {
    if xs != [] {
      SumBounds(xs[1..], lo, hi);
    }
  }

  /** The mean lies within any bounds its elements lie within, and is `c` on a constant list. */
  lemma MeanBounds(xs: seq<real>, lo: real, hi: real)
    requires xs != []
    requires forall i :: 0 <= i < |xs| ==> lo <= xs[i] <= hi
    ensures lo <= Mean(xs) <= hi
    ensures lo == hi ==> Mean(xs) == lo
  {
    SumBounds(xs, lo, hi);
    var n := |xs| as real;
    assert n * lo / n == lo && n * hi / n == hi;
  }

  /** `xs[-3:]`: the last three items, or all of them when there are fewer. */
  function LastThree<T>(xs: seq<T>): (r: seq<T>)
    ensures |r| == if |xs| < 3 then |xs| else 3
    ensures forall i :: 0 <= i < |r| ==> r[i] == xs[|xs| - |r| + i]
  {
    if |xs| < 3 then xs else xs[|xs| - 3..]
  }
}

=== FILE: observe.dfy ===
/**
 * `observe_environment` of truth_anchors.py: every scaffold predicate is tried
 * on the leading items of each environment stream, in order; each success
 * reinforces and logs the anchor, and an exception abandons that anchor's
 * remaining streams but keeps what it already did.
 */
module Observation {
  import opened Wrappers
  import opened SymbolicState
  import opened TruthAnchors

  /** An item of an environment stream: the streams hold numbers and quotations. */
  datatype Value = Number(x: real) | Text(s: string)

  /** An environment value: a list of items, or anything else (skipped). */
  datatype Stream = Items(items: seq<Value>) | NotAList

  /** What calling a predicate on a sample does: returns a truthy or falsy value, or raises. */
  datatype Outcome = Holds | Fails | Raises

  /** The predicate bodies, left opaque: the outcome of the named predicate on a sample. */
  type Oracle = (string, seq<Value>) -> Outcome

  /** The stream is evaluated only when it is a list at least as long as the predicate's arity. */
  predicate Applies(pr: Predicate, st: Stream) {
    st.Items? && |st.items| >= pr.arity
  }

  /** `fn(*stream[:args])`. */
  function Evaluate(pr: Predicate, st: Stream, oracle: Oracle): Outcome
    requires Applies(pr, st)
  {
    oracle(pr.name, st.items[..pr.arity])
  }

  /**
   * How many of the streams credit the predicate, as an independent reference
   * count: the successes among the evaluated streams before the first one
   * that raises.
   */
  function Credits(pr: Predicate, streams: seq<Stream>, oracle: Oracle): nat
    decreases |streams|
  {
    if streams == [] then 0
    else if !Applies(pr, streams[0]) then Credits(pr, streams[1..], oracle)
    else match Evaluate(pr, streams[0], oracle)
      case Raises => 0
      case Holds => 1 + Credits(pr, streams[1..], oracle)
      case Fails => Credits(pr, streams[1..], oracle)
  }

  /** The total credit of the anchor named `a` over the whole scaffold. */
  function Gain(a: string, preds: seq<Predicate>, streams: seq<Stream>, oracle: Oracle): nat
    decreases |preds|
  {
    if preds == [] then 0
    else (if preds[0].name == a then Credits(preds[0], streams, oracle) else 0) + Gain(a, preds[1..], streams, oracle)
  }

  /** One success of the anchor named `a`: resilience up by one, discovered, and a tier-less log entry. */
  function Credit(s: State, a: string): State {
    s.(resilience := s.resilience[a := Get(s.resilience, a, 0) + 1],
       discovered := s.discovered + {a},
       discoveryLog := s.discoveryLog + [LogEntry(s.time, a, None, None)])
  }

  /**
   * The inner loop over the streams for one predicate; stops at the first
   * exception. Only the predicate's own anchor gains, by as much in
   * resilience as in `aligned`, and it is discovered once it has gained.
   */
  function ObserveAnchor(s: State, aligned: map<string, int>, pr: Predicate, streams: seq<Stream>, oracle: Oracle)
    : (r: (State, map<string, int>))
    ensures r.0.time == s.time
    ensures forall b :: b != pr.name ==> Get(r.0.resilience, b, 0) == Get(s.resilience, b, 0) && Get(r.1, b, 0) == Get(aligned, b, 0)
    ensures Get(r.0.resilience, pr.name, 0) - Get(s.resilience, pr.name, 0) == Get(r.1, pr.name, 0) - Get(aligned, pr.name, 0) >= 0
    ensures s.discovered <= r.0.discovered <= s.discovered + {pr.name}
    ensures Get(r.0.resilience, pr.name, 0) > Get(s.resilience, pr.name, 0) ==> pr.name in r.0.discovered
    decreases |streams|
  {
    if streams == [] then (s, aligned)
    else if !Applies(pr, streams[0]) then ObserveAnchor(s, aligned, pr, streams[1..], oracle)
    else match Evaluate(pr, streams[0], oracle)
      case Raises => (s, aligned)
      case Holds =>
        ObserveAnchor(Credit(s, pr.name), aligned[pr.name := Get(aligned, pr.name, 0) + 1], pr, streams[1..], oracle)
      case Fails => ObserveAnchor(s, aligned, pr, streams[1..], oracle)
  }

  /** The outer loop over the scaffold. */
  function ObserveAll(s: State, aligned: map<string, int>, preds: seq<Predicate>, streams: seq<Stream>, oracle: Oracle)
    : (r: (State, map<string, int>))
    ensures r.0.time == s.time
    decreases |preds|
  {
    if preds == [] then (s, aligned)
    else
      var step := ObserveAnchor(s, aligned, preds[0], streams, oracle);
      ObserveAll(step.0, step.1, preds[1..], streams, oracle)
  }

  /** `observe_environment(state, environment, scaffold)`: the new state and the `aligned` counts. */
  function ObserveEnvironment(s: State, streams: seq<Stream>, preds: seq<Predicate>, oracle: Oracle)
    : (r: (State, map<string, int>))
    ensures r.0.time == s.time + 1
  {
    var done := ObserveAll(s, map[], preds, streams, oracle);
    (done.0.(time := done.0.time + 1), done.1)
  }

  // ------------------------------------------------------------------ properties

  /** How many entries of a log name `a`. */
  function Occurrences(entries: seq<LogEntry>, a: string): nat
    decreases |entries|
  {
    if entries == [] then 0
    else (if entries[0].anchor == a then 1 else 0) + Occurrences(entries[1..], a)
  }

  lemma {:induction false} OccurrencesAppend(xs: seq<LogEntry>, ys: seq<LogEntry>, a: string)
    ensures Occurrences(xs + ys, a) == Occurrences(xs, a) + Occurrences(ys, a)
    decreases |xs|
  {
    if xs == [] {
      assert xs + ys == ys;
    } else {
      assert (xs + ys)[1..] == xs[1..] + ys;
      OccurrencesAppend(xs[1..], ys, a);
    }
  }

  /** Only the fields a success touches differ. */
  predicate SameOtherFields(s: State, r: State) {
    r.(resilience := s.resilience, discovered := s.discovered, discoveryLog := s.discoveryLog) == s
  }

  /** The entries `observe_environment` logs: stamped with the time before the call, without tier or expression. */
  predicate ObservationEntries(entries: seq<LogEntry>, time: int) {
    forall i :: 0 <= i < |entries| ==> entries[i].time == time && entries[i].tier == None && entries[i].expression == None
  }

  /** `k` successes of the anchor named `a`, one after the other. */
  function CreditTimes(s: State, aligned: map<string, int>, a: string, k: nat): (State, map<string, int>)
    decreases k
  {
    if k == 0 then (s, aligned)
    else CreditTimes(Credit(s, a), aligned[a := Get(aligned, a, 0) + 1], a, k - 1)
  }

  /** One predicate's pass over the streams amounts to crediting its anchor once per credit. */
  lemma {:induction false} ObserveAnchorCredits(s: State, aligned: map<string, int>, pr: Predicate, streams: seq<Stream>, oracle: Oracle)
    ensures ObserveAnchor(s, aligned, pr, streams, oracle) == CreditTimes(s, aligned, pr.name, Credits(pr, streams, oracle))
    decreases |streams|
  {
    if streams != [] && Applies(pr, streams[0]) && Evaluate(pr, streams[0], oracle) == Holds {
      ObserveAnchorCredits(Credit(s, pr.name), aligned[pr.name := Get(aligned, pr.name, 0) + 1], pr, streams[1..], oracle);
    } else if streams != [] && (!Applies(pr, streams[0]) || Evaluate(pr, streams[0], oracle) == Fails) {
      ObserveAnchorCredits(s, aligned, pr, streams[1..], oracle);
    }
  }

  /** Crediting touches only the resilience map, the discovered set and the log. */
  lemma {:induction false} CreditTimesFrame(s: State, aligned: map<string, int>, a: string, k: nat)
    ensures SameOtherFields(s, CreditTimes(s, aligned, a, k).0)
    decreases k
  {
    if k > 0 {
      CreditTimesFrame(Credit(s, a), aligned[a := Get(aligned, a, 0) + 1], a, k - 1);
    }
  }

  /**
   * `k` credits of `a`: it gains exactly `k` in resilience and in `aligned`,
   * and is discovered iff it was or `k > 0`; no other anchor changes.
   */
  lemma {:induction false} CreditTimesCounts(s: State, aligned: map<string, int>, a: string, k: nat)
    ensures var r := CreditTimes(s, aligned, a, k);
      && (forall b :: Get(r.0.resilience, b, 0) == Get(s.resilience, b, 0) + (if b == a then k else 0))
      && (forall b :: Get(r.1, b, 0) == Get(aligned, b, 0) + (if b == a then k else 0))
      && (forall b :: b in r.0.resilience <==> b in s.resilience || (b == a && k > 0))
      && (forall b :: b in r.0.discovered <==> b in s.discovered || (b == a && k > 0))
      && (forall b :: b in r.1 <==> b in aligned || (b == a && k > 0))
    decreases k
  {
    if k > 0 {
      CreditTimesCounts(Credit(s, a), aligned[a := Get(aligned, a, 0) + 1], a, k - 1);
    }
  }

  /** `k` credits of `a` append `k` entries for `a`, stamped with the current time. */
  lemma {:induction false} CreditTimesLog(s: State, aligned: map<string, int>, a: string, k: nat)
    ensures var r := CreditTimes(s, aligned, a, k);
      && |s.discoveryLog| <= |r.0.discoveryLog| && r.0.discoveryLog[..|s.discoveryLog|] == s.discoveryLog
      && ObservationEntries(r.0.discoveryLog[|s.discoveryLog|..], s.time)
      && (forall b :: Occurrences(r.0.discoveryLog[|s.discoveryLog|..], b) == (if b == a then k else 0))
    decreases k
  {
    if k > 0 {
      var s1 := Credit(s, a);
      var a1 := aligned[a := Get(aligned, a, 0) + 1];
      CreditTimesLog(s1, a1, a, k - 1);
      var r := CreditTimes(s1, a1, a, k - 1);
      var e := LogEntry(s.time, a, None, None);
      var rest := r.0.discoveryLog[|s1.discoveryLog|..];
      assert r.0.discoveryLog[|s.discoveryLog|..] == [e] + rest;
      forall b ensures Occurrences([e] + rest, b) == (if b == a then k else 0) {
        OccurrencesAppend([e], rest, b);
      }
    } else {
      assert s.discoveryLog[|s.discoveryLog|..] == [];
    }
  }

  /** The pass over the whole scaffold touches only the resilience map, the discovered set and the log. */
  lemma {:induction false} ObserveAllFrame(s: State, aligned: map<string, int>, preds: seq<Predicate>, streams: seq<Stream>, oracle: Oracle)
    ensures SameOtherFields(s, ObserveAll(s, aligned, preds, streams, oracle).0)
    decreases |preds|
  {
    if preds != [] {
      var step := ObserveAnchor(s, aligned, preds[0], streams, oracle);
      ObserveAnchorCredits(s, aligned, preds[0], streams, oracle);
      CreditTimesFrame(s, aligned, preds[0].name, Credits(preds[0], streams, oracle));
      ObserveAllFrame(step.0, step.1, preds[1..], streams, oracle);
    }
  }

  /** The pass over the whole scaffold: each anchor gains its total credit in resilience and in `aligned`. */
  lemma {:induction false} ObserveAllCounts(s: State, aligned: map<string, int>, preds: seq<Predicate>, streams: seq<Stream>, oracle: Oracle)
    ensures var r := ObserveAll(s, aligned, preds, streams, oracle);
      && (forall b :: Get(r.0.resilience, b, 0) == Get(s.resilience, b, 0) + Gain(b, preds, streams, oracle))
      && (forall b :: Get(r.1, b, 0) == Get(aligned, b, 0) + Gain(b, preds, streams, oracle))
      && (forall b :: b in r.0.resilience <==> b in s.resilience || Gain(b, preds, streams, oracle) > 0)
      && (forall b :: b in r.0.discovered <==> b in s.discovered || Gain(b, preds, streams, oracle) > 0)
      && (forall b :: b in r.1 <==> b in aligned || Gain(b, preds, streams, oracle) > 0)
    decreases |preds|
  {
    if preds != [] {
      var step := ObserveAnchor(s, aligned, preds[0], streams, oracle);
      ObserveAnchorCredits(s, aligned, preds[0], streams, oracle);
      CreditTimesCounts(s, aligned, preds[0].name, Credits(preds[0], streams, oracle));
      ObserveAllCounts(step.0, step.1, preds[1..], streams, oracle);
    }
  }

  /** Two runs of appended observation entries make one, whose occurrences add up. */
  lemma ObservationEntriesCompose(l0: seq<LogEntry>, l1: seq<LogEntry>, l2: seq<LogEntry>, time: int)
    requires |l0| <= |l1| <= |l2| && l1[..|l0|] == l0 && l2[..|l1|] == l1
    requires ObservationEntries(l1[|l0|..], time) && ObservationEntries(l2[|l1|..], time)
    ensures l2[..|l0|] == l0 && ObservationEntries(l2[|l0|..], time)
    ensures forall b :: Occurrences(l2[|l0|..], b) == Occurrences(l1[|l0|..], b) + Occurrences(l2[|l1|..], b)
  {
    assert l2[..|l1|][..|l0|] == l2[..|l0|];
    assert l2[|l0|..] == l1[|l0|..] + l2[|l1|..];
    forall b ensures Occurrences(l2[|l0|..], b) == Occurrences(l1[|l0|..], b) + Occurrences(l2[|l1|..], b) {
      OccurrencesAppend(l1[|l0|..], l2[|l1|..], b);
    }
  }

  /** The pass over the whole scaffold appends one entry per credit. */
  lemma {:induction false} ObserveAllLog(s: State, aligned: map<string, int>, preds: seq<Predicate>, streams: seq<Stream>, oracle: Oracle)
    ensures var r := ObserveAll(s, aligned, preds, streams, oracle);
      && |s.discoveryLog| <= |r.0.discoveryLog| && r.0.discoveryLog[..|s.discoveryLog|] == s.discoveryLog
      && ObservationEntries(r.0.discoveryLog[|s.discoveryLog|..], s.time)
      && (forall b :: Occurrences(r.0.discoveryLog[|s.discoveryLog|..], b) == Gain(b, preds, streams, oracle))
    decreases |preds|
  {
    if preds != [] {
      var step := ObserveAnchor(s, aligned, preds[0], streams, oracle);
      ObserveAnchorCredits(s, aligned, preds[0], streams, oracle);
      CreditTimesLog(s, aligned, preds[0].name, Credits(preds[0], streams, oracle));
      ObserveAllLog(step.0, step.1, preds[1..], streams, oracle);
      var r := ObserveAll(step.0, step.1, preds[1..], streams, oracle);
      assert r == ObserveAll(s, aligned, preds, streams, oracle);
      ObservationEntriesCompose(s.discoveryLog, step.0.discoveryLog, r.0.discoveryLog, s.time);
    } else {
      assert s.discoveryLog[|s.discoveryLog|..] == [];
    }
  }

  /**
   * `aligned[a]` is exactly the resilience `a` gained in the call, which is
   * its credit over the scaffold; an anchor absent from `aligned` is
   * untouched.
   */
  lemma ObserveAligned(s: State, streams: seq<Stream>, preds: seq<Predicate>, oracle: Oracle)
    ensures var r := ObserveEnvironment(s, streams, preds, oracle);
      && (forall a :: a in r.1 ==> r.1[a] == Gain(a, preds, streams, oracle) > 0)
      && (forall a :: a in r.1 ==> a in r.0.resilience && r.0.resilience[a] == Get(s.resilience, a, 0) + r.1[a])
      && (forall a :: a !in r.1 ==> (a in r.0.resilience <==> a in s.resilience) && Get(r.0.resilience, a, 0) == Get(s.resilience, a, 0))
  {
    ObserveAllCounts(s, map[], preds, streams, oracle);
  }

  /** The call discovers exactly the aligned anchors, so it keeps the resilience keys equal to the discovered set. */
  lemma ObserveDiscovered(s: State, streams: seq<Stream>, preds: seq<Predicate>, oracle: Oracle)
    ensures var r := ObserveEnvironment(s, streams, preds, oracle);
      && r.0.discovered == s.discovered + r.1.Keys
      && r.0.resilience.Keys == s.resilience.Keys + r.1.Keys
      && (KeysMatch(s) ==> KeysMatch(r.0))
  {
    ObserveAllCounts(s, map[], preds, streams, oracle);
  }

  /**
   * The call appends one tier-less entry, stamped with the time before the
   * call, per success (also for anchors already discovered), and otherwise
   * only advances the clock.
   */
  lemma ObserveLog(s: State, streams: seq<Stream>, preds: seq<Predicate>, oracle: Oracle)
    ensures var r := ObserveEnvironment(s, streams, preds, oracle);
      && |s.discoveryLog| <= |r.0.discoveryLog| && r.0.discoveryLog[..|s.discoveryLog|] == s.discoveryLog
      && ObservationEntries(r.0.discoveryLog[|s.discoveryLog|..], s.time)
      && (forall a :: Occurrences(r.0.discoveryLog[|s.discoveryLog|..], a) == Gain(a, preds, streams, oracle))
      && r.0.(resilience := s.resilience, discovered := s.discovered, discoveryLog := s.discoveryLog, time := s.time) == s
  {
    ObserveAllLog(s, map[], preds, streams, oracle);
    ObserveAllFrame(s, map[], preds, streams, oracle);
  }

  /** An exception in a stream abandons the later streams of that predicate but keeps the credits before it. */
  lemma {:induction false} RaiseStopsAnchor(pr: Predicate, streams: seq<Stream>, oracle: Oracle, k: nat)
    requires k < |streams| && Applies(pr, streams[k]) && Evaluate(pr, streams[k], oracle) == Raises
    ensures Credits(pr, streams, oracle) == Credits(pr, streams[..k], oracle)
    decreases k
  {
    if k > 0 {
      assert streams[1..][..k - 1] == streams[..k][1..];
      RaiseStopsAnchor(pr, streams[1..], oracle, k - 1);
    }
  }

  /** A predicate sees only the first `arity` items of a stream: streams that agree there give the same credits. */
  lemma {:induction false} OnlyLeadingItemsMatter(pr: Predicate, xs: seq<Stream>, ys: seq<Stream>, oracle: Oracle)
    requires |xs| == |ys|
    requires forall i :: 0 <= i < |xs| ==> (Applies(pr, xs[i]) <==> Applies(pr, ys[i]))
    requires forall i :: 0 <= i < |xs| && Applies(pr, xs[i]) && Applies(pr, ys[i]) ==> xs[i].items[..pr.arity] == ys[i].items[..pr.arity]
    ensures Credits(pr, xs, oracle) == Credits(pr, ys, oracle)
    decreases |xs|
  {
    if xs != [] {
      OnlyLeadingItemsMatter(pr, xs[1..], ys[1..], oracle);
    }
  }

  /** With distinct scaffold keys, an anchor's gain is the credit of its own predicate alone: an exception in one predicate does not stop the next. */
  lemma GainOfDistinctScaffold(preds: seq<Predicate>, streams: seq<Stream>, oracle: Oracle, i: nat)
    requires i < |preds|
    requires forall j, k :: 0 <= j < k < |preds| ==> preds[j].name != preds[k].name
    ensures Gain(preds[i].name, preds, streams, oracle) == Credits(preds[i], streams, oracle)
  {
    GainOfDistinctAt(preds, streams, oracle, i);
  }

  lemma {:induction false} GainOfDistinctAt(preds: seq<Predicate>, streams: seq<Stream>, oracle: Oracle, i: nat)
    requires i < |preds|
    requires forall j, k :: 0 <= j < k < |preds| ==> preds[j].name != preds[k].name
    ensures Gain(preds[i].name, preds, streams, oracle) == Credits(preds[i], streams, oracle)
    decreases |preds|
  {
    if i == 0 {
      GainAbsent(preds[0].name, preds[1..], streams, oracle);
    } else {
      GainOfDistinctAt(preds[1..], streams, oracle, i - 1);
    }
  }

  lemma {:induction false} GainAbsent(a: string, preds: seq<Predicate>, streams: seq<Stream>, oracle: Oracle)
    requires forall j :: 0 <= j < |preds| ==> preds[j].name != a
    ensures Gain(a, preds, streams, oracle) == 0
    decreases |preds|
  {
    if preds != [] {
      GainAbsent(a, preds[1..], streams, oracle);
    }
  }
}

=== FILE: selfloop.dfy ===
/**
 * The promotion logic of symbolic_self_loop_enhanced.py: the weakest anchor,
 * the question it prompts, and the conservative promotion and demotion of
 * symbolic truths by resilience. The language model is not part of this
 * model.
 */
module SelfLoop {
  import opened Wrappers
  import opened Strings
  import opened SymbolicState

  /**
   * `order` is the key order of the resilience dict: every key once, in the
   * order the keys were inserted. The state does not record it.
   */
  predicate KeyOrder(m: map<string, int>, order: seq<string>) {
    && (forall k :: k in m ==> k in order)
    && (forall i :: 0 <= i < |order| ==> order[i] in m)
    && (forall i, j :: 0 <= i < j < |order| ==> order[i] != order[j])
  }

  /**
   * Position `i` holds a least value of the listed keys, and every earlier
   * key has a strictly greater value.
   */
  predicate FirstMinimalAt(order: seq<string>, m: map<string, int>, i: int)
    requires forall j :: 0 <= j < |order| ==> order[j] in m
  {
    && 0 <= i < |order|
    && (forall j :: 0 <= j < |order| ==> m[order[i]] <= m[order[j]])
    && (forall j :: 0 <= j < i ==> m[order[i]] < m[order[j]])
  }

  /**
   * `min(items, key=value)` over keys visited in `order`: the first item is
   * kept until a later one has a strictly smaller value.
   */
  function FirstMinimal(order: seq<string>, m: map<string, int>): (r: string)
    requires order != []
    requires forall j :: 0 <= j < |order| ==> order[j] in m
    ensures exists i :: FirstMinimalAt(order, m, i) && order[i] == r
    decreases |order|
  {
    var n := |order|;
    if n == 1 then
      assert FirstMinimalAt(order, m, 0);
      order[0]
    else
      var prefix := order[..n - 1];
      assert forall j :: 0 <= j < n - 1 ==> prefix[j] == order[j];
      var w := FirstMinimal(prefix, m);
      var i :| FirstMinimalAt(prefix, m, i) && prefix[i] == w;
      if m[order[n - 1]] < m[w] then
        assert FirstMinimalAt(order, m, n - 1);
        order[n - 1]
      else
        assert FirstMinimalAt(order, m, i);
        w
  }

  /**
   * `get_weakest_anchor()`: `None` without resilience entries, else the key
   * of least resilience that comes first in the dict's key order.
   */
  function WeakestAnchor(m: map<string, int>, order: seq<string>): (r: Option<string>)
    requires KeyOrder(m, order)
    ensures r.None? <==> m == map[]
    ensures r.Some? ==> r.value in m && forall k :: k in m ==> m[r.value] <= m[k]
    ensures r.Some? ==> exists i :: FirstMinimalAt(order, m, i) && order[i] == r.value
  {
    if m == map[] then None
    else
      var k :| k in m;
      assert k in order;
      var w := FirstMinimal(order, m);
      FirstMinimalIsLeast(order, m, w);
      Some(w)
  }

  /** The fixed questions asked when there is no weak anchor to ask about. */
  const SeedQuestions := [
    "What is the derivative of x^2?",
    "Can 1 + 1 equal 3?",
    "What is the square root of 16?",
    "Is cosine of 90 degrees equal to 0?",
    "What is the value of pi to 3 decimal places?"]

  const QuestionPrefix := "Is the "
  const QuestionSuffix := " property always valid in math?"

  /**
   * `generate_question()`: a question about the weakest anchor, its
   * underscores read as spaces; with no weakest anchor, or one whose name is
   * empty (and so false in Python), the seed question drawn at `pick`.
   */
  function GenerateQuestion(s: State, order: seq<string>, pick: nat): (r: string)
    requires KeyOrder(s.resilience, order)
    requires pick < |SeedQuestions|
    ensures WeakestAnchor(s.resilience, order).None? ==> r == SeedQuestions[pick]
  {
    var weak := WeakestAnchor(s.resilience, order);
    if weak.Some? && weak.value != "" then QuestionPrefix + Replace(weak.value, '_', ' ') + QuestionSuffix
    else SeedQuestions[pick]
  }

  /** The resilience above which an anchor is promoted, and at or below which it is demoted. */
  const PromoteAbove := 8
  const DemoteAtMost := 1

  /**
   * `evolve_symbolic_truths()`: every anchor with resilience above 8 and no
   * marker yet is marked "promoted"; every anchor with resilience at most 1
   * leaves the discovered set (its resilience entry stays).
   */
  function Evolve(s: State): (r: State)
    ensures r.resilience == s.resilience && r.time == s.time && r.pairCounter == s.pairCounter
    ensures r.cycles == s.cycles && r.discoveryLog == s.discoveryLog && r.memoryDepth == s.memoryDepth
    ensures r.symbolChain == s.symbolChain && r.phaseCurvature == s.phaseCurvature
    ensures r.reflectionDrift == s.reflectionDrift
  {
    var promoted := set a | a in s.resilience && s.resilience[a] > PromoteAbove && a !in s.syntheticAnchors;
    var demoted := set a | a in s.resilience && s.resilience[a] <= DemoteAtMost;
    s.(syntheticAnchors := map a | a in s.syntheticAnchors.Keys + promoted ::
                             if a in s.syntheticAnchors then s.syntheticAnchors[a] else "promoted",
       discovered := s.discovered - demoted)
  }

  // ------------------------------------------------------------------ properties

  /** The first key of least value is a least value over all keys. */
  lemma FirstMinimalIsLeast(order: seq<string>, m: map<string, int>, w: string)
    requires forall k :: k in m ==> k in order
    requires forall j :: 0 <= j < |order| ==> order[j] in m
    requires exists i :: FirstMinimalAt(order, m, i) && order[i] == w
    ensures w in m && forall k :: k in m ==> m[w] <= m[k]
  {
    var i :| FirstMinimalAt(order, m, i) && order[i] == w;
    forall k | k in m ensures m[w] <= m[k] {
      var j :| 0 <= j < |order| && order[j] == k;
    }
  }

  /**
   * Ties on least resilience go to the key inserted first: every key before
   * the weakest anchor in the dict's key order has strictly more resilience.
   */
  lemma WeakestIsFirstInserted(m: map<string, int>, order: seq<string>)
    requires KeyOrder(m, order)
    requires m != map[]
    ensures var w := WeakestAnchor(m, order).value;
      forall i, j :: 0 <= i < j < |order| && order[j] == w ==> m[w] < m[order[i]]
  {
    var w := WeakestAnchor(m, order).value;
    var p :| FirstMinimalAt(order, m, p) && order[p] == w;
    forall i, j | 0 <= i < j < |order| && order[j] == w ensures m[w] < m[order[i]] {
      assert j == p;
    }
  }

  /**
   * Two anchors tied at resilience 1: the one inserted first is the weakest,
   * whichever name is smaller.
   */
  lemma TieGoesToFirstInserted()
    ensures WeakestAnchor(map["a" := 1, "b" := 1], ["b", "a"]) == Some("b")
    ensures WeakestAnchor(map["a" := 1, "b" := 1], ["a", "b"]) == Some("a")
  {
    var m := map["a" := 1, "b" := 1];
    assert "a"[0] != "b"[0];
    assert m.Keys == {"a", "b"};
    assert KeyOrder(m, ["b", "a"]) && KeyOrder(m, ["a", "b"]);
    WeakestIsFirstInserted(m, ["b", "a"]);
    WeakestIsFirstInserted(m, ["a", "b"]);
  }

  /**
   * With a weak anchor whose name is not empty, the question is the fixed
   * frame around the name with every "_" read as " ", so it holds no "_"
   * from the name.
   */
  lemma QuestionEmbedsName(s: State, order: seq<string>, pick: nat)
    requires KeyOrder(s.resilience, order)
    requires pick < |SeedQuestions|
    requires WeakestAnchor(s.resilience, order).Some? && WeakestAnchor(s.resilience, order).value != ""
    ensures var w := WeakestAnchor(s.resilience, order).value; var q := GenerateQuestion(s, order, pick);
      && |q| == |QuestionPrefix| + |w| + |QuestionSuffix|
      && q[..|QuestionPrefix|] == QuestionPrefix
      && q[|q| - |QuestionSuffix|..] == QuestionSuffix
      && q[|QuestionPrefix|..|q| - |QuestionSuffix|] == Replace(w, '_', ' ')
      && '_' !in q[|QuestionPrefix|..|q| - |QuestionSuffix|]
  {
    var w := WeakestAnchor(s.resilience, order).value;
    var q := GenerateQuestion(s, order, pick);
    var name := Replace(w, '_', ' ');
    assert q == QuestionPrefix + name + QuestionSuffix;
    assert q[|QuestionPrefix|..|q| - |QuestionSuffix|] == name;
  }

  /**
   * After evolution every anchor with resilience above 8 carries a marker,
   * markers already present are kept, new markers read "promoted" and go to
   * such anchors only.
   */
  lemma EvolvePromotes(s: State)
    ensures var r := Evolve(s);
      && (forall a :: a in s.resilience && s.resilience[a] > PromoteAbove ==> a in r.syntheticAnchors)
      && (forall a :: a in s.syntheticAnchors ==> a in r.syntheticAnchors && r.syntheticAnchors[a] == s.syntheticAnchors[a])
      && (forall a :: a in r.syntheticAnchors && a !in s.syntheticAnchors ==>
            r.syntheticAnchors[a] == "promoted" && a in s.resilience && s.resilience[a] > PromoteAbove)
  {
  }

  /** An anchor stays discovered exactly when it was and its resilience, if any, is above 1. */
  lemma EvolveDemotes(s: State)
    ensures var r := Evolve(s);
      forall a :: a in r.discovered <==> a in s.discovered && !(a in s.resilience && s.resilience[a] <= DemoteAtMost)
  {
  }

  /** Evolving twice is evolving once. */
  lemma EvolveIdempotent(s: State)
    ensures Evolve(Evolve(s)) == Evolve(s)
  {
    var r := Evolve(s);
    var rr := Evolve(r);
    assert rr.syntheticAnchors == r.syntheticAnchors;
    assert rr.discovered == r.discovered;
  }

  /**
   * Demotion keeps the resilience entry, so it breaks the match between the
   * resilience keys and the discovered set: a state with one discovered
   * anchor of resilience 1 satisfies it before evolution and not after.
   */
  lemma EvolveCanBreakKeysMatch()
    ensures var s := Fresh().(discovered := {"x"}, resilience := map["x" := 1]);
      KeysMatch(s) && !KeysMatch(Evolve(s))
  {
    var s := Fresh().(discovered := {"x"}, resilience := map["x" := 1]);
    assert "x" in Evolve(s).resilience && "x" !in Evolve(s).discovered;
  }

  /** When no anchor is at or below resilience 1, evolution keeps the match between resilience keys and discovered set. */
  lemma EvolveKeepsKeysMatch(s: State)
    requires KeysMatch(s)
    requires forall a :: a in s.resilience ==> s.resilience[a] > DemoteAtMost
    ensures KeysMatch(Evolve(s))
  {
  }
}

=== FILE: simulation.dfy ===
/**
 * One tick of the braid simulation (`simulate_step` in
 * symbolic_braid_simulation.py) and the repetition of ticks.
 *
 * The random draws of a tick are inputs: the ten sampled anchors together with
 * whether each one's predicate held on its random operands (a predicate that
 * raises counts as not holding), and the memory-decay draw in 0..2.
 */
module Simulation {
  import opened Wrappers
  import Strings
  import opened SymbolicState

  /** Candidates sampled per tick. */
  const TrialsPerTick := 10

  /** Tier logged for an anchor missing from the tier table. */
  const DefaultTier := 8

  /** `threshold`, `decay_rate` and `decay_threshold` of `simulate_step`. */
  datatype Params = Params(threshold: int, decayRate: int, decayThreshold: int)

  /** The defaults 10, 3 and 20. */
  const Defaults := Params(10, 3, 20)

  /** One sampled candidate and whether its predicate held. */
  datatype Trial = Trial(anchor: string, satisfied: bool)

  /** The draws of one tick. */
  datatype TickDraw = TickDraw(trials: seq<Trial>, memoryDecay: int)

  predicate WellFormed(d: TickDraw) {
    |d.trials| == TrialsPerTick && 0 <= d.memoryDecay <= 2
  }

  predicate AllWellFormed(draws: seq<TickDraw>) {
    forall i :: 0 <= i < |draws| ==> WellFormed(draws[i])
  }

  /** `anchor_tiers.get(anchor, 8)`. */
  function TierOf(tiers: map<string, int>, a: string): int {
    Get(tiers, a, DefaultTier)
  }

  function IntMax(x: int, y: int): int { if x >= y then x else y }

  function RealMax(x: real, y: real): real { if x >= y then x else y }

  /** The anchors whose predicate held at least once (`recent_hits`). */
  function Hits(trials: seq<Trial>): set<string>
    decreases |trials|
  {
    if trials == [] then {}
    else (if trials[0].satisfied then {trials[0].anchor} else {}) + Hits(trials[1..])
  }

  /** How many trials of `a` succeeded. */
  function HitCount(trials: seq<Trial>, a: string): nat
    decreases |trials|
  {
    if trials == [] then 0
    else (if trials[0].satisfied && trials[0].anchor == a then 1 else 0) + HitCount(trials[1..], a)
  }

  /** `successful`: how many trials succeeded. */
  function Successes(trials: seq<Trial>): nat
    decreases |trials|
  {
    if trials == [] then 0
    else (if trials[0].satisfied then 1 else 0) + Successes(trials[1..])
  }

  lemma {:induction false} HitsAreCounted(trials: seq<Trial>)
    ensures forall a :: a in Hits(trials) <==> HitCount(trials, a) > 0
    decreases |trials|
  {
    if trials != [] {
      HitsAreCounted(trials[1..]);
    }
  }

  /** The pairs of `a` with each of `others`. */
  function PairsWith(a: string, others: seq<string>): set<Pair> {
    set o | o in others :: MakePair(a, o)
  }

  /**
   * The cycle records one success of `a` writes, computed from the counters as
   * they were before the success: one per partner whose counter is one short
   * of the threshold.
   */
  function Reached(counter: map<Pair, int>, a: string, others: seq<string>, threshold: int, time: int): (r: seq<Cycle>)
    ensures forall i :: 0 <= i < |r| ==> r[i].detectedAt == time
    ensures CyclePairs(r) == ReachedPairs(counter, a, others, threshold)
    decreases |others|
  {
    if others == [] then []
    else
      var pr := MakePair(a, others[0]);
      var rest := Reached(counter, a, others[1..], threshold, time);
      var here := if Get(counter, pr, 0) + 1 == threshold then [Cycle(pr, time)] else [];
      assert ReachedPairs(counter, a, others, threshold)
          == (if Get(counter, pr, 0) + 1 == threshold then {pr} else {}) + ReachedPairs(counter, a, others[1..], threshold) by {
        assert forall o :: o in others <==> o == others[0] || o in others[1..];
      }
      assert CyclePairs(here + rest) == CyclePairs(here) + CyclePairs(rest);
      here + rest
  }

  /** The pairs a run of cycle records names. */
  function CyclePairs(cycles: seq<Cycle>): set<Pair> {
    set c | c in cycles :: c.pair
  }

  /** The pairs, among those of `a` with `others`, whose counter is one short of the threshold. */
  function ReachedPairs(counter: map<Pair, int>, a: string, others: seq<string>, threshold: int): set<Pair> {
    set o | o in others && Get(counter, MakePair(a, o), 0) + 1 == threshold :: MakePair(a, o)
  }

  /**
   * The cycle log agrees with the counters: every recorded pair has reached
   * the threshold, and no pair is recorded twice.
   */
  predicate CyclesConsistent(counter: map<Pair, int>, cycles: seq<Cycle>, threshold: int) {
    && (forall i :: 0 <= i < |cycles| ==> cycles[i].pair in counter && counter[cycles[i].pair] >= threshold)
    && (forall i, j :: 0 <= i < j < |cycles| ==> cycles[i].pair != cycles[j].pair)
  }

  /** The pair counters only grow and are never deleted. */
  predicate CountersGrow(before: map<Pair, int>, after: map<Pair, int>) {
    forall pr :: pr in before ==> pr in after && after[pr] >= before[pr]
  }

  /**
   * The inner loop over `discovered_anchors` after a success of `a`: every
   * partner's pair counter goes up by one, and a cycle is recorded when a
   * counter becomes equal to the threshold.
   */
  function CountPairs(counter: map<Pair, int>, cycles: seq<Cycle>, a: string, others: seq<string>,
                      threshold: int, time: int): (map<Pair, int>, seq<Cycle>)
    decreases |others|
  {
    if others == [] then (counter, cycles)
    else
      var pr := MakePair(a, others[0]);
      var n := Get(counter, pr, 0) + 1;
      CountPairs(counter[pr := n], if n == threshold then cycles + [Cycle(pr, time)] else cycles,
                 a, others[1..], threshold, time)
  }

  /** The loop adds a counter for each pair of `a` with a partner and deletes none. */
  lemma {:induction false} CountPairsKeys(counter: map<Pair, int>, cycles: seq<Cycle>, a: string, others: seq<string>,
                                          threshold: int, time: int)
    ensures CountPairs(counter, cycles, a, others, threshold, time).0.Keys == counter.Keys + PairsWith(a, others)
    decreases |others|
  {
    if others != [] {
      var pr := MakePair(a, others[0]);
      var n := Get(counter, pr, 0) + 1;
      var cycles' := if n == threshold then cycles + [Cycle(pr, time)] else cycles;
      CountPairsKeys(counter[pr := n], cycles', a, others[1..], threshold, time);
      assert PairsWith(a, others) == {pr} + PairsWith(a, others[1..]) by {
        assert forall o :: o in others <==> o == others[0] || o in others[1..];
      }
    }
  }

  /**
   * Over distinct partners, the loop adds exactly one to the counter of each
   * pair of `a` and leaves every other counter alone.
   */
  lemma {:induction false} CountPairsValues(counter: map<Pair, int>, cycles: seq<Cycle>, a: string, others: seq<string>,
                                            threshold: int, time: int)
    requires a !in others && Strings.Distinct(others)
    ensures var r := CountPairs(counter, cycles, a, others, threshold, time).0;
      && (forall o :: o in others ==> MakePair(a, o) in r && r[MakePair(a, o)] == Get(counter, MakePair(a, o), 0) + 1)
      && (forall pr :: pr in counter && pr !in PairsWith(a, others) ==> pr in r && r[pr] == counter[pr])
    decreases |others|
  {
    if others != [] {
      var pr := MakePair(a, others[0]);
      var n := Get(counter, pr, 0) + 1;
      var cycles' := if n == threshold then cycles + [Cycle(pr, time)] else cycles;
      PartnersGiveOtherPairs(a, others);
      CountPairsValues(counter[pr := n], cycles', a, others[1..], threshold, time);
      CountPairsKeys(counter[pr := n], cycles', a, others[1..], threshold, time);
      assert forall o :: o in others <==> o == others[0] || o in others[1..];
    }
  }

  /**
   * Over distinct partners, the loop records exactly the cycles `Reached`
   * computes from the counters as they were before it.
   */
  lemma {:induction false} CountPairsCycles(counter: map<Pair, int>, cycles: seq<Cycle>, a: string, others: seq<string>,
                                            threshold: int, time: int)
    requires a !in others && Strings.Distinct(others)
    ensures CountPairs(counter, cycles, a, others, threshold, time).1 == cycles + Reached(counter, a, others, threshold, time)
    decreases |others|
  {
    if others != [] {
      var pr := MakePair(a, others[0]);
      var n := Get(counter, pr, 0) + 1;
      var cycles' := if n == threshold then cycles + [Cycle(pr, time)] else cycles;
      PartnersGiveOtherPairs(a, others);
      ReachedIgnoresOtherPairs(counter, pr, n, a, others[1..], threshold, time);
      CountPairsCycles(counter[pr := n], cycles', a, others[1..], threshold, time);
    }
  }

  /** The pairs of `a` with distinct partners other than `a` are distinct. */
  lemma PartnersGiveOtherPairs(a: string, others: seq<string>)
    requires |others| > 0 && a !in others && Strings.Distinct(others)
    ensures forall o :: o in others[1..] ==> MakePair(a, o) != MakePair(a, others[0])
  {
    forall o | o in others[1..] ensures MakePair(a, o) != MakePair(a, others[0]) {
      if MakePair(a, o) == MakePair(a, others[0]) {
        MakePairInjective(a, o, others[0]);
      }
    }
  }

  /** Which cycles a success records depends only on the counters of its own pairs. */
  lemma {:induction false} ReachedIgnoresOtherPairs(counter: map<Pair, int>, pr: Pair, n: int, a: string,
                                                    others: seq<string>, threshold: int, time: int)
    requires forall o :: o in others ==> MakePair(a, o) != pr
    ensures Reached(counter[pr := n], a, others, threshold, time) == Reached(counter, a, others, threshold, time)
    decreases |others|
  {
    if others != [] {
      ReachedIgnoresOtherPairs(counter, pr, n, a, others[1..], threshold, time);
    }
  }

  /**
   * One trial of the inner loop of `simulate_step` (lines 73-103): a failed
   * trial changes nothing; a success raises the anchor's resilience by one
   * (from 0 when absent) and discovers it; the clock, the memory depth and
   * the symbol chain are untouched.
   */
  function Reinforce(s: State, t: Trial, tiers: map<string, int>, p: Params): (r: State)
    ensures !t.satisfied ==> r == s
    ensures t.satisfied ==> t.anchor in r.resilience && r.resilience[t.anchor] == Get(s.resilience, t.anchor, 0) + 1
    ensures t.satisfied ==> r.discovered == s.discovered + {t.anchor}
    ensures r.time == s.time && r.memoryDepth == s.memoryDepth && r.symbolChain == s.symbolChain
  {
    if !t.satisfied then s
    else
      var a := t.anchor;
      var discovered := s.discovered + {a};
      var others := Strings.Sorted(discovered - {a});
      var counted := CountPairs(s.pairCounter, s.cycles, a, others, p.threshold, s.time);
      s.(resilience := s.resilience[a := Get(s.resilience, a, 0) + 1],
         phaseCurvature := s.phaseCurvature[a := RealMax(0.0, Get(s.phaseCurvature, a, 0.0) - 0.5)],
         discovered := discovered,
         discoveryLog := if a in s.discovered then s.discoveryLog
                         else s.discoveryLog + [LogEntry(s.time, a, Some(TierOf(tiers, a)), None)],
         pairCounter := counted.0,
         cycles := counted.1)
  }

  /** The ten trials of a tick, in order. */
  function RunTrials(s: State, trials: seq<Trial>, tiers: map<string, int>, p: Params): (r: State)
    ensures r.time == s.time && r.memoryDepth == s.memoryDepth && r.symbolChain == s.symbolChain
    ensures r.syntheticAnchors == s.syntheticAnchors && r.reflectionDrift == s.reflectionDrift
    decreases |trials|
  {
    if trials == [] then s
    else RunTrials(Reinforce(s, trials[0], tiers, p), trials[1..], tiers, p)
  }

  /** The anchors the decay pass of a tick removes. */
  function Evicted(resilience: map<string, int>, hits: set<string>, p: Params): set<string> {
    set a | a in resilience && a !in hits && resilience[a] - p.decayRate < p.decayThreshold
  }

  /** `(anchor, anchor)` for each name, the eviction records of `symbol_chain`. */
  function SelfLinks(xs: seq<string>): seq<(string, string)> {
    seq(|xs|, i requires 0 <= i < |xs| => (xs[i], xs[i]))
  }

  /**
   * The decay pass of a tick (lines 105-110): exactly the evicted anchors
   * leave both the resilience map and the discovered set; the clock and the
   * memory depth are untouched.
   */
  function Decay(s: State, hits: set<string>, p: Params): (r: State)
    ensures r.resilience.Keys == s.resilience.Keys - Evicted(s.resilience, hits, p)
    ensures r.discovered == s.discovered - Evicted(s.resilience, hits, p)
    ensures r.time == s.time && r.memoryDepth == s.memoryDepth
  {
    var gone := Evicted(s.resilience, hits, p);
    s.(resilience := map a | a in s.resilience && a !in gone ::
                       if a in hits then s.resilience[a] else s.resilience[a] - p.decayRate,
       discovered := s.discovered - gone,
       symbolChain := s.symbolChain + SelfLinks(Strings.Sorted(gone)))
  }

  /** The memory depth a tick appends (lines 112-116). */
  function NextDepth(depth: seq<int>, successes: nat, decay: int): int {
    var previous := if depth == [] then 0 else depth[|depth| - 1];
    if successes > 0 then previous + successes else IntMax(0, previous - decay)
  }

  /** One iteration of the outer loop of `simulate_step`. */
  function Tick(s: State, tiers: map<string, int>, d: TickDraw, p: Params): (r: State)
    requires WellFormed(d)
    ensures r.time == s.time + 1
    ensures |r.memoryDepth| == |s.memoryDepth| + 1 && r.memoryDepth[..|s.memoryDepth|] == s.memoryDepth
  {
    var afterTrials := RunTrials(s, d.trials, tiers, p);
    var decayed := Decay(afterTrials, Hits(d.trials), p);
    var depth := NextDepth(decayed.memoryDepth, Successes(d.trials), d.memoryDecay);
    decayed.(memoryDepth := decayed.memoryDepth + [depth], time := decayed.time + 1)
  }

  /** `simulate_step(state, scaffold, tiers, steps=|draws|, ...)`. */
  function SimulateStep(s: State, tiers: map<string, int>, draws: seq<TickDraw>, p: Params): (r: State)
    requires AllWellFormed(draws)
    ensures r.time == s.time + |draws|
    ensures |r.memoryDepth| == |s.memoryDepth| + |draws| && r.memoryDepth[..|s.memoryDepth|] == s.memoryDepth
    decreases |draws|
  {
    if draws == [] then s
    else SimulateStep(Tick(s, tiers, draws[0], p), tiers, draws[1..], p)
  }
}

=== FILE: simulation_props.dfy ===
/**
 * What one tick and a run of ticks of `simulate_step` guarantee: the clock and
 * the memory-depth series, the resilience/discovered invariant, reinforcement
 * of hit anchors, the one-shot discovery log, the pair counters and their
 * one-shot cycle records, decay and eviction, and the phase curvature.
 */
module SimulationProperties {
  import opened Wrappers
  import Strings
  import opened SymbolicState
  import opened Simulation

  /** The names of a run of log entries. */
  function LoggedAnchors(entries: seq<LogEntry>): set<string> {
    set e | e in entries :: e.anchor
  }

  /** No anchor is logged twice. */
  predicate DistinctAnchors(entries: seq<LogEntry>) {
    forall i, j :: 0 <= i < j < |entries| ==> entries[i].anchor != entries[j].anchor
  }

  /** Every phase curvature is non-negative. */
  predicate CurvatureNonNegative(s: State) {
    forall a :: a in s.phaseCurvature ==> s.phaseCurvature[a] >= 0.0
  }

  /** Every memory depth is non-negative. */
  predicate DepthNonNegative(s: State) {
    forall i :: 0 <= i < |s.memoryDepth| ==> s.memoryDepth[i] >= 0
  }

  // ---------------------------------------------------------------- the trials

  /** A success records cycles only for pairs reaching the threshold, so the cycle log stays consistent. */
  lemma {:induction false} CountPairsKeepsConsistent(counter: map<Pair, int>, cycles: seq<Cycle>, a: string,
                                                     others: seq<string>, threshold: int, time: int)
    requires CyclesConsistent(counter, cycles, threshold)
    ensures var r := CountPairs(counter, cycles, a, others, threshold, time);
      CyclesConsistent(r.0, r.1, threshold)
    decreases |others|
  {
    if others != [] {
      var pr := MakePair(a, others[0]);
      var n := Get(counter, pr, 0) + 1;
      var cycles' := if n == threshold then cycles + [Cycle(pr, time)] else cycles;
      assert CyclesConsistent(counter[pr := n], cycles', threshold);
      CountPairsKeepsConsistent(counter[pr := n], cycles', a, others[1..], threshold, time);
    }
  }

  /** The partners a success of `a` visits: the other discovered anchors. */
  lemma PartnersOf(s: State, a: string)
    ensures var others := Strings.Sorted((s.discovered + {a}) - {a});
      a !in others && Strings.Distinct(others) && (forall o :: o in others <==> o in s.discovered && o != a)
  {
    Strings.SortedLists((s.discovered + {a}) - {a});
  }

  /** One success of `a` increments the counter of `a` with every other discovered anchor and no other counter. */
  lemma ReinforceCounters(s: State, t: Trial, tiers: map<string, int>, p: Params)
    requires t.satisfied
    ensures var r := Reinforce(s, t, tiers, p);
      && (forall o :: o in s.discovered && o != t.anchor ==>
            MakePair(t.anchor, o) in r.pairCounter
            && r.pairCounter[MakePair(t.anchor, o)] == Get(s.pairCounter, MakePair(t.anchor, o), 0) + 1)
      && (forall pr :: pr in s.pairCounter && t.anchor !in pr ==>
            pr in r.pairCounter && r.pairCounter[pr] == s.pairCounter[pr])
  {
    var a := t.anchor;
    var others := Strings.Sorted((s.discovered + {a}) - {a});
    PartnersOf(s, a);
    CountPairsValues(s.pairCounter, s.cycles, a, others, p.threshold, s.time);
    assert forall o :: a in MakePair(a, o);
  }

  /**
   * One success of `a` appends, stamped with the tick's time, one cycle record
   * for each other discovered anchor whose counter with `a` thereby becomes
   * equal to the threshold, and no other record.
   */
  lemma ReinforceCycles(s: State, t: Trial, tiers: map<string, int>, p: Params)
    requires t.satisfied
    ensures var r := Reinforce(s, t, tiers, p);
      && |s.cycles| <= |r.cycles| && r.cycles[..|s.cycles|] == s.cycles
      && (forall i :: |s.cycles| <= i < |r.cycles| ==> r.cycles[i].detectedAt == s.time)
      && CyclePairs(r.cycles[|s.cycles|..])
         == (set o | o in s.discovered && o != t.anchor
                       && Get(s.pairCounter, MakePair(t.anchor, o), 0) + 1 == p.threshold :: MakePair(t.anchor, o))
  {
    var a := t.anchor;
    var others := Strings.Sorted((s.discovered + {a}) - {a});
    PartnersOf(s, a);
    CountPairsCycles(s.pairCounter, s.cycles, a, others, p.threshold, s.time);
    var added := Reached(s.pairCounter, a, others, p.threshold, s.time);
    assert Reinforce(s, t, tiers, p).cycles == s.cycles + added;
    assert (s.cycles + added)[|s.cycles|..] == added;
    assert ReachedPairs(s.pairCounter, a, others, p.threshold)
        == (set o | o in s.discovered && o != a
                      && Get(s.pairCounter, MakePair(a, o), 0) + 1 == p.threshold :: MakePair(a, o));
  }

  /** One trial: what it does to the discovered set and the resilience map. */
  lemma ReinforceResilience(s: State, t: Trial, tiers: map<string, int>, p: Params)
    ensures var r := Reinforce(s, t, tiers, p);
      && r.discovered == s.discovered + (if t.satisfied then {t.anchor} else {})
      && r.resilience.Keys == s.resilience.Keys + (if t.satisfied then {t.anchor} else {})
  {
  }

  lemma {:induction false} TrialsDiscovered(s: State, trials: seq<Trial>, tiers: map<string, int>, p: Params)
    ensures var r := RunTrials(s, trials, tiers, p);
      && r.discovered == s.discovered + Hits(trials)
      && r.resilience.Keys == s.resilience.Keys + Hits(trials)
    decreases |trials|
  {
    if trials != [] {
      ReinforceResilience(s, trials[0], tiers, p);
      TrialsDiscovered(Reinforce(s, trials[0], tiers, p), trials[1..], tiers, p);
    }
  }

  lemma {:induction false} TrialsResilienceAt(s: State, trials: seq<Trial>, tiers: map<string, int>, p: Params, a: string)
    ensures Get(RunTrials(s, trials, tiers, p).resilience, a, 0) == Get(s.resilience, a, 0) + HitCount(trials, a)
    decreases |trials|
  {
    if trials != [] {
      TrialsResilienceAt(Reinforce(s, trials[0], tiers, p), trials[1..], tiers, p, a);
    }
  }

  /** The trials add the hit anchors to both the discovered set and the resilience map, `k` for `k` hits. */
  lemma TrialsResilience(s: State, trials: seq<Trial>, tiers: map<string, int>, p: Params)
    ensures var r := RunTrials(s, trials, tiers, p);
      && r.discovered == s.discovered + Hits(trials)
      && r.resilience.Keys == s.resilience.Keys + Hits(trials)
      && (forall a :: Get(r.resilience, a, 0) == Get(s.resilience, a, 0) + HitCount(trials, a))
  {
    TrialsDiscovered(s, trials, tiers, p);
    forall a ensures Get(RunTrials(s, trials, tiers, p).resilience, a, 0) == Get(s.resilience, a, 0) + HitCount(trials, a) {
      TrialsResilienceAt(s, trials, tiers, p, a);
    }
  }

  /** The trials only add to the pair counters. */
  lemma {:induction false} TrialsCountersGrow(s: State, trials: seq<Trial>, tiers: map<string, int>, p: Params)
    ensures CountersGrow(s.pairCounter, RunTrials(s, trials, tiers, p).pairCounter)
    decreases |trials|
  {
    if trials != [] {
      var s1 := Reinforce(s, trials[0], tiers, p);
      if trials[0].satisfied {
        var a := trials[0].anchor;
        var others := Strings.Sorted((s.discovered + {a}) - {a});
        PartnersOf(s, a);
        CountPairsKeys(s.pairCounter, s.cycles, a, others, p.threshold, s.time);
        CountPairsValues(s.pairCounter, s.cycles, a, others, p.threshold, s.time);
        assert CountersGrow(s.pairCounter, s1.pairCounter);
      }
      TrialsCountersGrow(s1, trials[1..], tiers, p);
    }
  }

  /** The trials append cycle records, all stamped with the tick's time. */
  lemma {:induction false} TrialsCyclesAppended(s: State, trials: seq<Trial>, tiers: map<string, int>, p: Params)
    ensures var r := RunTrials(s, trials, tiers, p);
      && |s.cycles| <= |r.cycles| && r.cycles[..|s.cycles|] == s.cycles
      && (forall i :: |s.cycles| <= i < |r.cycles| ==> r.cycles[i].detectedAt == s.time)
    decreases |trials|
  {
    if trials != [] {
      var s1 := Reinforce(s, trials[0], tiers, p);
      if trials[0].satisfied {
        ReinforceCycles(s, trials[0], tiers, p);
      }
      TrialsCyclesAppended(s1, trials[1..], tiers, p);
      var r := RunTrials(s, trials, tiers, p);
      assert r.cycles[..|s.cycles|] == s1.cycles[..|s.cycles|];
    }
  }

  /** The trials keep the cycle log consistent with the counters. */
  lemma {:induction false} TrialsCyclesConsistent(s: State, trials: seq<Trial>, tiers: map<string, int>, p: Params)
    requires CyclesConsistent(s.pairCounter, s.cycles, p.threshold)
    ensures var r := RunTrials(s, trials, tiers, p);
      CyclesConsistent(r.pairCounter, r.cycles, p.threshold)
    decreases |trials|
  {
    if trials != [] {
      var s1 := Reinforce(s, trials[0], tiers, p);
      if trials[0].satisfied {
        var a := trials[0].anchor;
        CountPairsKeepsConsistent(s.pairCounter, s.cycles, a, Strings.Sorted((s.discovered + {a}) - {a}), p.threshold, s.time);
      }
      TrialsCyclesConsistent(s1, trials[1..], tiers, p);
    }
  }

  /** The trials only append to the discovery log, entries stamped with the tick's time and the anchor's tier. */
  lemma {:induction false} TrialsLogShape(s: State, trials: seq<Trial>, tiers: map<string, int>, p: Params)
    ensures var r := RunTrials(s, trials, tiers, p);
      && |s.discoveryLog| <= |r.discoveryLog| && r.discoveryLog[..|s.discoveryLog|] == s.discoveryLog
      && (forall e :: e in r.discoveryLog[|s.discoveryLog|..] ==>
            e.time == s.time && e.tier == Some(TierOf(tiers, e.anchor)) && e.expression == None
            && e.anchor !in s.discovered)
    decreases |trials|
  {
    if trials != [] {
      var s1 := Reinforce(s, trials[0], tiers, p);
      ReinforceLog(s, trials[0], tiers, p);
      TrialsLogShape(s1, trials[1..], tiers, p);
      var r := RunTrials(s, trials, tiers, p);
      assert r == RunTrials(s1, trials[1..], tiers, p);
      TickEntriesCompose(s.discoveryLog, s1.discoveryLog, r.discoveryLog, s.time, tiers, s.discovered, s1.discovered);
    }
  }

  /** Two runs of appended tick entries make one, the second run's anchors unknown to a larger set. */
  lemma TickEntriesCompose(l0: seq<LogEntry>, l1: seq<LogEntry>, l2: seq<LogEntry>, time: int, tiers: map<string, int>,
                           k0: set<string>, k1: set<string>)
    requires |l0| <= |l1| <= |l2| && l1[..|l0|] == l0 && l2[..|l1|] == l1 && k0 <= k1
    requires forall e :: e in l1[|l0|..] ==>
      e.time == time && e.tier == Some(TierOf(tiers, e.anchor)) && e.expression == None && e.anchor !in k0
    requires forall e :: e in l2[|l1|..] ==>
      e.time == time && e.tier == Some(TierOf(tiers, e.anchor)) && e.expression == None && e.anchor !in k1
    ensures l2[..|l0|] == l0
    ensures forall e :: e in l2[|l0|..] ==>
      e.time == time && e.tier == Some(TierOf(tiers, e.anchor)) && e.expression == None && e.anchor !in k0
  {
    assert l2[..|l1|][..|l0|] == l2[..|l0|];
    assert l2[|l0|..] == l1[|l0|..] + l2[|l1|..];
  }

  /** One trial logs its anchor, stamped with the tick's time and its tier, exactly when it discovers it. */
  lemma ReinforceLog(s: State, t: Trial, tiers: map<string, int>, p: Params)
    ensures var r := Reinforce(s, t, tiers, p);
      && r.discovered == s.discovered + (if t.satisfied then {t.anchor} else {})
      && r.discoveryLog == (if t.satisfied && t.anchor !in s.discovered
                            then s.discoveryLog + [LogEntry(s.time, t.anchor, Some(TierOf(tiers, t.anchor)), None)]
                            else s.discoveryLog)
      && r.time == s.time
  {
  }

  /** Prepending an entry whose anchor is known to a log of unknown anchors keeps it duplicate-free. */
  lemma LogCons(e: LogEntry, rest: seq<LogEntry>, known: set<string>)
    requires e.anchor in known
    requires DistinctAnchors(rest) && forall x :: x in rest ==> x.anchor !in known
    ensures DistinctAnchors([e] + rest)
    ensures LoggedAnchors([e] + rest) == {e.anchor} + LoggedAnchors(rest)
  {
    var l := [e] + rest;
    forall i, j | 0 <= i < j < |l| ensures l[i].anchor != l[j].anchor {
      if i == 0 {
        assert l[j] == rest[j - 1];
      } else {
        assert l[i] == rest[i - 1] && l[j] == rest[j - 1];
      }
    }
  }

  /** The new hits of the trials are the first trial's new hit and the later trials' hits not known after it. */
  lemma NewHitsStep(trials: seq<Trial>, known: set<string>, known1: set<string>)
    requires trials != []
    requires known1 == known + (if trials[0].satisfied then {trials[0].anchor} else {})
    ensures Hits(trials) - known
         == (if trials[0].satisfied && trials[0].anchor !in known then {trials[0].anchor} else {}) + (Hits(trials[1..]) - known1)
  {
  }

  /** The trials log each newly discovered anchor exactly once: the logged anchors are the hits not discovered before. */
  lemma {:induction false} TrialsLogAnchors(s: State, trials: seq<Trial>, tiers: map<string, int>, p: Params)
    ensures var r := RunTrials(s, trials, tiers, p);
      && |s.discoveryLog| <= |r.discoveryLog|
      && DistinctAnchors(r.discoveryLog[|s.discoveryLog|..])
      && LoggedAnchors(r.discoveryLog[|s.discoveryLog|..]) == Hits(trials) - s.discovered
    decreases |trials|
  {
    if trials != [] {
      var t := trials[0];
      var s1 := Reinforce(s, t, tiers, p);
      ReinforceLog(s, t, tiers, p);
      TrialsLogAnchors(s1, trials[1..], tiers, p);
      TrialsLogShape(s1, trials[1..], tiers, p);
      var r := RunTrials(s1, trials[1..], tiers, p);
      assert r == RunTrials(s, trials, tiers, p);
      var rest := r.discoveryLog[|s1.discoveryLog|..];
      NewHitsStep(trials, s.discovered, s1.discovered);
      if t.satisfied && t.anchor !in s.discovered {
        var e := LogEntry(s.time, t.anchor, Some(TierOf(tiers, t.anchor)), None);
        assert r.discoveryLog[|s.discoveryLog|..] == [e] + rest;
        LogCons(e, rest, s1.discovered);
      } else {
        assert s1.discoveryLog == s.discoveryLog && s1.discovered == s.discovered;
      }
    }
  }

  /** The trials keep the curvature non-negative, never raise it, and start hit anchors at zero. */
  lemma {:induction false} TrialsCurvature(s: State, trials: seq<Trial>, tiers: map<string, int>, p: Params)
    requires CurvatureNonNegative(s)
    ensures var r := RunTrials(s, trials, tiers, p);
      && CurvatureNonNegative(r)
      && r.phaseCurvature.Keys == s.phaseCurvature.Keys + Hits(trials)
      && (forall a :: a in s.phaseCurvature ==> r.phaseCurvature[a] <= s.phaseCurvature[a])
      && (forall a :: a in r.phaseCurvature && a !in s.phaseCurvature ==> r.phaseCurvature[a] == 0.0)
    decreases |trials|
  {
    if trials != [] {
      var s1 := Reinforce(s, trials[0], tiers, p);
      assert s1.phaseCurvature.Keys == s.phaseCurvature.Keys + (if trials[0].satisfied then {trials[0].anchor} else {});
      TrialsCurvature(s1, trials[1..], tiers, p);
    }
  }

  /** One trial moves a hit anchor's curvature down by 0.5, floored at 0, and never raises any curvature. */
  lemma ReinforceCurvature(s: State, t: Trial, tiers: map<string, int>, p: Params)
    requires CurvatureNonNegative(s)
    ensures var r := Reinforce(s, t, tiers, p);
      && CurvatureNonNegative(r)
      && (forall a :: a in s.phaseCurvature ==> a in r.phaseCurvature && r.phaseCurvature[a] <= s.phaseCurvature[a])
      && (t.satisfied ==> t.anchor in r.phaseCurvature
                          && r.phaseCurvature[t.anchor] == RealMax(0.0, Get(s.phaseCurvature, t.anchor, 0.0) - 0.5))
  {
  }

  /**
   * An anchor that already had a curvature `c` and is hit by the trials ends
   * at most at `max(0, c - 0.5)`: each hit lowers it by 0.5, floored at 0.
   */
  lemma {:induction false} TrialsCurvatureOfHits(s: State, trials: seq<Trial>, tiers: map<string, int>, p: Params)
    requires CurvatureNonNegative(s)
    ensures var r := RunTrials(s, trials, tiers, p);
      forall a :: a in Hits(trials) && a in s.phaseCurvature ==>
        a in r.phaseCurvature && r.phaseCurvature[a] <= RealMax(0.0, s.phaseCurvature[a] - 0.5)
    decreases |trials|
  {
    if trials != [] {
      var t := trials[0];
      var s1 := Reinforce(s, t, tiers, p);
      ReinforceCurvature(s, t, tiers, p);
      TrialsCurvature(s1, trials[1..], tiers, p);
      TrialsCurvatureOfHits(s1, trials[1..], tiers, p);
      var r := RunTrials(s1, trials[1..], tiers, p);
      assert r == RunTrials(s, trials, tiers, p);
      forall a | a in Hits(trials) && a in s.phaseCurvature
        ensures a in r.phaseCurvature && r.phaseCurvature[a] <= RealMax(0.0, s.phaseCurvature[a] - 0.5)
      {
        if !(t.satisfied && a == t.anchor) {
          assert a in Hits(trials[1..]);
        }
      }
    }
  }
}

=== FILE: state.dfy ===
/**
 * The symbolic state record of symbolic_braid_simulation.py, a fresh state,
 * and its conversion to and from the dictionary snapshot that is persisted.
 */
module SymbolicState {
  import opened Wrappers
  import Strings

  /**
   * A co-occurring pair of anchors. Python keys the counter by
   * `tuple(sorted((a, b)))`; the model uses the two-element set, which is
   * canonical in the same way.
   */
  type Pair = set<string>

  function MakePair(a: string, b: string): Pair {
    {a, b}
  }

  /** Distinct partners of one anchor give distinct pairs. */
  lemma MakePairInjective(a: string, x: string, y: string)
    requires x != a && y != a && MakePair(a, x) == MakePair(a, y)
    ensures x == y
  {
    assert x in MakePair(a, y);
  }

  /** `{'pair': pair, 'cycle_detected_at': time}`. */
  datatype Cycle = Cycle(pair: Pair, detectedAt: int)

  /**
   * A discovery-log entry. The tick writes `{time, anchor, tier}`, environment
   * observation writes `{time, anchor}`; `expression` is read by the emergence
   * ranker but written by neither.
   */
  datatype LogEntry = LogEntry(time: int, anchor: string, tier: Option<int>, expression: Option<string>)

  datatype State = State(
    time: int,
    discovered: set<string>,
    resilience: map<string, int>,
    pairCounter: map<Pair, int>,
    cycles: seq<Cycle>,
    discoveryLog: seq<LogEntry>,
    memoryDepth: seq<int>,
    phaseCurvature: map<string, real>,
    syntheticAnchors: map<string, string>,
    symbolChain: seq<(string, string)>,
    reflectionDrift: int)

  /** `SymbolicState()`: time 0 and every collection empty, so the key invariant holds. */
  function Fresh(): (r: State)
    ensures r.time == 0 && r.reflectionDrift == 0
    ensures |r.discovered| == 0 && |r.resilience| == 0 && |r.pairCounter| == 0 && |r.phaseCurvature| == 0
    ensures |r.cycles| == 0 && |r.discoveryLog| == 0 && |r.memoryDepth| == 0 && |r.symbolChain| == 0
    ensures KeysMatch(r)
  {
    State(0, {}, map[], map[], [], [], [], map[], map[], [], 0)
  }

  /** The key invariant: the resilience keys are exactly the discovered anchors. */
  predicate KeysMatch(s: State) {
    s.resilience.Keys == s.discovered
  }

  /**
   * The dictionary of `to_dict`, each key possibly missing when it is read
   * back; `discovered_anchors` is stored as a list.
   */
  datatype Snapshot = Snapshot(
    time: Option<int>,
    discovered: Option<seq<string>>,
    resilience: Option<map<string, int>>,
    pairCounter: Option<map<Pair, int>>,
    cycles: Option<seq<Cycle>>,
    discoveryLog: Option<seq<LogEntry>>,
    memoryDepth: Option<seq<int>>,
    phaseCurvature: Option<map<string, real>>,
    syntheticAnchors: Option<map<string, string>>,
    symbolChain: Option<seq<(string, string)>>,
    reflectionDrift: Option<int>)

  /** The empty dictionary `{}`. */
  const EmptySnapshot := Snapshot(None, None, None, None, None, None, None, None, None, None, None)

  /** `to_dict`: every key present, the discovered set listed once per element. */
  function ToDict(s: State): (d: Snapshot)
    ensures d.discovered.Some? && Strings.Distinct(d.discovered.value)
    ensures d.discovered.Some? && |d.discovered.value| == |s.discovered|
    ensures forall a :: a in d.discovered.value <==> a in s.discovered
  {
    Strings.SortedLists(s.discovered);
    Snapshot(Some(s.time), Some(Strings.Sorted(s.discovered)), Some(s.resilience),
             Some(s.pairCounter), Some(s.cycles), Some(s.discoveryLog),
             Some(s.memoryDepth), Some(s.phaseCurvature), Some(s.syntheticAnchors),
             Some(s.symbolChain), Some(s.reflectionDrift))
  }

  /**
   * `from_dict`: the discovered set holds exactly the listed names, and each
   * missing key falls back to the fresh state's value.
   */
  function FromDict(d: Snapshot): (r: State)
    ensures forall a :: a in r.discovered <==> a in d.discovered.GetOr([])
    ensures d.discovered.None? ==> r.discovered == Fresh().discovered
    ensures d.time.None? ==> r.time == Fresh().time
    ensures d.resilience.None? ==> r.resilience == Fresh().resilience
    ensures d.pairCounter.None? ==> r.pairCounter == Fresh().pairCounter
    ensures d.cycles.None? ==> r.cycles == Fresh().cycles
    ensures d.discoveryLog.None? ==> r.discoveryLog == Fresh().discoveryLog
    ensures d.memoryDepth.None? ==> r.memoryDepth == Fresh().memoryDepth
    ensures d.phaseCurvature.None? ==> r.phaseCurvature == Fresh().phaseCurvature
    ensures d.syntheticAnchors.None? ==> r.syntheticAnchors == Fresh().syntheticAnchors
    ensures d.symbolChain.None? ==> r.symbolChain == Fresh().symbolChain
    ensures d.reflectionDrift.None? ==> r.reflectionDrift == Fresh().reflectionDrift
  {
    var names := d.discovered.GetOr([]);
    State(
      d.time.GetOr(0),
      set i | 0 <= i < |names| :: names[i],
      d.resilience.GetOr(map[]),
      d.pairCounter.GetOr(map[]),
      d.cycles.GetOr([]),
      d.discoveryLog.GetOr([]),
      d.memoryDepth.GetOr([]),
      d.phaseCurvature.GetOr(map[]),
      d.syntheticAnchors.GetOr(map[]),
      d.symbolChain.GetOr([]),
      d.reflectionDrift.GetOr(0))
  }

  /** Reading back an empty dictionary gives a fresh state. */
  lemma FromEmptyDictIsFresh()
    ensures FromDict(EmptySnapshot) == Fresh()
  {
  }

  /** `from_dict(to_dict(s))` reproduces every field of `s`. */
  lemma DictRoundTrip(s: State)
    ensures FromDict(ToDict(s)) == s
  {
    var names := Strings.Sorted(s.discovered);
    Strings.SortedLists(s.discovered);
    assert (set i | 0 <= i < |names| :: names[i]) == s.discovered by {
      forall a | a in s.discovered ensures a in (set i | 0 <= i < |names| :: names[i]) {
        var i :| 0 <= i < |names| && names[i] == a;
      }
    }
  }

  /** A fresh state satisfies the key invariant. */
  lemma FreshKeysMatch()
    ensures KeysMatch(Fresh())
  {
  }
}

=== FILE: strings.dfy ===
/**
 * String helpers shared by the model: Python's ordering of `str` values, the
 * sorted listing of a set of names (the order in which the model visits a set
 * or the keys of a dict), substring and character tests, and `str.replace` on
 * single characters.
 */
module Strings {

  /** Python's `a <= b` on `str`: lexicographic by code point. */
  predicate LessEq(a: string, b: string)
    decreases |a|
  {
    |a| == 0 || (|b| > 0 && (a[0] < b[0] || (a[0] == b[0] && LessEq(a[1..], b[1..]))))
  }

  lemma LessEqReflexive(a: string)
    ensures LessEq(a, a)
    decreases |a|
  {
    if |a| > 0 {
      LessEqReflexive(a[1..]);
    }
  }

  lemma LessEqTotal(a: string, b: string)
    ensures LessEq(a, b) || LessEq(b, a)
    decreases |a|
  {
    if |a| > 0 && |b| > 0 && a[0] == b[0] {
      LessEqTotal(a[1..], b[1..]);
    }
  }

  lemma LessEqAntisymmetric(a: string, b: string)
    requires LessEq(a, b) && LessEq(b, a)
    ensures a == b
    decreases |a|
  {
    if |a| > 0 {
      LessEqAntisymmetric(a[1..], b[1..]);
      assert a == [a[0]] + a[1..];
      assert b == [b[0]] + b[1..];
    }
  }

  lemma LessEqTransitive(a: string, b: string, c: string)
    requires LessEq(a, b) && LessEq(b, c)
    ensures LessEq(a, c)
    decreases |a|
  {
    if |a| > 0 && a[0] == b[0] && b[0] == c[0] {
      LessEqTransitive(a[1..], b[1..], c[1..]);
    }
  }

  /** `m` is the smallest element of `s`. */
  predicate IsLeast(m: string, s: set<string>) {
    m in s && forall x :: x in s ==> LessEq(m, x)
  }

  lemma LeastExists(s: set<string>)
    requires s != {}
    ensures exists m :: IsLeast(m, s)
    decreases |s|
  {
    var x :| x in s;
    if s == {x} {
      LessEqReflexive(x);
      assert IsLeast(x, s);
    } else {
      LeastExists(s - {x});
      var m :| IsLeast(m, s - {x});
      LessEqTotal(x, m);
      if LessEq(x, m) {
        LessEqReflexive(x);
        forall y | y in s ensures LessEq(x, y) {
          if y != x {
            LessEqTransitive(x, m, y);
          }
        }
        assert IsLeast(x, s);
      } else {
        assert IsLeast(m, s);
      }
    }
  }

  lemma LeastUnique(s: set<string>)
    ensures forall m, n :: IsLeast(m, s) && IsLeast(n, s) ==> m == n
  {
    forall m, n | IsLeast(m, s) && IsLeast(n, s) ensures m == n {
      LessEqAntisymmetric(m, n);
    }
  }

  /** The smallest element of a non-empty set. */
  function Least(s: set<string>): (m: string)
    requires s != {}
    ensures m in s
  {
    LeastExists(s);
    LeastUnique(s);
    var m :| IsLeast(m, s);
    m
  }

  lemma LeastIsLeast(s: set<string>)
    requires s != {}
    ensures IsLeast(Least(s), s)
  {
    LeastExists(s);
    LeastUnique(s);
  }

  /** No element occurs twice. */
  predicate Distinct<T(==)>(xs: seq<T>) {
    forall i, j :: 0 <= i < j < |xs| ==> xs[i] != xs[j]
  }

  /**
   * The elements of `s` in ascending order. Python visits sets and dict keys in
   * an order of its own; the model fixes this one wherever that order shows.
   */
  function Sorted(s: set<string>): seq<string>
    decreases |s|
  {
    if s == {} then []
    else
      var m := Least(s);
      [m] + Sorted(s - {m})
  }

  /** `Sorted` lists every element of the set once and nothing else. */
  lemma {:induction false} SortedLists(s: set<string>)
    ensures var r := Sorted(s);
      |r| == |s| && Distinct(r) && (forall x :: x in r <==> x in s)
    decreases |s|
  {
    if s != {} {
      var m := Least(s);
      SortedLists(s - {m});
    }
  }

  /** `Sorted` lists in ascending order. */
  lemma {:induction false} SortedAscends(s: set<string>)
    ensures var r := Sorted(s); forall i, j :: 0 <= i < j < |r| ==> LessEq(r[i], r[j])
    decreases |s|
  {
    if s != {} {
      var m := Least(s);
      LeastIsLeast(s);
      SortedAscends(s - {m});
      SortedLists(s - {m});
      assert forall x :: x in Sorted(s - {m}) ==> LessEq(m, x);
    }
  }

  /** `sub in s` for Python strings. */
  predicate Contains(s: string, sub: string)
    decreases |s|
  {
    sub <= s || (|s| > 0 && Contains(s[1..], sub))
  }

  /** `sub` occurs in `s` starting at position `i`. */
  predicate OccursAt(s: string, sub: string, i: int) {
    0 <= i <= |s| - |sub| && s[i..i + |sub|] == sub
  }

  /** `sub in s` holds exactly when `sub` occurs in `s` at some position. */
  lemma {:induction false} ContainsAt(s: string, sub: string)
    ensures Contains(s, sub) <==> exists i :: OccursAt(s, sub, i)
    decreases |s|
  {
    if exists i :: OccursAt(s, sub, i) {
      var i :| OccursAt(s, sub, i);
      if i == 0 {
        assert sub <= s;
      } else {
        ContainsAt(s[1..], sub);
        assert s[1..][i - 1..i - 1 + |sub|] == s[i..i + |sub|];
        assert OccursAt(s[1..], sub, i - 1);
      }
    }
    if Contains(s, sub) {
      if sub <= s {
        assert OccursAt(s, sub, 0);
      } else {
        ContainsAt(s[1..], sub);
        var i :| OccursAt(s[1..], sub, i);
        assert s[i + 1..i + 1 + |sub|] == s[1..][i..i + |sub|];
        assert OccursAt(s, sub, i + 1);
      }
    }
  }

  /** `s.replace(c, d)` for one-character `c` and `d`. */
  function Replace(s: string, c: char, d: char): (r: string)
    ensures |r| == |s|
    ensures forall i :: 0 <= i < |s| ==> r[i] == (if s[i] == c then d else s[i])
  {
    seq(|s|, i requires 0 <= i < |s| => if s[i] == c then d else s[i])
  }

  /** `set(s)`: the characters of `s`. */
  function CharSet(s: string): set<char> {
    set i | 0 <= i < |s| :: s[i]
  }

  /** `len(set(s))`: how many different characters `s` holds; at most its length. */
  function DistinctChars(s: string): (r: nat)
    ensures r <= |s|
  {
    CharSetCard(s);
    |CharSet(s)|
  }

  /** A string has no more different characters than positions. */
  lemma {:induction false} CharSetCard(s: string)
    ensures |CharSet(s)| <= |s|
    decreases |s|
  {
    if s != [] {
      CharSetCard(s[1..]);
      assert CharSet(s) == {s[0]} + CharSet(s[1..]) by {
        forall c | c in CharSet(s) ensures c in {s[0]} + CharSet(s[1..]) {
          var i :| 0 <= i < |s| && s[i] == c;
          if i > 0 {
            assert s[1..][i - 1] == c;
          }
        }
        forall c | c in CharSet(s[1..]) ensures c in CharSet(s) {
          var i :| 0 <= i < |s[1..]| && s[1..][i] == c;
          assert s[i + 1] == c;
        }
      }
    }
  }

  /** Appending a character already present adds no character. */
  lemma CharSetAppendPresent(s: string, c: char)
    requires c in s
    ensures CharSet(s + [c]) == CharSet(s)
  {
    var t := s + [c];
    forall x | x in CharSet(t) ensures x in CharSet(s) {
      var i :| 0 <= i < |t| && t[i] == x;
      if i < |s| {
        assert s[i] == x;
      } else {
        var j :| 0 <= j < |s| && s[j] == c;
        assert s[j] == x;
      }
    }
    forall x | x in CharSet(s) ensures x in CharSet(t) {
      var i :| 0 <= i < |s| && s[i] == x;
      assert t[i] == x;
    }
  }
}

=== FILE: tick_props.dfy ===
/**
 * What one tick of `simulate_step` (the ten trials, then the decay pass, the
 * memory-depth sample and the clock) guarantees, stated against the state
 * before the tick, and the invariants a whole run of ticks keeps.
 */
module TickProperties {
  import opened Wrappers
  import Strings
  import opened SymbolicState
  import opened Simulation
  import opened SimulationProperties

  /** The anchors a tick evicts, read off the state before the tick: unhit, and pushed below the decay threshold. */
  function EvictedBy(s: State, d: TickDraw, p: Params): set<string> {
    set a | a in s.resilience && a !in Hits(d.trials) && s.resilience[a] - p.decayRate < p.decayThreshold
  }

  /** The depth a tick starts from: the last sample, or 0 on an empty series. */
  function PreviousDepth(s: State): int {
    if s.memoryDepth == [] then 0 else s.memoryDepth[|s.memoryDepth| - 1]
  }

  // ------------------------------------------------------------ the decay pass

  /** The decay pass removes the evicted anchors from both the resilience map and the discovered set, and only them. */
  lemma DecayRemoves(m: State, hits: set<string>, p: Params)
    ensures var r := Decay(m, hits, p); var gone := Evicted(m.resilience, hits, p);
      && r.resilience.Keys == m.resilience.Keys - gone
      && r.discovered == m.discovered - gone
      && (forall a :: a in r.resilience && a in hits ==> r.resilience[a] == m.resilience[a])
      && (forall a :: a in r.resilience && a !in hits ==> r.resilience[a] == m.resilience[a] - p.decayRate
                                                          && r.resilience[a] >= p.decayThreshold)
  {
  }

  /** The decay pass appends one self-link per evicted anchor, and nothing else. */
  lemma DecayChain(m: State, hits: set<string>, p: Params)
    ensures var r := Decay(m, hits, p); var gone := Evicted(m.resilience, hits, p);
      && |m.symbolChain| <= |r.symbolChain| && r.symbolChain[..|m.symbolChain|] == m.symbolChain
      && var added := r.symbolChain[|m.symbolChain|..];
         && |added| == |gone|
         && (forall i :: 0 <= i < |added| ==> added[i].0 == added[i].1)
         && (set i | 0 <= i < |added| :: added[i].0) == gone
  {
    var gone := Evicted(m.resilience, hits, p);
    var xs := Strings.Sorted(gone);
    Strings.SortedLists(gone);
    var r := Decay(m, hits, p);
    assert r.symbolChain == m.symbolChain + SelfLinks(xs);
    var added := r.symbolChain[|m.symbolChain|..];
    assert added == SelfLinks(xs);
    assert (set i | 0 <= i < |added| :: added[i].0) == gone by {
      forall a | a in gone ensures a in (set i | 0 <= i < |added| :: added[i].0) {
        var i :| 0 <= i < |xs| && xs[i] == a;
        assert added[i].0 == a;
      }
    }
  }

  /** The trials never evict: what the decay pass of a tick removes is determined by the state before the tick. */
  lemma TrialsEvicted(s: State, d: TickDraw, tiers: map<string, int>, p: Params)
    ensures Evicted(RunTrials(s, d.trials, tiers, p).resilience, Hits(d.trials), p) == EvictedBy(s, d, p)
  {
    var m := RunTrials(s, d.trials, tiers, p);
    TrialsResilience(s, d.trials, tiers, p);
    HitsAreCounted(d.trials);
    forall a | a in m.resilience && a !in Hits(d.trials) ensures a in s.resilience && m.resilience[a] == s.resilience[a] {
      assert Get(m.resilience, a, 0) == Get(s.resilience, a, 0) + HitCount(d.trials, a);
    }
  }

  // ---------------------------------------------------------------- one tick

  /** A tick keeps the resilience keys equal to the discovered set: successes add to both, evictions remove from both. */
  lemma TickKeysMatch(s: State, tiers: map<string, int>, d: TickDraw, p: Params)
    requires WellFormed(d)
    requires KeysMatch(s)
    ensures KeysMatch(Tick(s, tiers, d, p))
  {
    var m := RunTrials(s, d.trials, tiers, p);
    TrialsDiscovered(s, d.trials, tiers, p);
    DecayRemoves(m, Hits(d.trials), p);
  }

  /** An anchor hit `k >= 1` times in a tick gains exactly `k` resilience, is discovered, and is not decayed. */
  lemma TickHitAnchor(s: State, tiers: map<string, int>, d: TickDraw, p: Params, a: string)
    requires WellFormed(d)
    requires HitCount(d.trials, a) >= 1
    ensures var r := Tick(s, tiers, d, p);
      && a in r.discovered && a in r.resilience
      && r.resilience[a] == Get(s.resilience, a, 0) + HitCount(d.trials, a)
  {
    var m := RunTrials(s, d.trials, tiers, p);
    TrialsResilience(s, d.trials, tiers, p);
    HitsAreCounted(d.trials);
    DecayRemoves(m, Hits(d.trials), p);
    assert Get(m.resilience, a, 0) == Get(s.resilience, a, 0) + HitCount(d.trials, a);
  }

  /**
   * An unhit anchor with a resilience entry loses the decay rate; it is
   * removed from both the resilience map and the discovered set exactly when
   * the result falls below the decay threshold.
   */
  lemma TickUnhitAnchor(s: State, tiers: map<string, int>, d: TickDraw, p: Params, a: string)
    requires WellFormed(d)
    requires a in s.resilience && a !in Hits(d.trials)
    ensures var r := Tick(s, tiers, d, p);
      && (a in r.resilience <==> s.resilience[a] - p.decayRate >= p.decayThreshold)
      && (a in r.resilience ==> r.resilience[a] == s.resilience[a] - p.decayRate)
      && (a !in r.resilience ==> a !in r.discovered)
  {
    var m := RunTrials(s, d.trials, tiers, p);
    TrialsResilience(s, d.trials, tiers, p);
    HitsAreCounted(d.trials);
    TrialsEvicted(s, d, tiers, p);
    DecayRemoves(m, Hits(d.trials), p);
    assert Get(m.resilience, a, 0) == Get(s.resilience, a, 0) + HitCount(d.trials, a);
  }

  /** After a tick the discovered anchors are those before it and those hit, less the evicted ones. */
  lemma TickDiscovered(s: State, tiers: map<string, int>, d: TickDraw, p: Params)
    requires WellFormed(d)
    ensures Tick(s, tiers, d, p).discovered == (s.discovered + Hits(d.trials)) - EvictedBy(s, d, p)
  {
    var m := RunTrials(s, d.trials, tiers, p);
    TrialsDiscovered(s, d.trials, tiers, p);
    TrialsEvicted(s, d, tiers, p);
    DecayRemoves(m, Hits(d.trials), p);
  }

  /** Every resilience value is at least 1. */
  predicate ResiliencePositive(s: State) {
    forall a :: a in s.resilience ==> s.resilience[a] >= 1
  }

  /**
   * With a decay threshold of at least 1, a tick keeps every resilience value
   * at least 1: a hit only adds, and an unhit anchor that falls below the
   * threshold is evicted.
   */
  lemma TickResiliencePositive(s: State, tiers: map<string, int>, d: TickDraw, p: Params)
    requires WellFormed(d)
    requires p.decayThreshold >= 1
    requires ResiliencePositive(s)
    ensures ResiliencePositive(Tick(s, tiers, d, p))
  {
    var r := Tick(s, tiers, d, p);
    HitsAreCounted(d.trials);
    forall a | a in r.resilience ensures r.resilience[a] >= 1 {
      if a in Hits(d.trials) {
        TickHitAnchor(s, tiers, d, p, a);
      } else if a in s.resilience {
        TickUnhitAnchor(s, tiers, d, p, a);
      } else {
        TickUntouchedAnchor(s, tiers, d, p, a);
        assert false;
      }
    }
  }

  /** An anchor that neither had resilience nor was hit still has none after the tick. */
  lemma TickUntouchedAnchor(s: State, tiers: map<string, int>, d: TickDraw, p: Params, a: string)
    requires WellFormed(d)
    requires a !in s.resilience && a !in Hits(d.trials)
    ensures a !in Tick(s, tiers, d, p).resilience
  {
    var m := RunTrials(s, d.trials, tiers, p);
    TrialsDiscovered(s, d.trials, tiers, p);
    DecayRemoves(m, Hits(d.trials), p);
  }

  /** A tick appends one `(anchor, anchor)` link to the symbol chain per evicted anchor, and nothing else. */
  lemma TickSymbolChain(s: State, tiers: map<string, int>, d: TickDraw, p: Params)
    requires WellFormed(d)
    ensures var r := Tick(s, tiers, d, p);
      && |s.symbolChain| <= |r.symbolChain| && r.symbolChain[..|s.symbolChain|] == s.symbolChain
      && var added := r.symbolChain[|s.symbolChain|..];
         && |added| == |EvictedBy(s, d, p)|
         && (forall i :: 0 <= i < |added| ==> added[i].0 == added[i].1)
         && (set i | 0 <= i < |added| :: added[i].0) == EvictedBy(s, d, p)
  {
    var m := RunTrials(s, d.trials, tiers, p);
    TrialsEvicted(s, d, tiers, p);
    DecayChain(m, Hits(d.trials), p);
  }

  /**
   * A tick logs each anchor it newly discovers exactly once, stamped with the
   * tick's time and the anchor's tier (8 when the table has none).
   */
  lemma TickDiscoveryLog(s: State, tiers: map<string, int>, d: TickDraw, p: Params)
    requires WellFormed(d)
    ensures var r := Tick(s, tiers, d, p);
      && |s.discoveryLog| <= |r.discoveryLog| && r.discoveryLog[..|s.discoveryLog|] == s.discoveryLog
      && var added := r.discoveryLog[|s.discoveryLog|..];
         && DistinctAnchors(added)
         && LoggedAnchors(added) == Hits(d.trials) - s.discovered
         && (forall e :: e in added ==>
               e.time == s.time && e.tier == Some(Get(tiers, e.anchor, DefaultTier)) && e.expression == None)
  {
    TrialsLogShape(s, d.trials, tiers, p);
    TrialsLogAnchors(s, d.trials, tiers, p);
  }

  /**
   * A tick only adds to the pair counters, only appends cycle records, stamps
   * them with the tick's time, and keeps the cycle log consistent with the
   * counters (so no pair is ever recorded twice).
   */
  lemma TickCycles(s: State, tiers: map<string, int>, d: TickDraw, p: Params)
    requires WellFormed(d)
    requires CyclesConsistent(s.pairCounter, s.cycles, p.threshold)
    ensures var r := Tick(s, tiers, d, p);
      && CountersGrow(s.pairCounter, r.pairCounter)
      && |s.cycles| <= |r.cycles| && r.cycles[..|s.cycles|] == s.cycles
      && (forall i :: |s.cycles| <= i < |r.cycles| ==> r.cycles[i].detectedAt == s.time)
      && CyclesConsistent(r.pairCounter, r.cycles, p.threshold)
  {
    TrialsCountersGrow(s, d.trials, tiers, p);
    TrialsCyclesAppended(s, d.trials, tiers, p);
    TrialsCyclesConsistent(s, d.trials, tiers, p);
  }

  /**
   * The depth a tick appends: previous plus the successes when there was at
   * least one, otherwise the previous depth lowered by at most 2 and floored
   * at 0.
   */
  lemma TickMemoryDepth(s: State, tiers: map<string, int>, d: TickDraw, p: Params)
    requires WellFormed(d)
    ensures var v := Tick(s, tiers, d, p).memoryDepth[|s.memoryDepth|];
      && (Successes(d.trials) > 0 ==> v == PreviousDepth(s) + Successes(d.trials))
      && (Successes(d.trials) == 0 ==> v >= 0 && v >= PreviousDepth(s) - 2 && v <= IntMax(0, PreviousDepth(s)))
  {
  }

  /** Depths stay non-negative. */
  lemma TickDepthNonNegative(s: State, tiers: map<string, int>, d: TickDraw, p: Params)
    requires WellFormed(d)
    requires DepthNonNegative(s)
    ensures DepthNonNegative(Tick(s, tiers, d, p))
  {
    var r := Tick(s, tiers, d, p);
    assert r.memoryDepth == s.memoryDepth + [r.memoryDepth[|s.memoryDepth|]];
    TickMemoryDepth(s, tiers, d, p);
  }

  /** A tick keeps every phase curvature non-negative and never raises one. */
  lemma TickCurvature(s: State, tiers: map<string, int>, d: TickDraw, p: Params)
    requires WellFormed(d)
    requires CurvatureNonNegative(s)
    ensures var r := Tick(s, tiers, d, p);
      && CurvatureNonNegative(r)
      && r.phaseCurvature.Keys == s.phaseCurvature.Keys + Hits(d.trials)
      && (forall a :: a in s.phaseCurvature ==> r.phaseCurvature[a] <= s.phaseCurvature[a])
  {
    TrialsCurvature(s, d.trials, tiers, p);
  }

  // ---------------------------------------------------------- many ticks

  /** `simulate_step` keeps the resilience keys equal to the discovered set. */
  lemma {:induction false} StepKeysMatch(s: State, tiers: map<string, int>, draws: seq<TickDraw>, p: Params)
    requires AllWellFormed(draws)
    requires KeysMatch(s)
    ensures KeysMatch(SimulateStep(s, tiers, draws, p))
    decreases |draws|
  {
    if draws != [] {
      TickKeysMatch(s, tiers, draws[0], p);
      StepKeysMatch(Tick(s, tiers, draws[0], p), tiers, draws[1..], p);
    }
  }

  /** `simulate_step` keeps the cycle log consistent with the counters, and the counters only grow. */
  lemma {:induction false} StepCycles(s: State, tiers: map<string, int>, draws: seq<TickDraw>, p: Params)
    requires AllWellFormed(draws)
    requires CyclesConsistent(s.pairCounter, s.cycles, p.threshold)
    ensures var r := SimulateStep(s, tiers, draws, p);
      && CyclesConsistent(r.pairCounter, r.cycles, p.threshold)
      && CountersGrow(s.pairCounter, r.pairCounter)
      && |s.cycles| <= |r.cycles| && r.cycles[..|s.cycles|] == s.cycles
    decreases |draws|
  {
    if draws != [] {
      var s1 := Tick(s, tiers, draws[0], p);
      TickCycles(s, tiers, draws[0], p);
      StepCycles(s1, tiers, draws[1..], p);
      var r := SimulateStep(s, tiers, draws, p);
      assert r.cycles[..|s.cycles|] == s1.cycles[..|s.cycles|];
    }
  }

  /** `simulate_step` keeps every memory depth non-negative. */
  lemma {:induction false} StepDepthNonNegative(s: State, tiers: map<string, int>, draws: seq<TickDraw>, p: Params)
    requires AllWellFormed(draws)
    requires DepthNonNegative(s)
    ensures DepthNonNegative(SimulateStep(s, tiers, draws, p))
    decreases |draws|
  {
    if draws != [] {
      TickDepthNonNegative(s, tiers, draws[0], p);
      StepDepthNonNegative(Tick(s, tiers, draws[0], p), tiers, draws[1..], p);
    }
  }

  /** `simulate_step` keeps every phase curvature non-negative and never raises one. */
  lemma {:induction false} StepCurvature(s: State, tiers: map<string, int>, draws: seq<TickDraw>, p: Params)
    requires AllWellFormed(draws)
    requires CurvatureNonNegative(s)
    ensures var r := SimulateStep(s, tiers, draws, p);
      && CurvatureNonNegative(r)
      && s.phaseCurvature.Keys <= r.phaseCurvature.Keys
      && (forall a :: a in s.phaseCurvature ==> r.phaseCurvature[a] <= s.phaseCurvature[a])
    decreases |draws|
  {
    if draws != [] {
      var s1 := Tick(s, tiers, draws[0], p);
      TickCurvature(s, tiers, draws[0], p);
      StepCurvature(s1, tiers, draws[1..], p);
    }
  }

  /** The invariants hold from a fresh state on. */
  lemma FreshInvariants(p: Params)
    ensures KeysMatch(Fresh()) && CyclesConsistent(Fresh().pairCounter, Fresh().cycles, p.threshold)
    ensures DepthNonNegative(Fresh()) && CurvatureNonNegative(Fresh())
  {
  }
}

=== FILE: tracker.dfy ===
/**
 * `track_emergence` of anchor_tracker.py: the last 50 discovery-log entries,
 * each scored by the distinct characters of its expression plus half its
 * tier, listed by non-increasing score with ties in log order (Python's sort
 * is stable).
 */
module Tracker {
  import opened Wrappers
  import opened Strings
  import opened SymbolicState
  import opened Simulation
  import TickProperties

  /** How many of the most recent log entries are scored. */
  const WindowSize := 50

  /** `discovery_log[-50:]`. */
  function Recent(log: seq<LogEntry>): (r: seq<LogEntry>)
    ensures |r| == if |log| < WindowSize then |log| else WindowSize
    ensures forall i :: 0 <= i < |r| ==> r[i] == log[|log| - |r| + i]
  {
    if |log| <= WindowSize then log else log[|log| - WindowSize..]
  }

  /**
   * `len(set(expression)) + tier * 0.5`, a missing expression read as "" and
   * a missing tier as 0.
   */
  function Score(e: LogEntry): (r: real)
    ensures e.tier.GetOr(0) as real / 2.0 <= r <= |e.expression.GetOr("")| as real + e.tier.GetOr(0) as real / 2.0
  {
    DistinctChars(e.expression.GetOr("")) as real + e.tier.GetOr(0) as real * 0.5
  }

  /**
   * The score reads the expression only through its set of characters:
   * entries with equal tiers and expressions over the same characters score
   * alike, and repeating a character already present changes nothing.
   */
  lemma ScoreCountsDistinctCharacters(e1: LogEntry, e2: LogEntry, c: char)
    ensures e1.tier.GetOr(0) == e2.tier.GetOr(0) && CharSet(e1.expression.GetOr("")) == CharSet(e2.expression.GetOr(""))
            ==> Score(e1) == Score(e2)
    ensures var x := e1.expression.GetOr("");
      c in x ==> Score(e1.(expression := Some(x + [c]))) == Score(e1)
  {
    var x := e1.expression.GetOr("");
    if c in x {
      CharSetAppendPresent(x, c);
    }
  }

  /** A scored entry, with its position in the window. */
  datatype Scored = Scored(anchor: string, score: real, position: nat)

  /** The window's entries scored, in log order. */
  function ScoreAll(w: seq<LogEntry>): (r: seq<Scored>)
    ensures |r| == |w|
    ensures forall i :: 0 <= i < |r| ==> r[i] == Scored(w[i].anchor, Score(w[i]), i)
  {
    seq(|w|, i requires 0 <= i < |w| => Scored(w[i].anchor, Score(w[i]), i))
  }

  /** `x` comes before `y` in a stable sort by non-increasing score. */
  predicate Before(x: Scored, y: Scored) {
    x.score > y.score || (x.score == y.score && x.position < y.position)
  }

  /** Every item comes before every later one. */
  predicate Ordered(t: seq<Scored>) {
    forall i, j :: 0 <= i < j < |t| ==> Before(t[i], t[j])
  }

  /** No two items share a position. */
  predicate DistinctPositions(t: seq<Scored>) {
    forall i, j :: 0 <= i < j < |t| ==> t[i].position != t[j].position
  }

  /** `x` placed before the first item it precedes. */
  function Insert(x: Scored, t: seq<Scored>): (r: seq<Scored>)
    ensures |r| == |t| + 1
    ensures multiset(r) == multiset(t) + multiset{x}
  {
    if t == [] then [x]
    else if Before(x, t[0]) then [x] + t
    else
      assert t == [t[0]] + t[1..];
      [t[0]] + Insert(x, t[1..])
  }

  /** Insertion sort by `Before`. */
  function Sort(t: seq<Scored>): (r: seq<Scored>)
    ensures multiset(r) == multiset(t)
  {
    if t == [] then []
    else
      assert t == [t[0]] + t[1..];
      Insert(t[0], Sort(t[1..]))
  }

  /** `sorted(emergence_data, key=lambda x: -x[1])`, each item with its window position. */
  function RankedEntries(log: seq<LogEntry>): seq<Scored> {
    Sort(ScoreAll(Recent(log)))
  }

  /** `track_emergence(state)`: the (anchor, score) pairs of the window, by non-increasing score. */
  function TrackEmergence(log: seq<LogEntry>): (r: seq<(string, real)>)
    ensures |r| == (if |log| < WindowSize then |log| else WindowSize)
    ensures forall i, j :: 0 <= i < j < |r| ==> r[i].1 >= r[j].1
  {
    RankingIsStableSort(log);
    Strip(RankedEntries(log))
  }

  // ------------------------------------------------------------------ properties

  /** Inserting into an ordered list with distinct positions an item at a new position keeps it ordered. */
  lemma {:induction false} InsertOrdered(x: Scored, t: seq<Scored>)
    requires Ordered(t)
    requires forall k :: 0 <= k < |t| ==> t[k].position != x.position
    ensures Ordered(Insert(x, t))
    decreases |t|
  {
    if t != [] && !Before(x, t[0]) {
      InsertOrdered(x, t[1..]);
      var r := Insert(x, t);
      var rest := Insert(x, t[1..]);
      assert r == [t[0]] + rest;
      forall k | 0 <= k < |rest| ensures Before(t[0], rest[k]) {
        assert rest[k] in multiset(rest);
        if rest[k] != x {
          assert rest[k] in multiset(t[1..]);
          var m :| 0 <= m < |t[1..]| && t[1..][m] == rest[k];
          assert t[1..][m] == t[m + 1];
        }
      }
    }
  }

  /** Items at distinct positions sort into an ordered list. */
  lemma {:induction false} SortOrdered(t: seq<Scored>)
    requires DistinctPositions(t)
    ensures Ordered(Sort(t))
    decreases |t|
  {
    if t != [] {
      SortOrdered(t[1..]);
      var s := Sort(t[1..]);
      forall k | 0 <= k < |s| ensures s[k].position != t[0].position {
        assert s[k] in multiset(t[1..]);
        var m :| 0 <= m < |t[1..]| && t[1..][m] == s[k];
        assert t[1..][m] == t[m + 1];
      }
      InsertOrdered(t[0], s);
    }
  }

  /**
   * The ranking is ordered by non-increasing score, equal scores keeping
   * their log order, and is a permutation of the scored window: as many
   * items, at distinct positions, each the scored window entry at its position.
   */
  lemma RankingIsStableSort(log: seq<LogEntry>)
    ensures var w := Recent(log); var r := RankedEntries(log);
      && Ordered(r)
      && |r| == |w|
      && multiset(r) == multiset(ScoreAll(w))
      && (forall i :: 0 <= i < |r| ==>
            r[i].position < |w| && r[i].anchor == w[r[i].position].anchor && r[i].score == Score(w[r[i].position]))
  {
    var w := Recent(log);
    var s := ScoreAll(w);
    SortOrdered(s);
    var r := RankedEntries(log);
    assert |r| == |multiset(r)| == |multiset(s)| == |s|;
    forall i | 0 <= i < |r|
      ensures r[i].position < |w| && r[i].anchor == w[r[i].position].anchor && r[i].score == Score(w[r[i].position])
    {
      assert r[i] in multiset(s);
    }
  }

  /**
   * `track_emergence` reports `min(50, len(log))` pairs by non-increasing
   * score; equal scores appear in log order; the pairs are those of the
   * window's entries, each once.
   */
  lemma TrackEmergenceSorted(log: seq<LogEntry>)
    ensures var r := TrackEmergence(log);
      && |r| == (if |log| < WindowSize then |log| else WindowSize)
      && (forall i, j :: 0 <= i < j < |r| ==> r[i].1 >= r[j].1)
      && (forall i, j :: 0 <= i < j < |r| && r[i].1 == r[j].1 ==>
            RankedEntries(log)[i].position < RankedEntries(log)[j].position)
  {
    RankingIsStableSort(log);
  }

  /** The window entries' (anchor, score) pairs, in log order. */
  function WindowPairs(log: seq<LogEntry>): (r: seq<(string, real)>)
    ensures |r| == |Recent(log)|
    ensures forall i :: 0 <= i < |r| ==> r[i] == (Recent(log)[i].anchor, Score(Recent(log)[i]))
  {
    Strip(ScoreAll(Recent(log)))
  }

  /** The reported pairs are a permutation of the window entries' (anchor, score) pairs. */
  lemma {:induction false} TrackEmergencePermutation(log: seq<LogEntry>)
    ensures multiset(TrackEmergence(log)) == multiset(WindowPairs(log))
  {
    StripSort(ScoreAll(Recent(log)));
  }

  /** The (anchor, score) pairs of scored items. */
  function Strip(t: seq<Scored>): (r: seq<(string, real)>)
    ensures |r| == |t|
    ensures forall i :: 0 <= i < |t| ==> r[i] == (t[i].anchor, t[i].score)
  {
    seq(|t|, i requires 0 <= i < |t| => (t[i].anchor, t[i].score))
  }

  lemma StripCons(x: Scored, t: seq<Scored>)
    ensures Strip([x] + t) == [(x.anchor, x.score)] + Strip(t)
  {
  }

  lemma {:induction false} StripInsert(x: Scored, t: seq<Scored>)
    ensures multiset(Strip(Insert(x, t))) == multiset(Strip(t)) + multiset{(x.anchor, x.score)}
    decreases |t|
  {
    if t == [] {
    } else if Before(x, t[0]) {
      StripCons(x, t);
    } else {
      StripInsert(x, t[1..]);
      StripCons(t[0], Insert(x, t[1..]));
      assert t == [t[0]] + t[1..];
      StripCons(t[0], t[1..]);
    }
  }

  lemma {:induction false} StripSort(t: seq<Scored>)
    ensures multiset(Strip(Sort(t))) == multiset(Strip(t))
    decreases |t|
  {
    if t != [] {
      StripSort(t[1..]);
      StripInsert(t[0], Sort(t[1..]));
      assert Strip(t) == [(t[0].anchor, t[0].score)] + Strip(t[1..]);
    }
  }

  /**
   * Entries a simulation tick logs carry no expression, so they score half
   * their tier: half the table's tier, or 4 for an anchor not in the table.
   */
  lemma TickEntriesScoreHalfTier(s: State, tiers: map<string, int>, d: TickDraw, p: Params)
    requires WellFormed(d)
    ensures var r := Tick(s, tiers, d, p);
      forall k :: |s.discoveryLog| <= k < |r.discoveryLog| ==>
        Score(r.discoveryLog[k]) == Get(tiers, r.discoveryLog[k].anchor, DefaultTier) as real / 2.0
  {
    var r := Tick(s, tiers, d, p);
    TickProperties.TickDiscoveryLog(s, tiers, d, p);
    forall k | |s.discoveryLog| <= k < |r.discoveryLog|
      ensures Score(r.discoveryLog[k]) == Get(tiers, r.discoveryLog[k].anchor, DefaultTier) as real / 2.0
    {
      assert r.discoveryLog[k] == r.discoveryLog[|s.discoveryLog|..][k - |s.discoveryLog|];
    }
  }
}

=== FILE: truth_anchors.dfy ===
/**
 * The truth-anchor scaffold of truth_anchors.py: the predicates (names and
 * arities, bodies left opaque), the tier table zipped onto them, and
 * `observe_environment`, which reinforces every anchor whose predicate holds
 * on the leading items of an environment stream.
 */
module TruthAnchors {
  import opened Wrappers
  import Strings
  import opened SymbolicState

  /** An anchor predicate: its name and how many positional arguments it takes (`co_argcount`). */
  datatype Predicate = Predicate(name: string, arity: nat)

  /** The scaffold keys, in dictionary order. */
  const ScaffoldNames: seq<string> := [
    "associativity_add",
    "commutativity_add",
    "distributive",
    "factor_identity",
    "derivative_linear",
    "derivative_quadratic",
    "derivative_sin",
    "pythag_identity",
    "log_exp_inverse",
    "exp_log_inverse",
    "dot_product_identity",
    "matrix_identity",
    "demorgan_1",
    "demorgan_2",
    "identity_morphism",
    "composition_morphism",
    "prime_check",
    "fibonacci_recurrence",
    "modular_equivalence",
    "square_identity",
    "closure_under_addition",
    "identity_element_addition",
    "inverse_exists_addition",
    "commutator_zero_addition",
    "associativity_preserves_cycle",
    "operation_arity_effect",
    "recursive_definition_identity"
  ]

  /** The number of parameters of each scaffold predicate, in the same order. */
  const Arities: seq<nat> := [3, 2, 3, 1, 0, 1, 1, 1, 1, 1, 2, 1, 2, 2, 1, 1, 1, 3, 3, 1, 2, 1, 1, 2, 3, 3, 1]

  /** The scaffold: each key with its predicate's arity. */
  const Scaffold: seq<Predicate> := seq(|ScaffoldNames|, i requires 0 <= i < |ScaffoldNames| => Predicate(ScaffoldNames[i], Arities[i]))

  /** The tier weights zipped onto the scaffold keys: sixteen graded ones, then eleven 8s. */
  const Weights: seq<int> := [1, 1, 2, 2, 3, 3, 3, 4, 4, 4, 5, 5, 6, 6, 7, 7] + seq(11, _ => 8)

  /** `{k: i for k, i in zip(names, weights)}`, entered into `table`: pairs up to the shorter list, a later key overriding an earlier one. */
  function TierTableFrom(table: map<string, int>, names: seq<string>, weights: seq<int>): map<string, int>
    decreases |names|
  {
    if names == [] || weights == [] then table
    else TierTableFrom(table[names[0] := weights[0]], names[1..], weights[1..])
  }

  /** `anchor_tiers`. */
  const AnchorTiers: map<string, int> := TierTableFrom(map[], ScaffoldNames, Weights)

  /**
   * With distinct keys, the table maps the `i`-th key to the `i`-th weight
   * for every position both lists have, and leaves every other key as it was.
   */
  lemma {:induction false} TierTableLookup(table: map<string, int>, names: seq<string>, weights: seq<int>)
    requires Strings.Distinct(names)
    ensures var r := TierTableFrom(table, names, weights);
      && (forall i :: 0 <= i < |names| && i < |weights| ==> names[i] in r && r[names[i]] == weights[i])
      && (forall k :: k !in names[..Min(|names|, |weights|)] ==> (k in r <==> k in table) && Get(r, k, 0) == Get(table, k, 0))
    decreases |names|
  {
    if names != [] && weights != [] {
      var t1 := table[names[0] := weights[0]];
      assert Strings.Distinct(names[1..]);
      TierTableLookup(t1, names[1..], weights[1..]);
      var r := TierTableFrom(table, names, weights);
      var n := Min(|names|, |weights|);
      assert names[..n] == [names[0]] + names[1..][..n - 1];
      assert names[0] !in names[1..][..n - 1];
      forall i | 0 <= i < |names| && i < |weights| ensures names[i] in r && r[names[i]] == weights[i] {
        if i > 0 {
          assert names[i] == names[1..][i - 1] && weights[i] == weights[1..][i - 1];
        } else {
          assert Get(r, names[0], 0) == Get(t1, names[0], 0);
        }
      }
    }
  }

  function Min(a: nat, b: nat): nat {
    if a <= b then a else b
  }

  lemma NamesDistinctWithin0()
    ensures forall i, j :: 0 <= i < j < 9 ==> ScaffoldNames[i] != ScaffoldNames[j]
  {
  }

  lemma NamesDistinctWithin9()
    ensures forall i, j :: 9 <= i < j < 18 ==> ScaffoldNames[i] != ScaffoldNames[j]
  {
  }

  lemma NamesDistinctWithin18()
    ensures forall i, j :: 18 <= i < j < 27 ==> ScaffoldNames[i] != ScaffoldNames[j]
  {
  }

  lemma NamesDistinctAcross0_9()
    ensures forall i, j :: 0 <= i < 9 && 9 <= j < 18 ==> ScaffoldNames[i] != ScaffoldNames[j]
  {
  }

  lemma NamesDistinctAcross0_18()
    ensures forall i, j :: 0 <= i < 9 && 18 <= j < 27 ==> ScaffoldNames[i] != ScaffoldNames[j]
  {
  }

  lemma NamesDistinctAcross9_18()
    ensures forall i, j :: 9 <= i < 18 && 18 <= j < 27 ==> ScaffoldNames[i] != ScaffoldNames[j]
  {
  }

  /** The scaffold keys are distinct, as dictionary keys are. */
  lemma ScaffoldNamesDistinct()
    ensures Strings.Distinct(ScaffoldNames)
  {
    NamesDistinctWithin0();
    NamesDistinctWithin9();
    NamesDistinctWithin18();
    NamesDistinctAcross0_9();
    NamesDistinctAcross0_18();
    NamesDistinctAcross9_18();
  }

  /** The weights lie in 1..8, never decrease, and the last eleven are 8. */
  lemma WeightValues()
    ensures |Weights| == |ScaffoldNames|
    ensures forall i :: 0 <= i < |Weights| ==> 1 <= Weights[i] <= 8
    ensures forall i :: 0 <= i < |Weights| - 1 ==> Weights[i] <= Weights[i + 1]
    ensures forall i :: |Weights| - 11 <= i < |Weights| ==> Weights[i] == 8
  {
  }

  /** A sequence that never steps down never decreases. */
  lemma {:induction false} StepsUpIsMonotone(xs: seq<int>, i: nat, j: nat)
    requires forall k :: 0 <= k < |xs| - 1 ==> xs[k] <= xs[k + 1]
    requires i <= j < |xs|
    ensures xs[i] <= xs[j]
    decreases j - i
  {
    if i < j {
      StepsUpIsMonotone(xs, i + 1, j);
    }
  }

  /** Every scaffold key is mapped to its own weight, and nothing else is mapped. */
  lemma AnchorTiersLookup()
    ensures AnchorTiers.Keys == set i | 0 <= i < |ScaffoldNames| :: ScaffoldNames[i]
    ensures forall i :: 0 <= i < |ScaffoldNames| ==> AnchorTiers[ScaffoldNames[i]] == Weights[i]
  {
    ScaffoldNamesDistinct();
    WeightValues();
    var names := ScaffoldNames;
    TierTableLookup(map[], names, Weights);
    assert names[..Min(|names|, |Weights|)] == names;
    forall k | k in AnchorTiers ensures k in set i | 0 <= i < |names| :: names[i] {
      assert k in names;
    }
  }

  /**
   * The tiers of `anchor_tiers` lie in 1..8, never decrease in scaffold
   * order, and the last eleven anchors get 8.
   */
  lemma AnchorTierValues()
    ensures forall i :: 0 <= i < |Scaffold| ==> Scaffold[i].name in AnchorTiers
    ensures forall i :: 0 <= i < |Scaffold| ==> 1 <= AnchorTiers[Scaffold[i].name] <= 8
    ensures forall i, j :: 0 <= i <= j < |Scaffold| ==> AnchorTiers[Scaffold[i].name] <= AnchorTiers[Scaffold[j].name]
    ensures forall i :: |Scaffold| - 11 <= i < |Scaffold| ==> AnchorTiers[Scaffold[i].name] == 8
  {
    AnchorTiersLookup();
    WeightValues();
    forall i, j | 0 <= i <= j < |Scaffold| ensures AnchorTiers[Scaffold[i].name] <= AnchorTiers[Scaffold[j].name] {
      StepsUpIsMonotone(Weights, i, j);
    }
  }
}

=== FILE: wrappers.dfy ===
/** Optional values, fallible results, and `dict.get` with a default. */
module Wrappers {

  /** A value that may be absent: a missing dictionary key, or Python's `None`. */
  datatype Option<+T> = None | Some(value: T) {

    /** The value, or `default` when absent. */
    function GetOr(default: T): T {
      match this
      case Some(v) => v
      case None => default
    }
  }

  /** The outcome of an operation that raises in the repository. */
  datatype Result<+R> = Success(value: R) | Failure(error: string)

  /** `m.get(k, d)`. */
  function Get<K, V>(m: map<K, V>, k: K, d: V): V {
    if k in m then m[k] else d
  }
}
